=== FILE: README.md ===
# Weather agent with A2UI confirmation: a Dafny model

This project models the core of a weather assistant that speaks the A2A
protocol and can answer with A2UI, a JSON format for declarative user
interfaces. It has five parts.

- **The weather agent's generation loop** (`WeatherAgent.stream`) asks a
  language model for a reply at most twice.
  - In UI mode, a reply must hold the delimiter `---a2ui_JSON---` followed
    by JSON.
  - That JSON must parse and then pass the A2UI schema, wrapped as an
    array of messages.
  - A rejected or missing reply leads to a corrective prompt that repeats
    the original request.
  - Every call ends with exactly one completion.
- **The A2UI schema** becomes a validity predicate over JSON values. It
  checks types, required keys, `minItems`, enumerations and the colour
  pattern. It does not require exactly one action per message.
- **The single-agent executor** (`WeatherAgentExecutor.execute`) works
  through each turn:
  - it picks the user's UI event out of the incoming message;
  - it normalises the action context;
  - it decodes the checkboxes of a confirmation;
  - it builds the instruction for the agent;
  - it relays the agent's progress;
  - it consumes a pending confirmation from the session state and answers
    with the confirmation form, or turns the reply into message parts with
    a task state.
- **The two-agent executor** (`TwoAgentExecutor.execute`) does the same
  job, but routes typed text to a confirmation agent and button presses to
  the weather agent. A rejection is answered without any agent. It
  decodes checkboxes and cleans code fences differently.
- **The confirmation tool** (`show_weather_confirmation`) writes the
  pending confirmation that the executors read. The hand-off from tool to
  executor is proved end to end.

Layout, one module per file:

| file | module |
|---|---|
| `wrappers.dfy` | `Option` and `Result` |
| `text.dfy` | Python string operations: `strip`, `lstrip`/`rstrip` with a character set, `split(d, 1)`, `in`, `lower`, `join` |
| `json.dfy` | parsed JSON values, Python truthiness, `dict.get`, `str()` of a value; `Library`, which holds `json.loads` and `jsonschema.validate` as given functions |
| `schema.dfy` | the A2UI schema as predicates, with its properties |
| `sessions.dfy` | the in-memory session store, as a class over a map from session id to state |
| `weather_agent.dfy` | the generation, validation and retry loop |
| `a2a.dfy` | parts, status events, the event queue, the scan for the UI event, context conversion, relaying the agent's stream, and building the reply parts (shared by both executors) |
| `turn.dfy` | the dispatch datatype and the confirmation options, both shared by the executors |
| `confirmation_ui.dfy` | the three-message confirmation form in both executors' variants |
| `weather_tools.dfy` | the confirmation tool |
| `handoff.dfy` | the pending-confirmation check after a run |
| `weather_executor.dfy` | the single-agent executor |
| `two_agent_executor.dfy` | the two-agent executor |

Outside inputs are parameters.

- **The language model** is a sequence of generations, one per attempt.
  Each generation has its progress events and its reply, if any.
- **The agent a turn talks to** is a function from the instruction to the
  items its stream yields.
- **`json.loads` and `jsonschema.validate`** come in a `Library` value.
  The ghost predicate `WeatherAgent.EnforcesSchema` ties its validator to
  `Schema.ValidBatch`.
- **The text of a pydantic validation error** is a function.
- **The session store an executor reads after a run** is the store as the
  agent's run left it.

## Model

The single-agent executor's members from `WeatherExecutor.AfterRun` on build on `WeatherExecutor.ReplyEvents`. That is the corrected reply block described under "## Findings", which sends one final status for every reply. The block as the source writes it is modelled only by `WeatherExecutor.ReplyEventsAsWritten`. Likewise, the members that remove the pending entry assume the delete reaches the session store (the second row under "## Findings").

| member | source | states |
|---|---|---|
| Sessions.SessionService.Lookup | agent/weather_agent_executor.py:473-477 | returns the state of the session when it exists and None otherwise; the store is unchanged |
| Sessions.SessionService.Create | agent/weather_agent.py:232-238 | the session now exists with exactly the given state; every other session is unchanged |
| Sessions.SessionService.Put | agent/weather_agent.py:239-240 | sets one key of an existing session's state; nothing else changes |
| Sessions.SessionService.Delete | agent/weather_agent_executor.py:496-497 | removes one key from an existing session's state; nothing else changes |
| WeatherAgent.Agent.constructor | agent/weather_agent.py:177-199 | records the base URL, the mode and whether the schema constant parsed (the wrapped array validator exists exactly then) |
| WeatherAgent.StateWithBaseUrl | agent/weather_agent.py:225-240 | the session state always holds `base_url`; an existing session keeps every key it had; a new session holds only `base_url` |
| WeatherAgent.Agent.EnsureSession | agent/weather_agent.py:225-240 | the store afterwards holds the session with `StateWithBaseUrl` of what it held before |
| WeatherAgent.JsonPart | agent/weather_agent.py:318-323 | None exactly when the delimiter is absent; otherwise the text after its first occurrence |
| WeatherAgent.CleanFence | agent/weather_agent.py:328-330 | the cleaned text is no longer than the JSON part and has no whitespace at either end |
| WeatherAgent.Validate | agent/weather_agent.py:317-361 | rejects a reply without the delimiter; an accepted reply has the delimiter, and the text after it is non-blank both after `strip()` and after the fence cleanup, parses, and passes the validator |
| WeatherAgent.Agent.Check | agent/weather_agent.py:310-364 | the reply is valid exactly when it is accepted (always in text mode, by `Validate` in UI mode); a rejected reply's error message is the feedback for the next prompt |
| WeatherAgent.Progress | agent/weather_agent.py:289-293 | one processing-message update per intermediate event, in order |
| WeatherAgent.StepOf | agent/weather_agent.py:268-387 | a retry sends a corrective prompt for the same query; a finish is an accepted reply, and it is the model's own reply when there was one |
| WeatherAgent.AttemptsFrom | agent/weather_agent.py:261-387 | from attempt `a` on, at most `2 - a` prompts; the transcript ends with exactly one completion; every prompt after the first is corrective and repeats the query; in UI mode the completion is the apology or a reply that validates |
| WeatherAgent.StreamTranscript | agent/weather_agent.py:224-398 | at most two model calls; exactly one completion, and it comes last; the first prompt is the query itself; UI mode without a schema gives only the configuration-error completion and calls no model; with the schema loaded in UI mode the completion validates or is the final apology |
| WeatherAgent.Agent.RunAttempts | agent/weather_agent.py:243-398 | the loop's items and prompts are exactly `AttemptsFrom` from attempt 0 with the original query |
| WeatherAgent.Agent.Stream | agent/weather_agent.py:224-398 | the items and prompts are `StreamTranscript`, and the session store has the base URL as `StateWithBaseUrl` says |
| WeatherAgent.EmitProgress | agent/weather_agent.py:289-293 | appends one progress item per intermediate event |
| WeatherAgent.StepRetried | agent/weather_agent.py:296-306 | an attempt that leads to a retry contributes its progress and its prompt, then the rest of the loop |
| WeatherAgent.StepFinished | agent/weather_agent.py:366-375 | an attempt that finishes contributes its progress, its prompt and the single completion |
| WeatherAgent.Prompt.Rendered | agent/weather_agent.py:301-388 | the first prompt is the query itself; a corrective prompt opens with its preamble (the no-reply notice, or the invalid-reply notice with the error message) and is longer than the query |
| WeatherAgent.RetryPromptCarriesQuery | agent/weather_agent.py:301-387 | every corrective prompt, after a missing reply or after a rejected one, ends with `Please retry the original request: '` followed by the original query verbatim and a closing quote, never with an earlier corrective prompt |
| WeatherAgent.NoDelimiterRejected | agent/weather_agent.py:318-319 | a reply lacking any character of the delimiter is rejected for the missing delimiter |
| WeatherAgent.NoReplyTextRejected | agent/weather_agent.py:307-308 | the fixed text that stands in for a missing last reply fails UI validation |
| WeatherAgent.ExhaustedTextRejected | agent/weather_agent.py:392-398 | the final apology would itself fail UI validation |
| WeatherAgent.TextModeFirstReply | agent/weather_agent.py:363-375 | in text mode the first reply that exists is the completion, unchanged, and the fixed error text when neither attempt returns one; one model call when the first attempt returns text, two otherwise |
| WeatherAgent.UiModeFirstAccepted | agent/weather_agent.py:366-375 | in UI mode a first reply that validates is the completion after a single model call |
| WeatherAgent.UiModeMissingLastReply | agent/weather_agent.py:296-308 | in UI mode, a first reply that is rejected or missing, followed by a missing second reply, ends with the fixed apology after two calls |
| WeatherAgent.FenceCleanupIntermediate | agent/weather_agent.py:328-330 | after the character-set `lstrip`, the text starts with none of the characters of "```json"; after `rstrip` it ends with no backtick |
| WeatherAgent.StripUnpadded | agent/weather_agent.py:328-330 | text that starts and ends with a non-space is left alone by `strip()` |
| WeatherAgent.SpacedTagKept | agent/weather_agent.py:328-330 | a fence written with a space before the language tag leaves the tag after cleanup |
| WeatherAgent.FenceCleanupCanLeaveTagLetters | agent/weather_agent.py:328-330 | so the cleaned text can start with a letter of the fence's character set |
| WeatherAgent.FencedBodyRecovered | agent/weather_agent.py:328-330 | a body wrapped in a json fence on lines of its own is recovered unchanged |
| Schema.ActionRequirements | agent/prompt_builder.py:50-786 | `beginRendering` needs `root` and `surfaceId`; `deleteSurface` needs `surfaceId`; `surfaceUpdate` needs `surfaceId` and a non-empty `components` list; `dataModelUpdate` needs `surfaceId` and `contents` |
| Schema.SmallestActions | agent/prompt_builder.py:50-786 | the smallest instances of each action pass; leaving out a required key fails; an empty components list fails; a component without `component` fails; a data entry or a value-map entry without `key` fails |
| Schema.EnumsEnforced | agent/prompt_builder.py:98-359 | a Text `usageHint`, a Row `distribution` and a Column `alignment` are valid exactly when they are members of their enumerations |
| Schema.ButtonAndCheckBoxRequire | agent/prompt_builder.py:519-552 | a Button needs `child` and an `action` with a `name`; a CheckBox needs `label` and `value` |
| Schema.ActionKeysNotExclusive | agent/prompt_builder.py:19-21 | a message with none of the four action keys, or with all four valid, is valid: "exactly one" is never enforced |
| A2A.TextStatus | agent/weather_agent_executor.py:460-463 | a status update whose message is the one text part given |
| A2A.UserInput | agent/weather_agent_executor.py:436 | a message without text parts gives the empty query; a message of one text part gives its text |
| A2A.EventQueue.Enqueue | agent/weather_agent_executor.py:460-463 | appends one event to the queue |
| A2A.LastUserAction | agent/weather_agent_executor.py:264-268 | None exactly when no data part carries a `userAction` |
| A2A.LastUserActionIsLast | agent/weather_agent_executor.py:264-268 | when some part carries a `userAction`, the result is the entry of the last such part |
| A2A.ScanParts | agent/two_agent_executor.py:210-216 | the loop over the parts ends with the last part's UI event, as `LastUserAction` says |
| A2A.Relay | agent/weather_agent_executor.py:457-467 | at most one update per stream item; no content exactly when the stream never completes |
| A2A.RelayStopsAtFirstDone | agent/weather_agent_executor.py:457-467 | with the first completion at position n, the content is that completion's and the n items before it become working statuses, in order |
| A2A.RelayWellEnded | agent/weather_agent.py:252-398 | on a stream whose only completion is last, every item but the last is relayed and the last one's content is kept |
| A2A.RelayStream | agent/two_agent_executor.py:325-336 | the relay loop enqueues exactly `Relay`'s updates and returns its content |
| A2A.ContextFromList | agent/weather_agent_executor.py:290-291 | raises a TypeError exactly when a dict item's key is unhashable (a list or a dict) |
| A2A.ContextHasKey | agent/weather_agent_executor.py:290-291 | the converted context has key k exactly when some dict item has key k |
| A2A.ContextLastWins | agent/weather_agent_executor.py:290-291 | the value under k is that of the last dict item with key k, defaulting to "" |
| A2A.ContextSkipsNonDicts | agent/weather_agent_executor.py:290-291 | items that are not dicts are ignored |
| A2A.ContextDict | agent/weather_agent_executor.py:289-293 | a dict context is kept; a list is converted; anything else becomes the empty dict |
| A2A.ActionName | agent/weather_agent_executor.py:283 | `actionName` when it is present and truthy, otherwise `name` or None |
| A2A.A2uiPart | agent/two_agent_executor.py:33-35 | succeeds exactly on a dict, giving the data part holding it |
| A2A.DataParts | agent/weather_agent_executor.py:565-569 | succeeds exactly when every message is a dict, giving one data part per message, in order |
| A2A.RegexFencedBodyRecovered | agent/two_agent_executor.py:410-413 | the regular-expression cleanup returns the body of a json fence unchanged |
| A2A.RegexCleanFence | agent/two_agent_executor.py:410-413 | the result is no longer than the input and has no whitespace at either end; a string with neither the opening nor the closing fence is only stripped |
| A2A.Clean | agent/weather_agent_executor.py:556-559 | with either executor's cleanup, what reaches `json.loads` is no longer than the JSON part and has no whitespace at either end |
| A2A.BareFenceCleanups | agent/two_agent_executor.py:410-413 | on a bare three-backtick fence, the character-set cleanup recovers the body, while the regular expressions leave the opening fence in place |
| A2A.TextHead | agent/two_agent_executor.py:402-403 | at most one text part, present exactly when the text before the delimiter is not blank |
| A2A.MessageParts | agent/two_agent_executor.py:417-421 | a parsed list gives one data part per element, in order; a single object gives one data part; anything else fails |
| A2A.JsonParts | agent/two_agent_executor.py:405-425 | blank JSON gives no part; a parse failure gives the raw JSON text as a text part; otherwise the message parts |
| A2A.ReplyParts | agent/weather_agent_executor.py:548-569 | fails exactly when building the JSON parts fails, with that fault; otherwise the text head comes first, then the JSON parts; a reply that holds only the delimiter and whitespace gives no parts |
| A2A.AssembleParts | agent/two_agent_executor.py:398-425 | the parts built step by step are those of `ReplyParts`, and a fault arises exactly when `ReplyParts` fails |
| A2A.AssembleJson | agent/two_agent_executor.py:405-425 | the parts after the delimiter are those of `JsonParts`, with its fault |
| A2A.CollectDataParts | agent/two_agent_executor.py:417-419 | the loop appends `DataParts` of the list, or stops with its fault |
| A2A.DataPartsAppend | agent/two_agent_executor.py:418-419 | one more message adds one more data part exactly when it is a dict |
| A2A.DataPartsFailAt | agent/two_agent_executor.py:418-419 | the first non-dict message decides the fault |
| Turn.SelectedOptions | agent/weather_agent_executor.py:349-360 | "forecast" when ticked, then "alerts" when ticked; exactly ["forecast"] when neither is; never empty |
| Turn.AcceptedReplyParts | agent/weather_agent_executor.py:548-569 | a reply the UI agent accepted becomes, with no fault, its text head and one data part per validated message |
| ConfirmationUi.Build | agent/weather_agent_executor.py:88-232 | three messages |
| ConfirmationUi.BuildOrder | agent/weather_agent_executor.py:88-232 | `beginRendering`, `surfaceUpdate`, `dataModelUpdate` in that order, all on surface `weather-confirmation` |
| ConfirmationUi.BuildDefaults | agent/weather_agent_executor.py:88-232 | the form starts with forecast ticked and alerts unticked |
| ConfirmationUi.ConfirmCarriesPlace | agent/two_agent_executor.py:51-188 | the confirm button's action is the layout's confirm action; its context carries the decision, the five values of the place, and the two ticks bound to the form's paths |
| ConfirmationUi.BuildValidIff | agent/two_agent_executor.py:51-188 | the form is a valid A2UI batch exactly when the place has the types the tool writes: strings for names and the state code, numbers for coordinates |
| ConfirmationUi.BatchOfThree | agent/weather_agent.py:192-193 | a batch of three messages is valid exactly when each message is |
| ConfirmationUi.SurfaceValid | agent/weather_agent_executor.py:98-211 | the surface update of the form is valid for every well-typed place |
| ConfirmationUi.DataValid | agent/weather_agent_executor.py:212-231 | the data-model update is valid exactly when the place is well typed |
| WeatherTools.Record | agent/weather_tools.py:62-68 | a dict with exactly the five place keys |
| WeatherTools.Marker | agent/weather_tools.py:76-83 | the render flag set to true plus the same five values as the record, and nothing else; the model keeps the dict that `json.dumps` serialises |
| WeatherTools.ReadPlace | agent/weather_agent_executor.py:502-508 | the place is read back exactly when all five keys are present; a missing key raises |
| WeatherTools.ReadWrittenPlace | agent/weather_tools.py:62-68 | the executor reads back exactly the place the tool wrote |
| WeatherTools.MarkerCarriesPlace | agent/weather_tools.py:76-83 | the marker carries the same place as the record |
| WeatherTools.WithPending | agent/weather_tools.py:57-68 | the pending key holds the record; a None state counts as empty; every other key is unchanged |
| WeatherTools.PendingOverwritten | agent/weather_tools.py:62 | a second confirmation replaces the first without any check |
| WeatherTools.ShowWeatherConfirmation | agent/weather_tools.py:24-83 | the marker is returned in every case, and the state becomes `WithPending` of the old state when the write succeeds and keeps its old value when the write raises |
| Handoff.StateOf | agent/weather_agent_executor.py:473-477 | the state of the session when it exists, else None |
| Handoff.ConfirmationParts | agent/weather_agent_executor.py:510-516 | the question about the display name, then the three form messages |
| Handoff.PendingCheck | agent/weather_agent_executor.py:479-524 | the entry is consumed exactly when a truthy pending entry is a dict; a form is rendered only when it is consumed |
| Handoff.AfterCheck | agent/weather_agent_executor.py:496-499 | a consumed check removes the pending key from that one session and keeps its other keys, their values and every other session; a check that consumed nothing changes nothing |
| Handoff.AfterCheckOnCopy | agent/two_agent_executor.py:342-359 | when the delete lands on a copy of the session, the store is unchanged |
| Handoff.ConsumePending | agent/two_agent_executor.py:339-383 | the form returned and the store left are those of `PendingCheck` and `AfterCheck` |
| Handoff.ToolThenCheck | agent/weather_tools.py:57-68 | a place the tool recorded is found, rendered as the form for that same place, and removed from the session |
| Handoff.ConfirmationPartsCarryUi | agent/weather_agent_executor.py:513-516 | the data parts of the answer are the form's messages, in order |
| Handoff.ConsumedOnce | agent/weather_agent_executor.py:487-499 | once the check has consumed a pending entry from the store, the next check finds nothing, whatever the next reply says |
| Handoff.StaleFormRerendered | agent/two_agent_executor.py:342-359 | if the delete lands on a copy of the session, a recorded place is rendered by the first check and again by the next one |
| Handoff.CheckTouchesOnlyPending | agent/weather_agent_executor.py:487-499 | the check removes at most the pending key of the one session; every other session and key is unchanged |
| WeatherExecutor.KeywordsAreWords | agent/weather_agent_executor.py:56-59 | every weather keyword is a non-empty lower-case word without whitespace |
| WeatherExecutor.IsWeatherQuery | agent/weather_agent_executor.py:51-60 | a weather query has at least four characters, the length of the shortest keyword |
| WeatherExecutor.IsWeatherQueryUnstripped | agent/weather_agent_executor.py:51-60 | a query is a weather query exactly when its lower-case form contains a keyword; the emptiness test and the strip change nothing |
| WeatherExecutor.CodeAt | agent/weather_agent_executor.py:84 | a match at i is a comma followed by two capital letters, and those letters are the capture |
| WeatherExecutor.FirstCode | agent/weather_agent_executor.py:84 | the leftmost match at or after i, or none at all |
| WeatherExecutor.ExtractStateCode | agent/weather_agent_executor.py:80-86 | two capitals or ""; "" exactly when the pattern matches nowhere |
| WeatherExecutor.StateCodeAfterPlace | agent/weather_agent_executor.py:80-86 | "place, XY" and "place, XY, rest" give XY when the place has no comma |
| WeatherExecutor.StateCodeOfNewYork | agent/weather_agent_executor.py:80-86 | "New York, NY, USA" gives "NY" |
| WeatherExecutor.NoStateCodeInCountry | agent/weather_agent_executor.py:80-86 | "Springfield, USA" gives "" |
| WeatherExecutor.TickedIgnoresCase | agent/weather_agent_executor.py:326-328 | case does not matter for a string checkbox value |
| WeatherExecutor.Ticked | agent/weather_agent_executor.py:309-345 | only a truthy entry reads as ticked, and a boolean reads as itself |
| WeatherExecutor.TickedDecoding | agent/weather_agent_executor.py:313-345 | `literalBoolean` gives its truth; an unresolved path reads as unticked; a string is ticked exactly when it says "true", "1" or "yes"; None and "" are unticked |
| WeatherExecutor.ReadConfirmation | agent/weather_agent_executor.py:299-307 | missing entries default: the display name falls back to the location, then to "Unknown Location"; coordinates 0.0, state code "", nothing ticked |
| WeatherExecutor.ConfirmQueryCalls | agent/weather_agent_executor.py:384-387 | the instruction has a forecast call exactly when forecast is ticked or nothing is, and an alerts call exactly when alerts is ticked, forecast first |
| WeatherExecutor.ConfirmQuery | agent/weather_agent_executor.py:363-391 | the instruction opens with the recap that names the place and closes with the request to display the results |
| WeatherExecutor.OptionsText | agent/weather_agent_executor.py:363 | the options line joins the selected options with ", " |
| WeatherExecutor.RejectedPlace | agent/weather_agent_executor.py:410-411 | the display name, else the location, else "Unknown Location" |
| WeatherExecutor.RejectText | agent/weather_agent_executor.py:412 | the rejection text names the place and closes with the notice that no data will be fetched |
| WeatherExecutor.JoinValue | agent/weather_agent_executor.py:423 | `join` accepts a list only when all its items are strings; otherwise, and on a non-iterable value, it raises a TypeError |
| WeatherExecutor.LegacyOptions | agent/weather_agent_executor.py:420-423 | the listed options, or "forecast, alerts" when the context lists none |
| WeatherExecutor.LegacyText | agent/weather_agent_executor.py:415-424 | the legacy text opens by naming the location and closes with the options and the fetch request |
| WeatherExecutor.LegacyTextOnEmptyContext | agent/weather_agent_executor.py:415-424 | with an empty context the legacy text reads `User confirmed weather query for Unknown Location (lat: 0.0, lon: 0.0, state: ). Selected options: ` followed by the options and `. Please fetch the weather data.` |
| WeatherExecutor.EventText | agent/weather_agent_executor.py:433 | the generic event text opens with the action's name and closes with the context shown |
| WeatherExecutor.QueryText | agent/weather_agent_executor.py:362-436 | typed text is sent as it is; every built instruction opens with the fixed words of its kind and the place or action it is about, and closes with its fixed closing words, its options or the context shown |
| WeatherExecutor.BuiltQueriesNonEmpty | agent/weather_agent_executor.py:364-433 | every instruction built from a button press is non-empty |
| WeatherExecutor.ActionQuery | agent/weather_agent_executor.py:297-433 | `confirmAlerts` exactly gives the confirmation read from the context; `rejectAlerts` exactly gives the rejected place; `confirm_weather_selection` exactly gives the legacy text, or the `join` TypeError when `LegacyOptions` fails; `toggle_option` exactly asks nothing; any other action gives the generic event text |
| WeatherExecutor.ActionDispatch | agent/weather_agent_executor.py:283-433 | a context that fails to convert raises its TypeError; otherwise the dispatch is `ActionQuery` on the event's action name and its converted context |
| WeatherExecutor.Decide | agent/weather_agent_executor.py:276-437 | a truthy UI event that is a dict is dispatched by `ActionDispatch`; one that is not a dict raises an AttributeError; without a truthy UI event the typed text is the query |
| WeatherExecutor.Route | agent/weather_agent_executor.py:439-442 | the agent is never asked with an empty query; an empty query returns quietly |
| WeatherExecutor.FinalState | agent/weather_agent_executor.py:530-534 | completed exactly after `confirmAlerts`, `confirm_weather_selection` or `rejectAlerts`, else input required |
| WeatherExecutor.ReplyEvents | agent/weather_agent_executor.py:536-603 | exactly one status, final exactly when completed, in the final state or completed; a reply holding the delimiter is answered with its built parts in the final state, or with the failure text, completed, when building them raises |
| WeatherExecutor.AsWrittenDropsUiReplies | agent/weather_agent_executor.py:577-593 | as written, a reply with the delimiter whose parts build emits no status; every other reply is answered as in `ReplyEvents` |
| WeatherExecutor.AcceptedUiReplyUnreported | agent/weather_agent_executor.py:577-593 | as written, every reply the UI agent accepted ends the turn with no status |
| WeatherExecutor.AcceptedUiReplyReported | agent/weather_agent_executor.py:536-593 | with the corrected block, every reply the UI agent accepted is one status in the final state, final exactly when completed, carrying the text before the delimiter and then one data part per validated message, in order |
| WeatherExecutor.ReplyEventsAsWritten | agent/weather_agent_executor.py:536-593 | at most one status, final exactly when completed; a turn without a status always has a reply holding the delimiter |
| WeatherExecutor.AfterRun | agent/weather_agent_executor.py:469-603 | with the corrected reply block, no exception escapes and there is exactly one status, final exactly when completed |
| WeatherExecutor.RespondTo | agent/weather_agent_executor.py:439-604 | an exception escapes exactly when dispatch raised; events are emitted exactly when the agent is asked |
| WeatherExecutor.Respond | agent/weather_agent_executor.py:234-604 | only a UI event can raise, and then nothing is emitted; a message with neither a UI event nor text emits nothing; a turn that emits ends with a status that is final exactly when completed |
| WeatherExecutor.AskedTurnShape | agent/weather_agent_executor.py:444-604 | a task event when there is none, one working status per progress item, then one final-or-waiting status; the session ids are kept |
| WeatherExecutor.ToggleIsQuiet | agent/weather_agent_executor.py:426-430 | a toggle press returns without any event |
| WeatherExecutor.BlankMessageIsQuiet | agent/weather_agent_executor.py:439-442 | a message without a UI event or text returns without any event |
| WeatherExecutor.PendingFormRendered | agent/weather_agent_executor.py:484-524 | with a recorded place and a reply not about the weather, the turn answers with the question and the three form messages, input required and not final, and the entry is gone |
| WeatherExecutor.MentionedWeatherSkipsForm | agent/weather_agent_executor.py:489-495 | a reply mentioning the temperature or the forecast is answered as a reply, and the pending entry is removed anyway |
| WeatherExecutor.NoContentCompletes | agent/weather_agent_executor.py:536-544 | without content the turn completes with the fixed apology, final, in any mode, and the store is untouched |
| WeatherExecutor.TextReplyState | agent/weather_agent_executor.py:576-593 | a plain-text reply ends with the stripped text: completed and final after a confirmation or rejection, otherwise input required and not final |
| WeatherExecutor.DispatchTurn | agent/weather_agent_executor.py:260-442 | the dispatch computed step by step is `Route` |
| WeatherExecutor.Reply | agent/weather_agent_executor.py:469-603 | enqueues `AfterRun`'s events (the corrected reply block) and leaves its session store |
| WeatherExecutor.Run | agent/weather_agent_executor.py:444-603 | the task event if needed, the relayed updates, then `AfterRun`'s events |
| WeatherExecutor.Answer | agent/weather_agent_executor.py:439-604 | the events, store and exception of `RespondTo` |
| WeatherExecutor.Execute | agent/weather_agent_executor.py:234-604 | the events, store and exception of `Respond` on the incoming message, with the corrected reply block |
| TwoAgentExecutor.TickedDecoding | agent/two_agent_executor.py:245-266 | `literalBoolean` gives its truth; a path object reads as ticked; a string is ticked exactly when it is "true" in any case; numbers, None and lists read as unticked |
| TwoAgentExecutor.Ticked | agent/two_agent_executor.py:243-266 | only a truthy entry reads as ticked, and a boolean reads as itself |
| TwoAgentExecutor.DecodersDisagree | agent/two_agent_executor.py:251-252 | both decoders agree on `literalBoolean` and booleans; a path is ticked here and unticked in the other executor; "yes" and 1 are unticked here and ticked there |
| TwoAgentExecutor.ReadSelection | agent/two_agent_executor.py:234-242 | missing entries default: the display name falls back to the location, then to "Unknown"; coordinates 0.0, state code "", nothing ticked |
| TwoAgentExecutor.ConfirmQueryCalls | agent/two_agent_executor.py:291-294 | a forecast call exactly when forecast is ticked or nothing is, an alerts call exactly when alerts is ticked, forecast first |
| TwoAgentExecutor.OptionsText | agent/two_agent_executor.py:280 | the options joined with " and " |
| TwoAgentExecutor.BuildConfirmQuery | agent/two_agent_executor.py:283-296 | the instruction built with `+=` is `ConfirmQuery` of the selection |
| TwoAgentExecutor.ConfirmQuery | agent/two_agent_executor.py:280-296 | the instruction opens by naming the confirmed place and closes with the request to display the data |
| TwoAgentExecutor.QueryText | agent/two_agent_executor.py:283-311 | typed text is sent as it is; a confirmation opens with the place and closes with the display request; any other action is `User action: ` followed by its name |
| TwoAgentExecutor.ActionDecision | agent/two_agent_executor.py:230-309 | a rejection declines; a confirmation sends the selection; any other action sends its name; nothing here fails |
| TwoAgentExecutor.Decide | agent/two_agent_executor.py:206-311 | without a truthy UI event the typed text goes to the confirmation agent, and only then; a truthy dict event is decided by `ActionDecision` on its action name and converted context, or fails with the context's conversion error; a truthy event that is not a dict fails with an AttributeError |
| TwoAgentExecutor.ReplyEvents | agent/two_agent_executor.py:397-433 | exactly one completed, final status |
| TwoAgentExecutor.AfterRun | agent/two_agent_executor.py:339-433 | exactly one status; the only non-final one is the form, in UI mode, after the confirmation agent, with content |
| TwoAgentExecutor.RespondTo | agent/two_agent_executor.py:202-441 | nothing escapes; the working status opens every turn; a rejection and a failure end with their fixed final text |
| TwoAgentExecutor.Respond | agent/two_agent_executor.py:190-441 | nothing escapes; the turn opens with the working status and ends with a completed, final status or, in UI mode for a message without a UI event, with the form awaiting input |
| TwoAgentExecutor.AskedTurnShape | agent/two_agent_executor.py:203-433 | the working status, one working status per progress item, then one status that is completed and final or is the form; the session ids are kept |
| TwoAgentExecutor.RejectionAsksNoAgent | agent/two_agent_executor.py:300-307 | a rejection is answered with the fixed completed, final text whatever the agent would do |
| TwoAgentExecutor.PendingFormRendered | agent/two_agent_executor.py:339-383 | after the confirmation agent, in UI mode, a recorded place is rendered as the form, input required and not final, and the entry is gone |
| TwoAgentExecutor.NoCheckOutsideConfirmation | agent/two_agent_executor.py:339 | the weather agent's turns, text mode and empty content never touch the session store |
| TwoAgentExecutor.FencedReplyParts | agent/two_agent_executor.py:405-421 | a reply whose JSON sits in a json fence is parsed from the fence's body |
| TwoAgentExecutor.BareFenceShownRaw | agent/two_agent_executor.py:410-425 | a bare fence is not removed, and an unparsable result is shown as raw text |
| TwoAgentExecutor.DecideTurn | agent/two_agent_executor.py:206-311 | the decision computed from the parts is `Decide` |
| TwoAgentExecutor.Reply | agent/two_agent_executor.py:339-433 | enqueues `AfterRun`'s events and leaves its session store |
| TwoAgentExecutor.Run | agent/two_agent_executor.py:314-433 | the relayed updates, then `AfterRun`'s events |
| TwoAgentExecutor.Execute | agent/two_agent_executor.py:190-441 | the events and store of `Respond` on the incoming message |

## Left out

- The language model, the MCP tools and the ADK runner are inputs: a sequence of generations for the weather agent's loop, and a function from the instruction to the stream items for the executors.
- `agent/confirmation_agent.py` is not part of this model. Its stream is an input like the weather agent's.
- `agent/__main__.py` is not part of this model. It is server start-up, environment checks and CORS.
- The session store an executor reads is the store as the agent's run leaves it, including the tool's writes. The run itself is not modelled.
- Sessions.SessionService.Put, Sessions.SessionService.Delete, Handoff.ConsumePending and WeatherAgent.Agent.EnsureSession apply the writes to the session that `get_session` returned, and the `del` of the pending entry, to the stored session. The in-memory session service hands out a copy, so in the running program these changes stay on the copy. Handoff.AfterCheckOnCopy and Handoff.StaleFormRerendered show the effect of that for the pending entry. Every "the entry is gone" contract rests on the delete reaching the store: both executors' PendingFormRendered, WeatherExecutor.MentionedWeatherSkipsForm, Handoff.ToolThenCheck and Handoff.CheckTouchesOnlyPending.
- `json.loads` and `jsonschema.validate` are given functions. Only the predicate `Schema.ValidBatch` states what validation enforces.
- Floating-point numbers are opaque. A number carries the text `str()` prints for it, and only its truth and its integrality are used.
- Dict key order is not modelled. A non-empty dict or list interpolated into a prompt string becomes a fixed placeholder text.
- A2A.A2uiPart models the local helper of the two-agent executor. The weather executor instead calls `create_a2ui_part` from the `a2ui.a2ui_extension` library, which is not part of this model; it is assumed to give the same data part, and any metadata it attaches is left out.
- WeatherTools.Marker is the dict the tool passes to `json.dumps`; the JSON string returned is left out, since nothing in the core parses it back.
- A2A.ContextFromList drops a list item whose `key` is None, a number or a boolean, since no name lookup can reach it. Python keeps it, so when such keys are the only ones the interpolated context reads `{}` in the model instead of the placeholder.
- `str.lower` covers ASCII letters only.
- Logging, tracebacks and asynchronous scheduling are left out.
- Exceptions raised by `update_status` or `enqueue_event`, and by the agent streams themselves, are left out.
- Prompt texts are left out: `AGENT_INSTRUCTION`, `get_weather_ui_prompt`, `get_text_prompt` and the example templates.
- `_extract_location_from_query` is never called and is left out.
- The executors' `cancel` only raises an unsupported-operation error and is left out.
- The two-agent executor's assignment of the last text part to `query` never reaches an agent: on a UI turn every action branch reassigns `query` (agent/two_agent_executor.py:283, :309) or returns (:300-307), and without a UI event `get_user_input` (:311) replaces it; so it is not modelled.
- The single-agent executor's `new_task` branch is modelled by a `hasTask` flag. The task object itself is the `TaskCreated` event.

## Findings

| source | as written | input that shows it | evidently intended | confidence | as-written member | corrected member |
|---|---|---|---|---|---|---|
| agent/weather_agent_executor.py:577-593 | the final `update_status` is indented under the `else` branch for replies without the A2UI delimiter | any reply holding `---a2ui_JSON---` whose parts build, such as every reply the UI agent accepts: the turn ends without a status and the task is left working | one final status for every reply, completed or input required; the executor members from AfterRun to Execute use this block | not executed | WeatherExecutor.AsWrittenDropsUiReplies | WeatherExecutor.ReplyEvents |
| agent/weather_agent_executor.py:473-499 | the pending entry is deleted from the session object that `get_session` returned, and the in-memory session service returns a copy, so the stored session keeps the entry; agent/two_agent_executor.py:342-359 does the same | the confirmation tool records a place; the form is rendered; a later UI turn whose reply mentions neither "temperature" nor "forecast" renders the same form again | the pending entry is consumed once | not executed; depends on the session service's copying, which is library code | Handoff.StaleFormRerendered | Handoff.ConsumedOnce |

=== FILE: a2a.dfy ===
/**
 * What both executors share: the parts of an A2A message, the task states
 * and the events they put on the queue, the scan for a UI event, the relay
 * of the agent's progress stream, the conversion of a button's action
 * context into a dictionary, and the assembly of the outgoing parts of a
 * reply that carries A2UI JSON.
 */
module A2A {
  import opened Wrappers
  import opened Text
  import opened Json
  import Agent = WeatherAgent

  /** A part of an A2A message: text, a JSON dictionary, or a file (never inspected). */
  datatype Part = TextPart(text: string) | DataPart(data: map<string, Value>) | FilePart

  datatype TaskState = Working | InputRequired | Completed

  /**
   * An event on the queue: the new task, or a status update with an
   * optional message made of parts.
   */
  datatype Event =
    | TaskCreated
    | StatusUpdate(state: TaskState, message: Option<seq<Part>>, final: bool)

  /** A status update whose message is one text part. */
  function TextStatus(state: TaskState, text: string, final: bool): (e: Event)
    ensures e.StatusUpdate? && e.message == Some([TextPart(text)])
  {
    StatusUpdate(state, Some([TextPart(text)]), final)
  }

  /** The exception a step raised: its type name and its message. */
  datatype Fault = Fault(kind: string, message: string)

  /** The queue the executors write to; `update_status` and `enqueue_event` append to it. */
  class EventQueue {
    var events: seq<Event>

    constructor ()
      ensures events == []
    {
      events := [];
    }

    method Enqueue(e: Event)
      modifies this
      ensures events == old(events) + [e]
    {
      events := events + [e];
    }
  }

  // ---- the UI event of an incoming message ----

  predicate IsUserActionPart(p: Part) {
    p.DataPart? && "userAction" in p.data
  }

  /** The `userAction` entry of the last data part that has one. */
  function LastUserAction(parts: seq<Part>): (r: Option<Value>)
    ensures r.None? <==> forall i :: 0 <= i < |parts| ==> !IsUserActionPart(parts[i])
  {
    if |parts| == 0 then None
    else if IsUserActionPart(parts[|parts| - 1]) then Some(parts[|parts| - 1].data["userAction"])
    else LastUserAction(parts[..|parts| - 1])
  }

  /** Part `i` carries a `userAction` and no later part does. */
  predicate LastUserActionAt(parts: seq<Part>, i: int) {
    0 <= i < |parts| && IsUserActionPart(parts[i])
    && forall j :: i < j < |parts| ==> !IsUserActionPart(parts[j])
  }

  /** A later part with a `userAction` replaces an earlier one: the result is the last such part's entry. */
  lemma {:induction false} LastUserActionIsLast(parts: seq<Part>)
    requires LastUserAction(parts).Some?
    ensures exists i :: LastUserActionAt(parts, i) && LastUserAction(parts).value == parts[i].data["userAction"]
  {
    var n := |parts| - 1;
    if !IsUserActionPart(parts[n]) {
      var prefix := parts[..n];
      LastUserActionIsLast(prefix);
      var i :| LastUserActionAt(prefix, i) && LastUserAction(prefix).value == prefix[i].data["userAction"];
      assert parts[i] == prefix[i];
      assert LastUserActionAt(parts, i) by {
        forall j | i < j < |parts|
          ensures !IsUserActionPart(parts[j])
        {
          if j < n {
            assert parts[j] == prefix[j];
          }
        }
      }
    }
  }

  /** The loop over the incoming parts that keeps the last UI event it sees. */
  method ScanParts(parts: seq<Part>) returns (uiEvent: Option<Value>)
    ensures uiEvent == LastUserAction(parts)
  {
    uiEvent := None;
    var i := 0;
    while i < |parts|
      invariant 0 <= i <= |parts|
      invariant uiEvent == LastUserAction(parts[..i])
    {
      assert parts[..i + 1][..i] == parts[..i];
      if parts[i].DataPart? && "userAction" in parts[i].data {
        uiEvent := Some(parts[i].data["userAction"]);
      }
      i := i + 1;
    }
    assert parts[..|parts|] == parts;
  }

  /**
   * `context.get_user_input()`: the texts of the text parts joined by a
   * newline, the behaviour of the A2A request context.
   */
  function UserInput(parts: seq<Part>): (r: string)
    ensures (forall i :: 0 <= i < |parts| ==> !parts[i].TextPart?) ==> r == []
    ensures |parts| == 1 && parts[0].TextPart? ==> r == parts[0].text
  {
    Join(TextsOf(parts), "\n")
  }

  function TextsOf(parts: seq<Part>): (r: seq<string>)
    ensures |r| <= |parts|
    ensures (forall i :: 0 <= i < |parts| ==> !parts[i].TextPart?) ==> r == []
  {
    if |parts| == 0 then []
    else if parts[0].TextPart? then [parts[0].text] + TextsOf(parts[1..])
    else TextsOf(parts[1..])
  }

  // ---- relaying the agent's stream ----

  /** What the executor makes of the agent's stream: one status per progress item, then the content. */
  datatype Relayed = Relayed(updates: seq<Event>, content: Option<string>)

  function ProgressStatus(item: Agent.StreamItem): Event
    requires item.Working?
  {
    TextStatus(Working, item.updates, false)
  }

  /**
   * The `async for` over `agent.stream(...)`: a working status per progress
   * item, until the first completion, whose content is kept; None when the
   * stream ends without one.
   */
  function Relay(items: seq<Agent.StreamItem>): (r: Relayed)
    ensures |r.updates| <= |items|
    ensures r.content.None? <==> forall i :: 0 <= i < |items| ==> items[i].Working?
  {
    if |items| == 0 then Relayed([], None)
    else if items[0].Done? then Relayed([], Some(items[0].content))
    else
      var rest := Relay(items[1..]);
      assert forall i :: 1 <= i < |items| ==> items[i] == items[1..][i - 1];
      Relayed([ProgressStatus(items[0])] + rest.updates, rest.content)
  }

  /**
   * The relay stops at the first completion: everything before it is a
   * progress item and becomes one working status, and the completion's
   * content is the result.
   */
  lemma {:induction false} RelayStopsAtFirstDone(items: seq<Agent.StreamItem>, n: nat)
    requires n < |items| && items[n].Done?
    requires forall i :: 0 <= i < n ==> items[i].Working?
    ensures Relay(items).content == Some(items[n].content)
    ensures |Relay(items).updates| == n
    ensures forall i :: 0 <= i < n ==> Relay(items).updates[i] == ProgressStatus(items[i])
  {
    if n > 0 {
      RelayStopsAtFirstDone(items[1..], n - 1);
    }
  }

  /**
   * The weather agent's stream always ends with its one completion, so the
   * relay sends a working status for every other item and keeps that
   * completion's content.
   */
  lemma RelayWellEnded(items: seq<Agent.StreamItem>)
    requires Agent.WellEnded(items)
    ensures Relay(items).content == Some(items[|items| - 1].content)
    ensures |Relay(items).updates| == |items| - 1
  {
    RelayStopsAtFirstDone(items, |items| - 1);
  }

  /** One step of the relay, from position `i` of the stream. */
  lemma RelayStep(items: seq<Agent.StreamItem>, i: nat)
    requires i < |items|
    ensures items[i].Done? ==> Relay(items[i..]) == Relayed([], Some(items[i].content))
    ensures items[i].Working? ==>
      Relay(items[i..]).updates == [ProgressStatus(items[i])] + Relay(items[i + 1..]).updates
      && Relay(items[i..]).content == Relay(items[i + 1..]).content
  {
    assert items[i..][0] == items[i];
    assert items[i..][1..] == items[i + 1..];
  }

  /** The relay loop: a status update for each progress item, and the first completion's content. */
  method RelayStream(items: seq<Agent.StreamItem>, queue: EventQueue) returns (content: Option<string>)
    modifies queue
    ensures queue.events == old(queue.events) + Relay(items).updates
    ensures content == Relay(items).content
  {
    content := None;
    var i := 0;
    ghost var sent: seq<Event> := [];
    assert items[0..] == items;
    while i < |items|
      invariant 0 <= i <= |items|
      invariant queue.events == old(queue.events) + sent
      invariant Relay(items) == Relayed(sent + Relay(items[i..]).updates, Relay(items[i..]).content)
    {
      var item := items[i];
      RelayStep(items, i);
      if item.Done? {
        assert sent + [] == sent;
        content := Some(item.content);
        return;
      }
      queue.Enqueue(TextStatus(Working, item.updates, false));
      assert sent + [ProgressStatus(item)] + Relay(items[i + 1..]).updates
          == sent + ([ProgressStatus(item)] + Relay(items[i + 1..]).updates);
      sent := sent + [ProgressStatus(item)];
      i := i + 1;
    }
  }

  // ---- the action context of a button press ----

  /** Python's `type(v).__name__` for a parsed JSON value. */
  function PyTypeName(v: Value): string {
    match v
    case Null => "NoneType"
    case Bool(_) => "bool"
    case Num(_, r) => if '.' in r || 'e' in r || 'n' in r then "float" else "int"
    case Str(_) => "str"
    case Arr(_) => "list"
    case Obj(_) => "dict"
  }

  /** A JSON value Python cannot use as a dictionary key. */
  predicate Unhashable(v: Value) {
    v.Arr? || v.Obj?
  }

  function UnhashableKey(v: Value): Fault {
    Fault("TypeError", "unhashable type: '" + PyTypeName(v) + "'")
  }

  /**
   * `{item.get("key", ""): item.get("value", "") for item in xs if isinstance(item, dict)}`,
   * with string keys only. A key that is a list or a dict raises; a key
   * that is None, a bool or a number lands under a key no name lookup can
   * reach and is not kept.
   */
  function ContextFromList(xs: seq<Value>): (r: Result<map<string, Value>, Fault>)
    ensures r.Err? <==> exists i :: 0 <= i < |xs| && xs[i].Obj? && Unhashable(Get(xs[i].fields, "key", Str("")))
    ensures r.Err? ==> r.error.kind == "TypeError"
  {
    if |xs| == 0 then Ok(map[])
    else
      var prefix := xs[..|xs| - 1];
      var item := xs[|xs| - 1];
      assert forall i :: 0 <= i < |prefix| ==> prefix[i] == xs[i];
      match ContextFromList(prefix)
      case Err(f) => Err(f)
      case Ok(m) =>
        if !item.Obj? then Ok(m)
        else
          var key := Get(item.fields, "key", Str(""));
          if Unhashable(key) then Err(UnhashableKey(key))
          else if key.Str? then Ok(m[key.s := Get(item.fields, "value", Str(""))])
          else Ok(m)
  }

  /** A dict item whose key is a string. */
  predicate KeyedItem(x: Value, k: string) {
    x.Obj? && Get(x.fields, "key", Str("")) == Str(k)
  }

  /** The dictionary has an entry for `k` exactly when some dict item has the key `k`. */
  lemma {:induction false} ContextHasKey(xs: seq<Value>, k: string)
    requires ContextFromList(xs).Ok?
    ensures k in ContextFromList(xs).value <==> exists i :: 0 <= i < |xs| && KeyedItem(xs[i], k)
  {
    if |xs| > 0 {
      var n := |xs| - 1;
      var prefix := xs[..n];
      assert forall i :: 0 <= i < n ==> prefix[i] == xs[i];
      ContextHasKey(prefix, k);
      var m := ContextFromList(prefix).value;
      if exists i :: 0 <= i < |xs| && KeyedItem(xs[i], k) {
        var i :| 0 <= i < |xs| && KeyedItem(xs[i], k);
        if i < n {
          assert KeyedItem(prefix[i], k);
        }
      }
    }
  }

  /** The entry for `k` is the value of the last dict item with the key `k`. */
  lemma {:induction false} ContextLastWins(xs: seq<Value>, k: string, i: nat)
    requires ContextFromList(xs).Ok?
    requires i < |xs| && KeyedItem(xs[i], k)
    requires forall j :: i < j < |xs| ==> !KeyedItem(xs[j], k)
    ensures k in ContextFromList(xs).value
    ensures ContextFromList(xs).value[k] == Get(xs[i].fields, "value", Str(""))
  {
    var n := |xs| - 1;
    var prefix := xs[..n];
    assert forall j :: 0 <= j < n ==> prefix[j] == xs[j];
    if i < n {
      ContextLastWins(prefix, k, i);
      assert !KeyedItem(xs[n], k);
    }
  }

  /** Items that are not dictionaries are skipped. */
  lemma ContextSkipsNonDicts(xs: seq<Value>, x: Value)
    requires !x.Obj?
    ensures ContextFromList(xs + [x]) == ContextFromList(xs)
  {
    assert (xs + [x])[..|xs|] == xs;
  }

  /** `ctx_raw`: a list is converted, a dict is kept, anything else becomes the empty dict. */
  function ContextDict(raw: Value): (r: Result<map<string, Value>, Fault>)
    ensures raw.Obj? ==> r == Ok(raw.fields)
    ensures !raw.Obj? && !raw.Arr? ==> r == Ok(map[])
    ensures raw.Arr? ==> r == ContextFromList(raw.items)
  {
    match raw
    case Arr(xs) => ContextFromList(xs)
    case Obj(m) => Ok(m)
    case _ => Ok(map[])
  }

  /** `ui_event_part.get("actionName") or ui_event_part.get("name")`. */
  function ActionName(event: map<string, Value>): (r: Value)
    ensures "actionName" in event && Truthy(event["actionName"]) ==> r == event["actionName"]
    ensures !("actionName" in event && Truthy(event["actionName"])) ==> r == Get(event, "name", Null)
  {
    Or(Get(event, "actionName", Null), Get(event, "name", Null))
  }

  /** `x.get` on a value that is not a dict raises. */
  function NoGet(v: Value): Fault {
    Fault("AttributeError", "'" + PyTypeName(v) + "' object has no attribute 'get'")
  }

  // ---- outgoing parts of a reply ----

  /**
   * `create_a2ui_part(message)`: a data part; building one from anything
   * but a dict fails the message model's validation, whose text `badPart`
   * gives.
   */
  function A2uiPart(v: Value, badPart: Value -> string): (r: Result<Part, Fault>)
    ensures r.Ok? <==> v.Obj?
    ensures v.Obj? ==> r == Ok(DataPart(v.fields))
  {
    if v.Obj? then Ok(DataPart(v.fields)) else Err(Fault("ValidationError", badPart(v)))
  }

  /** One data part per message of a parsed list, in order; the first non-dict message fails. */
  function DataParts(xs: seq<Value>, badPart: Value -> string): (r: Result<seq<Part>, Fault>)
    ensures r.Ok? <==> forall i :: 0 <= i < |xs| ==> xs[i].Obj?
    ensures r.Ok? ==> |r.value| == |xs| && forall i :: 0 <= i < |xs| ==> r.value[i] == DataPart(xs[i].fields)
  {
    if |xs| == 0 then Ok([])
    else
      assert forall i :: 1 <= i < |xs| ==> xs[1..][i - 1] == xs[i];
      match A2uiPart(xs[0], badPart)
      case Err(f) => Err(f)
      case Ok(p) =>
        match DataParts(xs[1..], badPart)
        case Err(f) => Err(f)
        case Ok(ps) => Ok([p] + ps)
  }

  /** The fence cleanup an executor applies before parsing. */
  datatype Cleanup = CharsetStrip | RegexStrip

  /**
   * `re.sub(r'^```json\s*', '', s)` then `re.sub(r'\s*```$', '', s)`, both
   * on a string without surrounding whitespace, then `strip()`.
   */
  function RegexCleanFence(s: string): (r: string)
    ensures |r| <= |s|
    ensures r == [] || (!IsSpace(r[0]) && !IsSpace(r[|r| - 1]))
    ensures !StartsWith(s, "```json") && !EndsWith(s, "```") ==> r == Strip(s)
  {
    var t := if StartsWith(s, "```json") then LStripChars(s[7..], Whitespace) else s;
    var u := if EndsWith(t, "```") then RStripChars(t[..|t| - 3], Whitespace) else t;
    Strip(u)
  }

  /** A body on lines of its own inside a json fence comes back out unchanged. */
  lemma {:induction false} RegexFencedBodyRecovered(body: string)
    requires body != [] && !IsSpace(body[0]) && !IsSpace(body[|body| - 1])
    ensures RegexCleanFence("```json" + "\n" + body + "\n" + "```") == body
  {
    var s := "```json" + "\n" + body + "\n" + "```";
    var t := body + "\n" + "```";
    assert StartsWith(s, "```json");
    assert LStripChars(s[7..], Whitespace) == t by {
      LStripCharsPrefix("\n", t, Whitespace);
      assert s[7..] == "\n" + t;
    }
    assert EndsWith(t, "```");
    assert RStripChars(t[..|t| - 3], Whitespace) == body by {
      RStripCharsSuffix(body, "\n", Whitespace);
      assert t[..|t| - 3] == body + "\n";
    }
    Agent.StripUnpadded(body);
  }

  /** The text a bare fence (three backticks, no language tag) leaves the regular expressions with. */
  function BareFenced(body: string): string {
    "```" + "\n" + body + "\n" + "```"
  }

  /**
   * A bare fence: the character-set cleanup recovers the body, while the
   * regular expressions, which only know the json-tagged opening fence,
   * leave the opening backticks in front of it.
   */
  lemma {:induction false} BareFenceCleanups(body: string)
    requires body != [] && !IsSpace(body[0]) && !IsSpace(body[|body| - 1])
    ensures Agent.CleanFence(BareFenced(body)) == body
    ensures Clean(RegexStrip, BareFenced(body)) == "```" + "\n" + body
  {
    var s := BareFenced(body);
    var u := "\n" + body + "\n" + "```";
    var v := "\n" + body + "\n";
    Agent.StripUnpadded(s);
    assert LStripChars(s, Agent.FenceChars) == u by {
      LStripCharsPrefix("```", u, Agent.FenceChars);
      assert "```" + u == s;
    }
    assert RStripChars(u, Agent.Backtick) == v by {
      RStripCharsSuffix(v, "```", Agent.Backtick);
      assert v + "```" == u;
    }
    assert Strip(v) == body by {
      LStripCharsPrefix("\n", body + "\n", Whitespace);
      assert "\n" + (body + "\n") == v;
      RStripCharsSuffix(body, "\n", Whitespace);
    }
    var head := "```" + "\n" + body;
    assert !StartsWith(s, "```json") by {
      assert s[3] == '\n';
    }
    assert EndsWith(s, "```");
    assert RStripChars(s[..|s| - 3], Whitespace) == head by {
      RStripCharsSuffix(head, "\n", Whitespace);
      assert s[..|s| - 3] == head + "\n";
    }
    Agent.StripUnpadded(head);
  }

  /** The fence cleanup of either executor; what reaches `json.loads` has no surrounding whitespace. */
  function Clean(c: Cleanup, s: string): (r: string)
    ensures |r| <= |s|
    ensures r == [] || (!IsSpace(r[0]) && !IsSpace(r[|r| - 1]))
  {
    match c
    case CharsetStrip => Agent.CleanFence(s)
    case RegexStrip => RegexCleanFence(Strip(s))
  }

  /** The leading text part of a reply: the stripped text before the delimiter, when not blank. */
  function TextHead(text: string): (r: seq<Part>)
    ensures |r| <= 1
    ensures r != [] <==> Strip(text) != []
  {
    if Strip(text) != [] then [TextPart(Strip(text))] else []
  }

  /** The parts made of a parsed reply: one data part per message of a list, or one for a single message. */
  function MessageParts(v: Value, badPart: Value -> string): (r: Result<seq<Part>, Fault>)
    ensures v.Arr? ==> r == DataParts(v.items, badPart)
    ensures !v.Arr? ==> (r.Ok? <==> v.Obj?)
    ensures !v.Arr? && v.Obj? ==> r.value == [DataPart(v.fields)]
  {
    if v.Arr? then DataParts(v.items, badPart)
    else
      match A2uiPart(v, badPart)
      case Err(f) => Err(f)
      case Ok(p) => Ok([p])
  }

  /**
   * The parts made of the JSON after the delimiter: none when it is blank,
   * the messages it parses to, or the raw JSON text when it does not parse.
   */
  function JsonParts(json: string, cleanup: Cleanup, lib: Library, badPart: Value -> string): (r: Result<seq<Part>, Fault>)
    ensures Strip(json) == [] ==> r == Ok([])
    ensures Strip(json) != [] && lib.loads(Clean(cleanup, json)).Err? ==> r == Ok([TextPart(json)])
    ensures Strip(json) != [] && lib.loads(Clean(cleanup, json)).Ok? ==> r == MessageParts(lib.loads(Clean(cleanup, json)).value, badPart)
  {
    if Strip(json) == [] then Ok([])
    else
      match lib.loads(Clean(cleanup, json))
      case Err(_) => Ok([TextPart(json)])
      case Ok(v) => MessageParts(v, badPart)
  }

  /**
   * The parts of a reply that holds the delimiter: the text head, then the
   * parts made of the JSON after the first delimiter.
   */
  function ReplyParts(content: string, cleanup: Cleanup, lib: Library, badPart: Value -> string): (r: Result<seq<Part>, Fault>)
    requires Contains(content, Agent.Delimiter)
    ensures var split := SplitFirst(content, Agent.Delimiter);
      var json := JsonParts(split.1, cleanup, lib, badPart);
      var head := TextHead(split.0);
      (r.Err? <==> json.Err?)
      && (r.Err? ==> r.error == json.error)
      && (r.Ok? ==> r.value == head + json.value)
      && (Strip(split.0) == [] && Strip(split.1) == [] ==> r == Ok([]))
  {
    var split := SplitFirst(content, Agent.Delimiter);
    var json := JsonParts(split.1, cleanup, lib, badPart);
    if json.Err? then Err(json.error)
    else
      assert Strip(split.0) == [] && Strip(split.1) == [] ==> TextHead(split.0) + json.value == [];
      Ok(TextHead(split.0) + json.value)
  }

  /** The assembly of `final_parts` for a reply that holds the delimiter, appending part by part. */
  method AssembleParts(content: string, cleanup: Cleanup, lib: Library, badPart: Value -> string)
    returns (parts: seq<Part>, fault: Option<Fault>)
    requires Contains(content, Agent.Delimiter)
    ensures fault.None? <==> ReplyParts(content, cleanup, lib, badPart).Ok?
    ensures fault.None? ==> parts == ReplyParts(content, cleanup, lib, badPart).value
    ensures fault.Some? ==> fault.value == ReplyParts(content, cleanup, lib, badPart).error
  {
    var split := SplitFirst(content, Agent.Delimiter);
    var text, json := split.0, split.1;
    ghost var r := ReplyParts(content, cleanup, lib, badPart);
    ghost var j := JsonParts(json, cleanup, lib, badPart);
    assert r == if j.Err? then Err(j.error) else Ok(TextHead(text) + j.value);
    parts := [];
    fault := None;
    if Strip(text) != [] {
      parts := parts + [TextPart(Strip(text))];
    }
    assert parts == TextHead(text);
    var rest, f := AssembleJson(json, cleanup, lib, badPart);
    if f.Some? {
      fault := f;
      return;
    }
    parts := parts + rest;
  }

  /** The part of the assembly after the delimiter. */
  method AssembleJson(json: string, cleanup: Cleanup, lib: Library, badPart: Value -> string)
    returns (parts: seq<Part>, fault: Option<Fault>)
    ensures fault.None? <==> JsonParts(json, cleanup, lib, badPart).Ok?
    ensures fault.None? ==> parts == JsonParts(json, cleanup, lib, badPart).value
    ensures fault.Some? ==> fault.value == JsonParts(json, cleanup, lib, badPart).error
  {
    parts := [];
    fault := None;
    if Strip(json) == [] {
      return;
    }
    var cleaned := Clean(cleanup, json);
    var parsed := lib.loads(cleaned);
    if parsed.Err? {
      parts := [TextPart(json)];
      return;
    }
    var v := parsed.value;
    if v.Arr? {
      parts, fault := CollectDataParts(v.items, badPart);
    } else {
      var part := A2uiPart(v, badPart);
      if part.Err? {
        fault := Some(part.error);
        return;
      }
      parts := [part.value];
    }
  }

  /** The loop `for msg in parsed: final_parts.append(create_a2ui_part(msg))`. */
  method CollectDataParts(xs: seq<Value>, badPart: Value -> string) returns (parts: seq<Part>, fault: Option<Fault>)
    ensures fault.None? <==> DataParts(xs, badPart).Ok?
    ensures fault.None? ==> parts == DataParts(xs, badPart).value
    ensures fault.Some? ==> fault.value == DataParts(xs, badPart).error
  {
    parts := [];
    fault := None;
    var i := 0;
    while i < |xs|
      invariant 0 <= i <= |xs|
      invariant DataParts(xs[..i], badPart).Ok?
      invariant parts == DataParts(xs[..i], badPart).value
    {
      var part := A2uiPart(xs[i], badPart);
      DataPartsAppend(xs[..i], xs[i], badPart);
      assert xs[..i + 1] == xs[..i] + [xs[i]];
      if part.Err? {
        DataPartsFailAt(xs, i, badPart);
        fault := Some(part.error);
        return;
      }
      parts := parts + [part.value];
      i := i + 1;
    }
    assert xs[..i] == xs;
  }

  lemma {:induction false} DataPartsAppend(xs: seq<Value>, x: Value, badPart: Value -> string)
    requires DataParts(xs, badPart).Ok?
    ensures DataParts(xs + [x], badPart).Ok? <==> x.Obj?
    ensures x.Obj? ==> DataParts(xs + [x], badPart).value == DataParts(xs, badPart).value + [DataPart(x.fields)]
  {
    if |xs| > 0 {
      assert (xs + [x])[1..] == xs[1..] + [x];
      DataPartsAppend(xs[1..], x, badPart);
    }
  }

  lemma {:induction false} DataPartsFailAt(xs: seq<Value>, i: nat, badPart: Value -> string)
    requires i < |xs| && !xs[i].Obj?
    requires forall j :: 0 <= j < i ==> xs[j].Obj?
    ensures DataParts(xs, badPart) == Err(Fault("ValidationError", badPart(xs[i])))
  {
    if i > 0 {
      DataPartsFailAt(xs[1..], i - 1, badPart);
    }
  }
}

=== FILE: confirmation_ui.dfy ===
/**
 * The fixed confirmation UI both executors render once the confirmation
 * tool has recorded a place: a form with two checkboxes (forecast, alerts)
 * and a reject and a confirm button whose actions carry the place back.
 * The two executors build the same three messages with different ids,
 * action names and reject contexts; `Layout` holds those differences.
 */
module ConfirmationUi {
  import opened Json
  import opened Schema

  const SurfaceId := "weather-confirmation"

  /** The five values of a pending confirmation, as the executor reads them from session state. */
  datatype Place = Place(location: Value, latitude: Value, longitude: Value, displayName: Value, stateCode: Value)

  /** The types the tool writes: strings for names and the state code, numbers for the coordinates. */
  predicate WellTyped(p: Place) {
    p.location.Str? && p.latitude.Num? && p.longitude.Num? && p.displayName.Str? && p.stateCode.Str?
  }

  /**
   * What differs between the two executors' builders: the id of the button
   * row and of the button labels, the two action names, the key of the
   * decision entry, and whether the reject action carries the place too.
   */
  datatype Layout = Layout(
    rowId: string, rejectTextId: string, confirmTextId: string,
    rejectAction: string, confirmAction: string, decisionKey: string,
    rejectCarriesPlace: bool)

  /** The weather executor's builder. */
  const WeatherLayout := Layout("alertsConfirmRow", "rejectBtnText", "confirmBtnText",
                                "rejectAlerts", "confirmAlerts", "alertsConfirmed", true)

  /** The two-agent executor's builder. */
  const TwoAgentLayout := Layout("buttonRow", "rejectText", "confirmText",
                                 "rejectWeather", "confirmWeather", "confirmed", false)

  // ---- small builders ----

  function LiteralString(v: Value): Value {
    Obj(map["literalString" := v])
  }

  function Bound(path: string): Value {
    Obj(map["path" := Str(path)])
  }

  function ContextEntry(key: string, value: Value): Value {
    Obj(map["key" := Str(key), "value" := value])
  }

  function Component(id: string, kind: string, body: Value): Value {
    Obj(map["id" := Str(id), "component" := Obj(map[kind := body])])
  }

  function Ids(ids: seq<Value>): Value {
    Obj(map["explicitList" := Arr(ids)])
  }

  // ---- the action contexts ----

  /** The seven entries after the decision entry: the place and the two form paths. */
  function PlaceContext(p: Place): seq<Value> {
    [ContextEntry("location", LiteralString(p.location)),
     ContextEntry("latitude", Obj(map["literalNumber" := p.latitude])),
     ContextEntry("longitude", Obj(map["literalNumber" := p.longitude])),
     ContextEntry("display_name", LiteralString(p.displayName)),
     ContextEntry("state_code", LiteralString(p.stateCode)),
     ContextEntry("forecastSelected", Bound("/form/forecastSelected")),
     ContextEntry("alertsSelected", Bound("/form/alertsSelected"))]
  }

  function Decision(l: Layout, verdict: string): Value {
    ContextEntry(l.decisionKey, LiteralString(Str(verdict)))
  }

  function RejectContext(l: Layout, p: Place): seq<Value> {
    [Decision(l, "rejected")] + (if l.rejectCarriesPlace then PlaceContext(p) else [])
  }

  function ConfirmContext(l: Layout, p: Place): seq<Value> {
    [Decision(l, "confirmed")] + PlaceContext(p)
  }

  function Button(id: string, child: string, primary: bool, action: string, context: seq<Value>): Value {
    Component(id, "Button", Obj(map[
      "child" := Str(child), "primary" := Bool(primary),
      "action" := Obj(map["name" := Str(action), "context" := Arr(context)])]))
  }

  function Label(id: string, text: string): Value {
    Component(id, "Text", Obj(map["text" := LiteralString(Str(text))]))
  }

  function CheckBox(id: string, caption: string, path: string): Value {
    Component(id, "CheckBox", Obj(map["label" := LiteralString(Str(caption)), "value" := Bound(path)]))
  }

  // ---- the three messages ----

  function BeginMessage(): Value {
    Obj(map["beginRendering" := Obj(map[
      "surfaceId" := Str(SurfaceId), "root" := Str("root"),
      "styles" := Obj(map["primaryColor" := Str("#4CAF50"), "font" := Str("Roboto")])])])
  }

  /** The root column: the title, the two checkboxes and the button row `rowId`, top-left aligned. */
  function Column(rowId: string): Value {
    Component("root", "Column", Obj(map[
      "children" := Ids([Str("title"), Str("forecastCheck"), Str("alertsCheck"), Str(rowId)]),
      "distribution" := Str("start"), "alignment" := Str("start")]))
  }

  function Title(): Value {
    Component("title", "Text", Obj(map["text" := LiteralString(Str("Select Weather Actions")), "usageHint" := Str("h2")]))
  }

  /** The row that holds the two buttons, spread evenly. */
  function Row(id: string): Value {
    Component(id, "Row", Obj(map[
      "children" := Ids([Str("rejectBtn"), Str("confirmBtn")]),
      "distribution" := Str("spaceEvenly"), "alignment" := Str("center")]))
  }

  /** The layout part of the form: the column, the title and the two checkboxes. */
  function FormComponents(l: Layout): seq<Value> {
    [Column(l.rowId),
     Title(),
     CheckBox("forecastCheck", "Get current forecast", "/form/forecastSelected"),
     CheckBox("alertsCheck", "Check weather alerts", "/form/alertsSelected")]
  }

  /** The button row, the two buttons and their labels. */
  function ButtonComponents(l: Layout, p: Place): seq<Value> {
    [Row(l.rowId),
     Button("rejectBtn", l.rejectTextId, false, l.rejectAction, RejectContext(l, p)),
     Label(l.rejectTextId, "Reject"),
     Button("confirmBtn", l.confirmTextId, true, l.confirmAction, ConfirmContext(l, p)),
     Label(l.confirmTextId, "Confirm")]
  }

  function SurfaceMessage(l: Layout, p: Place): Value {
    Obj(map["surfaceUpdate" := Obj(map[
      "surfaceId" := Str(SurfaceId),
      "components" := Arr(FormComponents(l) + ButtonComponents(l, p))])])
  }

  /** The form's initial values: forecast on, alerts off. */
  function FormDefaults(): Value {
    Obj(map["key" := Str("form"), "valueMap" := Arr([
      Obj(map["key" := Str("forecastSelected"), "valueBoolean" := Bool(true)]),
      Obj(map["key" := Str("alertsSelected"), "valueBoolean" := Bool(false)])])])
  }

  function PlaceData(p: Place): seq<Value> {
    [Obj(map["key" := Str("display_name"), "valueString" := p.displayName]),
     Obj(map["key" := Str("location"), "valueString" := p.location]),
     Obj(map["key" := Str("latitude"), "valueNumber" := p.latitude]),
     Obj(map["key" := Str("longitude"), "valueNumber" := p.longitude]),
     Obj(map["key" := Str("state_code"), "valueString" := p.stateCode])]
  }

  function DataMessage(p: Place): Value {
    Obj(map["dataModelUpdate" := Obj(map[
      "surfaceId" := Str(SurfaceId), "path" := Str("/"),
      "contents" := Arr(PlaceData(p) + [FormDefaults()])])])
  }

  /** `_generate_confirmation_ui`: the three messages of the confirmation surface. */
  function Build(l: Layout, p: Place): (ui: seq<Value>)
    ensures |ui| == 3
  {
    [BeginMessage(), SurfaceMessage(l, p), DataMessage(p)]
  }

  // ---- properties ----

  /** The messages are begin-rendering, surface update and data-model update, in that order. */
  predicate Carries(m: Value, action: string) {
    m.Obj? && m.fields.Keys == {action} && m.fields[action].Obj?
    && "surfaceId" in m.fields[action].fields && m.fields[action].fields["surfaceId"] == Str(SurfaceId)
  }

  lemma BuildOrder(l: Layout, p: Place)
    ensures var ui := Build(l, p);
      Carries(ui[0], "beginRendering") && Carries(ui[1], "surfaceUpdate") && Carries(ui[2], "dataModelUpdate")
  {
  }

  /** The data model starts with forecast selected and alerts not selected. */
  lemma BuildDefaults(l: Layout, p: Place)
    ensures var data := Build(l, p)[2].fields["dataModelUpdate"].fields["contents"].items;
      |data| == 6 && data[5] == FormDefaults()
      && FormDefaults().fields["valueMap"].items[0].fields == map["key" := Str("forecastSelected"), "valueBoolean" := Bool(true)]
      && FormDefaults().fields["valueMap"].items[1].fields == map["key" := Str("alertsSelected"), "valueBoolean" := Bool(false)]
  {
  }

  /** The confirm button's action carries the decision, then the place, then the two form paths. */
  lemma ConfirmCarriesPlace(l: Layout, p: Place)
    ensures var button := ButtonComponents(l, p)[3].fields["component"].fields["Button"];
      button.fields["action"].fields["name"] == Str(l.confirmAction)
      && button.fields["action"].fields["context"] == Arr([Decision(l, "confirmed")] + PlaceContext(p))
  {
  }

  lemma BeginValid()
    ensures ValidMessage(BeginMessage())
  {
    var s := "#4CAF50";
    assert HexColor(s) by {
      assert |s| == 7 && s[0] == '#';
      assert forall i :: 1 <= i < 7 ==> IsHexDigit(s[i]);
    }
    assert BeginRendering(BeginMessage().fields["beginRendering"]);
  }

  lemma LiteralEntryValid(key: string, v: Value)
    ensures ActionContextEntry(ContextEntry(key, LiteralString(v))) <==> v.Str?
  {
  }

  lemma NumberEntryValid(key: string, v: Value)
    ensures ActionContextEntry(ContextEntry(key, Obj(map["literalNumber" := v]))) <==> v.Num?
  {
  }

  lemma BoundEntryValid(key: string, path: string)
    ensures ActionContextEntry(ContextEntry(key, Bound(path)))
  {
  }

  lemma PlaceContextValid(p: Place)
    ensures WellTyped(p) <==> forall i :: 0 <= i < 5 ==> ActionContextEntry(PlaceContext(p)[i])
    ensures forall i :: 5 <= i < 7 ==> ActionContextEntry(PlaceContext(p)[i])
  {
    var c := PlaceContext(p);
    assert c[0] == ContextEntry("location", LiteralString(p.location));
    assert c[1] == ContextEntry("latitude", Obj(map["literalNumber" := p.latitude]));
    assert c[2] == ContextEntry("longitude", Obj(map["literalNumber" := p.longitude]));
    assert c[3] == ContextEntry("display_name", LiteralString(p.displayName));
    assert c[4] == ContextEntry("state_code", LiteralString(p.stateCode));
    LiteralEntryValid("location", p.location);
    NumberEntryValid("latitude", p.latitude);
    NumberEntryValid("longitude", p.longitude);
    LiteralEntryValid("display_name", p.displayName);
    LiteralEntryValid("state_code", p.stateCode);
    BoundEntryValid("forecastSelected", "/form/forecastSelected");
    BoundEntryValid("alertsSelected", "/form/alertsSelected");
  }

  lemma ContextsValid(l: Layout, p: Place)
    requires WellTyped(p)
    ensures forall i :: 0 <= i < |RejectContext(l, p)| ==> ActionContextEntry(RejectContext(l, p)[i])
    ensures forall i :: 0 <= i < |ConfirmContext(l, p)| ==> ActionContextEntry(ConfirmContext(l, p)[i])
  {
    PlaceContextValid(p);
    LiteralEntryValid(l.decisionKey, Str("rejected"));
    LiteralEntryValid(l.decisionKey, Str("confirmed"));
  }

  lemma ColumnValid(rowId: string)
    ensures ComponentEntry(Column(rowId))
  {
  }

  lemma TitleValid()
    ensures ComponentEntry(Title())
  {
  }

  lemma CheckBoxValid(id: string, caption: string, path: string)
    ensures ComponentEntry(CheckBox(id, caption, path))
  {
  }

  lemma LabelValid(id: string, text: string)
    ensures ComponentEntry(Label(id, text))
  {
  }

  lemma RowValid(id: string)
    ensures ComponentEntry(Row(id))
  {
  }

  lemma ButtonValid(id: string, child: string, primary: bool, action: string, context: seq<Value>)
    requires forall i :: 0 <= i < |context| ==> ActionContextEntry(context[i])
    ensures ComponentEntry(Button(id, child, primary, action, context))
  {
  }

  lemma FormComponentsValid(l: Layout)
    ensures forall i :: 0 <= i < |FormComponents(l)| ==> ComponentEntry(FormComponents(l)[i])
  {
    ColumnValid(l.rowId);
    TitleValid();
    CheckBoxValid("forecastCheck", "Get current forecast", "/form/forecastSelected");
    CheckBoxValid("alertsCheck", "Check weather alerts", "/form/alertsSelected");
  }

  lemma ButtonComponentsValid(l: Layout, p: Place)
    requires WellTyped(p)
    ensures forall i :: 0 <= i < |ButtonComponents(l, p)| ==> ComponentEntry(ButtonComponents(l, p)[i])
  {
    ContextsValid(l, p);
    RowValid(l.rowId);
    ButtonValid("rejectBtn", l.rejectTextId, false, l.rejectAction, RejectContext(l, p));
    LabelValid(l.rejectTextId, "Reject");
    ButtonValid("confirmBtn", l.confirmTextId, true, l.confirmAction, ConfirmContext(l, p));
    LabelValid(l.confirmTextId, "Confirm");
  }

  lemma SurfaceValid(l: Layout, p: Place)
    requires WellTyped(p)
    ensures ValidMessage(SurfaceMessage(l, p))
  {
    var form := FormComponents(l);
    var buttons := ButtonComponents(l, p);
    FormComponentsValid(l);
    ButtonComponentsValid(l, p);
    var all := form + buttons;
    assert forall i :: 0 <= i < |all| ==> ComponentEntry(all[i]) by {
      forall i | 0 <= i < |all|
        ensures ComponentEntry(all[i])
      {
        if i < |form| {
          assert all[i] == form[i];
        } else {
          assert all[i] == buttons[i - |form|];
        }
      }
    }
    assert SurfaceUpdate(SurfaceMessage(l, p).fields["surfaceUpdate"]);
  }

  /** Each entry of the place's data has the schema's shape exactly when the place is well typed. */
  lemma PlaceDataValid(p: Place)
    ensures WellTyped(p) <==> forall i :: 0 <= i < 5 ==> DataEntry(PlaceData(p)[i])
  {
    var c := PlaceData(p);
    assert DataEntry(c[0]) <==> p.displayName.Str?;
    assert DataEntry(c[1]) <==> p.location.Str?;
    assert DataEntry(c[2]) <==> p.latitude.Num?;
    assert DataEntry(c[3]) <==> p.longitude.Num?;
    assert DataEntry(c[4]) <==> p.stateCode.Str?;
  }

  lemma DataEntriesValid(p: Place)
    ensures WellTyped(p) <==> DataModelUpdate(DataMessage(p).fields["dataModelUpdate"])
  {
    var contents := PlaceData(p) + [FormDefaults()];
    var d := DataMessage(p).fields["dataModelUpdate"];
    assert d.fields["contents"].items == contents;
    assert DataEntry(FormDefaults());
    PlaceDataValid(p);
    assert forall i :: 0 <= i < 5 ==> contents[i] == PlaceData(p)[i];
    assert contents[5] == FormDefaults();
  }

  lemma DataValid(p: Place)
    ensures WellTyped(p) <==> ValidMessage(DataMessage(p))
  {
    DataEntriesValid(p);
  }

  /**
   * The confirmation UI passes the agent's array schema exactly when the
   * place has the types the confirmation tool writes.
   */
  lemma {:induction false} BuildValidIff(l: Layout, p: Place)
    ensures ValidBatch(Arr(Build(l, p))) <==> WellTyped(p)
  {
    BatchOfThree(BeginMessage(), SurfaceMessage(l, p), DataMessage(p));
    DataValid(p);
    if WellTyped(p) {
      BeginValid();
      SurfaceValid(l, p);
    }
  }

  lemma BatchOfThree(a: Value, b: Value, c: Value)
    ensures ValidBatch(Arr([a, b, c])) <==> ValidMessage(a) && ValidMessage(b) && ValidMessage(c)
  {
    var xs := [a, b, c];
    assert xs[0] == a && xs[1] == b && xs[2] == c;
  }
}

=== FILE: handoff.dfy ===
/**
 * The read side of the confirmation hand-off, shared by both executors:
 * after the agent's run, look for the pending confirmation the tool wrote
 * into the session state, remove it, and answer with the confirmation UI.
 */
module Handoff {
  import opened Wrappers
  import opened Text
  import opened Json
  import opened Sessions
  import opened A2A
  import opened ConfirmationUi
  import opened WeatherTools

  /** `get_session`: the state of a session, or None when there is none. */
  function StateOf(sessions: map<string, map<string, Value>>, id: string): (st: Option<map<string, Value>>)
    ensures st.Some? <==> id in sessions
    ensures id in sessions ==> st.value == sessions[id]
  {
    if id in sessions then Some(sessions[id]) else None
  }

  /** `agent_session and agent_session.state` and a truthy `state.get("pending_weather_confirmation")`. */
  predicate HasPending(st: Option<map<string, Value>>) {
    st.Some? && st.value != map[] && PendingKey in st.value && Truthy(st.value[PendingKey])
  }

  /** The executor's question above the form. */
  function PromptText(p: Place): string {
    "What information would you like to get for " + Show(p.displayName) + "?"
  }

  /** The answer that renders the form: the question, then one data part per UI message. */
  function ConfirmationParts(l: Layout, p: Place): (r: seq<Part>)
    ensures |r| == 4 && r[0] == TextPart(PromptText(p))
  {
    [TextPart(PromptText(p)),
     DataPart(BeginMessage().fields), DataPart(SurfaceMessage(l, p).fields), DataPart(DataMessage(p).fields)]
  }

  /** Whether the reply already talks about the weather: "temperature" or "forecast", in any case. */
  predicate MentionsWeather(content: string) {
    Contains(Lower(content), "temperature") || Contains(Lower(content), "forecast")
  }

  /** What the check finds: the form to render, if any, and whether the pending entry was removed. */
  datatype Check = Check(render: Option<seq<Part>>, consumed: bool)

  /**
   * The check after a run. A pending entry that is not a dict makes the
   * log line raise before anything is removed, and the exception is
   * swallowed. Otherwise the entry is removed; the weather executor then
   * renders nothing when the reply mentions the weather (`skipMentioned`);
   * a record missing one of the five keys raises after the removal and is
   * swallowed too.
   */
  function PendingCheck(l: Layout, skipMentioned: bool, content: string, st: Option<map<string, Value>>): (c: Check)
    ensures c.consumed ==> HasPending(st) && st.value[PendingKey].Obj?
    ensures HasPending(st) && st.value[PendingKey].Obj? ==> c.consumed
    ensures c.render.Some? ==> c.consumed
  {
    if !HasPending(st) then Check(None, false)
    else
      var cd := st.value[PendingKey];
      if !cd.Obj? then Check(None, false)
      else if skipMentioned && MentionsWeather(content) then Check(None, true)
      else
        match ReadPlace(cd.fields)
        case None => Check(None, true)
        case Some(p) => Check(Some(ConfirmationParts(l, p)), true)
  }

  /** The session store after the check: the pending key is gone from the session when consumed. */
  function AfterCheck(sessions: map<string, map<string, Value>>, id: string, c: Check): (r: map<string, map<string, Value>>)
    requires c.consumed ==> id in sessions
    ensures r.Keys == sessions.Keys
    ensures forall other :: other in sessions && other != id ==> r[other] == sessions[other]
    ensures c.consumed ==> PendingKey !in r[id]
    ensures c.consumed ==>
      forall k :: k != PendingKey ==> (k in r[id] <==> k in sessions[id]) && (k in r[id] ==> r[id][k] == sessions[id][k])
    ensures !c.consumed ==> r == sessions
  {
    if c.consumed then sessions[id := sessions[id] - {PendingKey}] else sessions
  }

  /**
   * The session store after the check when the session the executor looked
   * up is a copy, as the in-memory session service hands out: the delete
   * changes the copy only, and the store keeps the pending entry.
   */
  function AfterCheckOnCopy(sessions: map<string, map<string, Value>>, id: string, c: Check): (r: map<string, map<string, Value>>)
    ensures r == sessions
  {
    sessions
  }

  /**
   * With the delete landing on a copy, the place the tool recorded is
   * rendered again by the next check: a later turn whose reply does not
   * talk about the weather shows the stale form a second time.
   */
  lemma StaleFormRerendered(l: Layout, skipMentioned: bool, content: string, later: string,
                            sessions: map<string, map<string, Value>>, id: string,
                            before: Option<map<string, Value>>, p: Place)
    requires id in sessions && sessions[id] == WithPending(before, p)
    requires !(skipMentioned && MentionsWeather(content)) && !(skipMentioned && MentionsWeather(later))
    ensures var first := PendingCheck(l, skipMentioned, content, StateOf(sessions, id));
      var store := AfterCheckOnCopy(sessions, id, first);
      first.render == Some(ConfirmationParts(l, p))
      && PendingCheck(l, skipMentioned, later, StateOf(store, id)).render == Some(ConfirmationParts(l, p))
  {
    var first := PendingCheck(l, skipMentioned, content, StateOf(sessions, id));
    ToolThenCheck(l, skipMentioned, content, sessions, id, before, p);
    ToolThenCheck(l, skipMentioned, later, AfterCheckOnCopy(sessions, id, first), id, before, p);
  }

  /**
   * With the delete reaching the store, a pending confirmation is consumed
   * once: whatever the next reply says, the next check finds nothing.
   */
  lemma ConsumedOnce(l: Layout, skipMentioned: bool, content: string, later: string,
                     sessions: map<string, map<string, Value>>, id: string)
    ensures var first := PendingCheck(l, skipMentioned, content, StateOf(sessions, id));
      first.consumed ==>
        PendingCheck(l, skipMentioned, later, StateOf(AfterCheck(sessions, id, first), id)) == Check(None, false)
  {
  }

  /** The check as the executors run it: look the session up, test, delete, build the answer. */
  method ConsumePending(l: Layout, skipMentioned: bool, content: string, sessionId: string, svc: SessionService)
    returns (render: Option<seq<Part>>)
    modifies svc
    ensures var c := PendingCheck(l, skipMentioned, content, StateOf(old(svc.sessions), sessionId));
      render == c.render && svc.sessions == AfterCheck(old(svc.sessions), sessionId, c)
  {
    render := None;
    var st := svc.Lookup(sessionId);
    if st.None? || st.value == map[] || PendingKey !in st.value || !Truthy(st.value[PendingKey]) {
      return;
    }
    var cd := st.value[PendingKey];
    if !cd.Obj? {
      return;
    }
    svc.Delete(sessionId, PendingKey);
    if skipMentioned && MentionsWeather(content) {
      return;
    }
    var place := ReadPlace(cd.fields);
    if place.Some? {
      render := Some(ConfirmationParts(l, place.value));
    }
  }

  /**
   * The hand-off works end to end: a place the tool recorded in a session
   * is found by the check, removed from the session, and rendered as the
   * confirmation form for that same place (unless the weather executor
   * sees a reply that already talks about the weather).
   */
  lemma ToolThenCheck(l: Layout, skipMentioned: bool, content: string,
                      sessions: map<string, map<string, Value>>, id: string,
                      before: Option<map<string, Value>>, p: Place)
    requires id in sessions && sessions[id] == WithPending(before, p)
    requires !(skipMentioned && MentionsWeather(content))
    ensures var c := PendingCheck(l, skipMentioned, content, StateOf(sessions, id));
      c.render == Some(ConfirmationParts(l, p))
      && PendingKey !in AfterCheck(sessions, id, c)[id]
  {
    var st := StateOf(sessions, id);
    assert PendingKey in st.value && st.value[PendingKey] == Record(p);
    assert "location" in Record(p).fields;
    ReadWrittenPlace(p);
  }

  /** The answer carries the UI messages as data parts, in order, after the question. */
  lemma ConfirmationPartsCarryUi(l: Layout, p: Place, badPart: Value -> string)
    ensures DataParts(Build(l, p), badPart) == Ok(ConfirmationParts(l, p)[1..])
  {
    var ui := Build(l, p);
    assert ui[0].Obj? && ui[1].Obj? && ui[2].Obj?;
    var r := DataParts(ui, badPart);
    assert r.Ok?;
    assert r.value == [DataPart(ui[0].fields), DataPart(ui[1].fields), DataPart(ui[2].fields)];
    assert ConfirmationParts(l, p)[1..] == r.value;
  }

  /** The check touches nothing but the pending key of the one session. */
  lemma CheckTouchesOnlyPending(l: Layout, skipMentioned: bool, content: string,
                                sessions: map<string, map<string, Value>>, id: string)
    ensures var c := PendingCheck(l, skipMentioned, content, StateOf(sessions, id));
      var after := AfterCheck(sessions, id, c);
      after.Keys == sessions.Keys
      && (forall other :: other in sessions && other != id ==> after[other] == sessions[other])
      && (id in sessions ==> after[id] == sessions[id] - (if c.consumed then {PendingKey} else {}))
  {
  }
}

=== FILE: json.dfy ===
/**
 * Python values as they come out of `json.loads` and travel through the
 * agents: dicts, lists, strings, numbers, booleans and None.
 */
module Json {
  import opened Wrappers

  /**
   * A parsed JSON value. A number is kept opaque: `repr` is the text
   * Python's `str()` prints for it, `val` its value, used only for
   * truthiness and the schema's "integer" type. An object is a dict with
   * string keys (key order is not represented).
   */
  datatype Value =
    | Null
    | Bool(b: bool)
    | Num(val: real, repr: string)
    | Str(s: string)
    | Arr(items: seq<Value>)
    | Obj(fields: map<string, Value>)

  /** The float 0.0, the default the executors use for missing coordinates. */
  const Zero: Value := Num(0.0, "0.0")

  /** Python's `bool(v)`. */
  predicate Truthy(v: Value) {
    match v
    case Null => false
    case Bool(b) => b
    case Num(x, _) => x != 0.0
    case Str(s) => s != ""
    case Arr(xs) => xs != []
    case Obj(m) => m != map[]
  }

  /** `d.get(k, default)` on a dict. */
  function Get(d: map<string, Value>, k: string, default: Value): (r: Value)
    ensures k in d ==> r == d[k]
    ensures k !in d ==> r == default
  {
    if k in d then d[k] else default
  }

  /** Python's `a or b`: the first operand when it is truthy, else the second. */
  function Or(a: Value, b: Value): (r: Value)
    ensures Truthy(r) <==> Truthy(a) || Truthy(b)
    ensures Truthy(a) ==> r == a
  {
    if Truthy(a) then a else b
  }

  /**
   * The text an f-string interpolates for a value (`str(v)`). Exact for
   * None, booleans, numbers, strings and empty containers; a non-empty list
   * or dict is shown by a fixed placeholder, because the model keeps no
   * order for dict keys.
   */
  function Show(v: Value): string {
    match v
    case Null => "None"
    case Bool(b) => if b then "True" else "False"
    case Num(_, r) => r
    case Str(s) => s
    case Arr(xs) => if |xs| == 0 then "[]" else "[...]"
    case Obj(m) => if |m| == 0 then "{}" else "{...}"
  }

  /**
   * The JSON libraries the agents call: `json.loads`, which either yields a
   * value or raises with a message, and `jsonschema.validate` against the
   * agent's array schema, which passes (None) or raises with a message.
   */
  datatype Library = Library(loads: string -> Result<Value, string>, validate: Value -> Option<string>)
}

=== FILE: schema.dfy ===
/**
 * The A2UI message schema and the array validator wrapped around it: what
 * `jsonschema.validate(instance, {"type": "array", "items": A2UI_SCHEMA})`
 * accepts. Each predicate below is one object schema of the constant:
 * "type" is a constructor test, "properties" constrain a key only when it is
 * present, "required" keys must be present, "enum" restricts a string to a
 * listed set, "minItems" bounds a list from below, and unknown keys are
 * allowed everywhere. The top level has no "required" and no "oneOf": the
 * rule that a message carries exactly one of the four action keys is only a
 * description and is not enforced.
 */
module Schema {
  import opened Json
  import opened Text

  // ---- JSON Schema keywords on one dict field ----

  /** "type": "integer" (a bool is not an integer; 3.0 is). */
  predicate IsInteger(v: Value) {
    v.Num? && v.val.Floor as real == v.val
  }

  predicate OptStr(f: map<string, Value>, k: string) {
    k in f ==> f[k].Str?
  }

  predicate OptNum(f: map<string, Value>, k: string) {
    k in f ==> f[k].Num?
  }

  predicate OptInt(f: map<string, Value>, k: string) {
    k in f ==> IsInteger(f[k])
  }

  predicate OptBool(f: map<string, Value>, k: string) {
    k in f ==> f[k].Bool?
  }

  predicate OptEnum(f: map<string, Value>, k: string, allowed: set<string>) {
    k in f ==> f[k].Str? && f[k].s in allowed
  }

  predicate ReqStr(f: map<string, Value>, k: string) {
    k in f && f[k].Str?
  }

  predicate AllStrings(xs: seq<Value>) {
    forall i :: 0 <= i < |xs| ==> xs[i].Str?
  }

  // ---- enumerations ----

  const TextUsageHints: set<string> := {"h1", "h2", "h3", "h4", "h5", "caption", "body"}
  const ImageFits: set<string> := {"contain", "cover", "fill", "none", "scale-down"}
  const ImageUsageHints: set<string> :=
    {"icon", "avatar", "smallFeature", "mediumFeature", "largeFeature", "header"}
  const IconNames: set<string> := {
    "accountCircle", "add", "arrowBack", "arrowForward", "attachFile", "calendarToday",
    "call", "camera", "check", "close", "delete", "download", "edit", "event", "error",
    "favorite", "favoriteOff", "folder", "help", "home", "info", "locationOn", "lock",
    "lockOpen", "mail", "menu", "moreVert", "moreHoriz", "notificationsOff", "notifications",
    "payment", "person", "phone", "photo", "print", "refresh", "search", "send", "settings",
    "share", "shoppingCart", "star", "starHalf", "starOff", "upload", "visibility",
    "visibilityOff", "warning"}
  const Distributions: set<string> :=
    {"center", "end", "spaceAround", "spaceBetween", "spaceEvenly", "start"}
  const Alignments: set<string> := {"start", "center", "end", "stretch"}
  const ListDirections: set<string> := {"vertical", "horizontal"}
  const DividerAxes: set<string> := {"horizontal", "vertical"}
  const TextFieldTypes: set<string> := {"date", "longText", "number", "shortText", "obscured"}

  /** The four action keys a message may carry. */
  const ActionKeys: set<string> := {"beginRendering", "surfaceUpdate", "dataModelUpdate", "deleteSurface"}

  // ---- shared value shapes ----

  /** `{"literalString": string, "path": string}`, both optional. */
  predicate StringRef(v: Value) {
    v.Obj? && OptStr(v.fields, "literalString") && OptStr(v.fields, "path")
  }

  predicate OptStringRef(f: map<string, Value>, k: string) {
    k in f ==> StringRef(f[k])
  }

  predicate IsHexDigit(c: char) {
    ('0' <= c <= '9') || ('a' <= c <= 'f') || ('A' <= c <= 'F')
  }

  /**
   * "pattern": "^#[0-9a-fA-F]{6}$" as `re.search` applies it: Python's `$`
   * also matches just before one final newline.
   */
  predicate HexColor(s: string) {
    (|s| == 7 || (|s| == 8 && s[7] == '\n'))
    && s[0] == '#'
    && forall i :: 1 <= i < 7 ==> IsHexDigit(s[i])
  }

  /** Children of Row, Column and List: an explicit list of ids or a template. */
  predicate Children(v: Value) {
    v.Obj?
    && ("explicitList" in v.fields ==>
          v.fields["explicitList"].Arr? && AllStrings(v.fields["explicitList"].items))
    && ("template" in v.fields ==>
          var t := v.fields["template"];
          t.Obj? && ReqStr(t.fields, "componentId") && ReqStr(t.fields, "dataBinding"))
  }

  // ---- component kinds (the properties of "component") ----

  predicate TextComponent(v: Value) {
    v.Obj? && "text" in v.fields && StringRef(v.fields["text"])
    && OptEnum(v.fields, "usageHint", TextUsageHints)
  }

  predicate ImageComponent(v: Value) {
    v.Obj? && "url" in v.fields && StringRef(v.fields["url"])
    && OptEnum(v.fields, "fit", ImageFits)
    && OptEnum(v.fields, "usageHint", ImageUsageHints)
  }

  predicate IconComponent(v: Value) {
    v.Obj? && "name" in v.fields
    && var n := v.fields["name"];
    n.Obj? && OptEnum(n.fields, "literalString", IconNames) && OptStr(n.fields, "path")
  }

  predicate VideoComponent(v: Value) {
    v.Obj? && "url" in v.fields && StringRef(v.fields["url"])
  }

  predicate AudioPlayerComponent(v: Value) {
    v.Obj? && "url" in v.fields && StringRef(v.fields["url"])
    && OptStringRef(v.fields, "description")
  }

  predicate RowComponent(v: Value) {
    v.Obj? && "children" in v.fields && Children(v.fields["children"])
    && OptEnum(v.fields, "distribution", Distributions)
    && OptEnum(v.fields, "alignment", Alignments)
  }

  predicate ColumnComponent(v: Value) {
    v.Obj? && "children" in v.fields && Children(v.fields["children"])
    && OptEnum(v.fields, "distribution", Distributions)
    && OptEnum(v.fields, "alignment", Alignments)
  }

  predicate ListComponent(v: Value) {
    v.Obj? && "children" in v.fields && Children(v.fields["children"])
    && OptEnum(v.fields, "direction", ListDirections)
    && OptEnum(v.fields, "alignment", Alignments)
  }

  predicate CardComponent(v: Value) {
    v.Obj? && ReqStr(v.fields, "child")
  }

  predicate TabItem(v: Value) {
    v.Obj? && "title" in v.fields && StringRef(v.fields["title"]) && ReqStr(v.fields, "child")
  }

  predicate TabsComponent(v: Value) {
    v.Obj? && "tabItems" in v.fields && v.fields["tabItems"].Arr?
    && forall i :: 0 <= i < |v.fields["tabItems"].items| ==> TabItem(v.fields["tabItems"].items[i])
  }

  predicate DividerComponent(v: Value) {
    v.Obj? && OptEnum(v.fields, "axis", DividerAxes)
  }

  predicate ModalComponent(v: Value) {
    v.Obj? && ReqStr(v.fields, "entryPointChild") && ReqStr(v.fields, "contentChild")
  }

  /** One entry of a button action's context: a key and a typed value object. */
  predicate ActionContextEntry(v: Value) {
    v.Obj? && ReqStr(v.fields, "key") && "value" in v.fields
    && var x := v.fields["value"];
    x.Obj? && OptStr(x.fields, "path") && OptStr(x.fields, "literalString")
    && OptNum(x.fields, "literalNumber") && OptBool(x.fields, "literalBoolean")
  }

  predicate Action(v: Value) {
    v.Obj? && ReqStr(v.fields, "name")
    && ("context" in v.fields ==>
          v.fields["context"].Arr?
          && forall i :: 0 <= i < |v.fields["context"].items| ==>
               ActionContextEntry(v.fields["context"].items[i]))
  }

  predicate ButtonComponent(v: Value) {
    v.Obj? && ReqStr(v.fields, "child") && OptBool(v.fields, "primary")
    && "action" in v.fields && Action(v.fields["action"])
  }

  predicate CheckBoxComponent(v: Value) {
    v.Obj? && "label" in v.fields && StringRef(v.fields["label"])
    && "value" in v.fields
    && var x := v.fields["value"];
    x.Obj? && OptBool(x.fields, "literalBoolean") && OptStr(x.fields, "path")
  }

  predicate TextFieldComponent(v: Value) {
    v.Obj? && "label" in v.fields && StringRef(v.fields["label"])
    && OptStringRef(v.fields, "text")
    && OptEnum(v.fields, "textFieldType", TextFieldTypes)
    && OptStr(v.fields, "validationRegexp")
  }

  predicate DateTimeInputComponent(v: Value) {
    v.Obj? && "value" in v.fields && StringRef(v.fields["value"])
    && OptBool(v.fields, "enableDate") && OptBool(v.fields, "enableTime")
    && OptStr(v.fields, "outputFormat")
  }

  predicate ChoiceOption(v: Value) {
    v.Obj? && "label" in v.fields && StringRef(v.fields["label"]) && ReqStr(v.fields, "value")
  }

  predicate MultipleChoiceComponent(v: Value) {
    v.Obj?
    && "selections" in v.fields
    && (var sel := v.fields["selections"];
        sel.Obj?
        && ("literalArray" in sel.fields ==>
              sel.fields["literalArray"].Arr? && AllStrings(sel.fields["literalArray"].items))
        && OptStr(sel.fields, "path"))
    && "options" in v.fields && v.fields["options"].Arr?
    && (forall i :: 0 <= i < |v.fields["options"].items| ==> ChoiceOption(v.fields["options"].items[i]))
    && OptInt(v.fields, "maxAllowedSelections")
  }

  predicate SliderComponent(v: Value) {
    v.Obj? && "value" in v.fields
    && (var x := v.fields["value"]; x.Obj? && OptNum(x.fields, "literalNumber") && OptStr(x.fields, "path"))
    && OptNum(v.fields, "minValue") && OptNum(v.fields, "maxValue")
  }

  /** The schema of component kind `k`; a key that names no kind is not constrained. */
  predicate KindValid(k: string, x: Value) {
    if k == "Text" then TextComponent(x)
    else if k == "Image" then ImageComponent(x)
    else if k == "Icon" then IconComponent(x)
    else if k == "Video" then VideoComponent(x)
    else if k == "AudioPlayer" then AudioPlayerComponent(x)
    else if k == "Row" then RowComponent(x)
    else if k == "Column" then ColumnComponent(x)
    else if k == "List" then ListComponent(x)
    else if k == "Card" then CardComponent(x)
    else if k == "Tabs" then TabsComponent(x)
    else if k == "Divider" then DividerComponent(x)
    else if k == "Modal" then ModalComponent(x)
    else if k == "Button" then ButtonComponent(x)
    else if k == "CheckBox" then CheckBoxComponent(x)
    else if k == "TextField" then TextFieldComponent(x)
    else if k == "DateTimeInput" then DateTimeInputComponent(x)
    else if k == "MultipleChoice" then MultipleChoiceComponent(x)
    else if k == "Slider" then SliderComponent(x)
    else true
  }

  /** The "component" wrapper: every known kind that is present is checked. */
  predicate ComponentKinds(v: Value) {
    v.Obj? && forall k :: k in v.fields ==> KindValid(k, v.fields[k])
  }

  /** One item of `surfaceUpdate.components`: requires "id" and "component". */
  predicate ComponentEntry(v: Value) {
    v.Obj? && ReqStr(v.fields, "id") && OptNum(v.fields, "weight")
    && "component" in v.fields && ComponentKinds(v.fields["component"])
  }

  // ---- the four actions ----

  predicate Styles(v: Value) {
    v.Obj? && OptStr(v.fields, "font")
    && ("primaryColor" in v.fields ==>
          v.fields["primaryColor"].Str? && HexColor(v.fields["primaryColor"].s))
  }

  predicate BeginRendering(v: Value) {
    v.Obj? && ReqStr(v.fields, "surfaceId") && ReqStr(v.fields, "root")
    && ("styles" in v.fields ==> Styles(v.fields["styles"]))
  }

  predicate SurfaceUpdate(v: Value) {
    v.Obj? && ReqStr(v.fields, "surfaceId")
    && "components" in v.fields
    && var cs := v.fields["components"];
    cs.Arr? && |cs.items| >= 1
    && forall i :: 0 <= i < |cs.items| ==> ComponentEntry(cs.items[i])
  }

  /** An entry of a `valueMap`: requires "key"; the typed values are optional. */
  predicate ValueMapEntry(v: Value) {
    v.Obj? && ReqStr(v.fields, "key")
    && OptStr(v.fields, "valueString") && OptNum(v.fields, "valueNumber")
    && OptBool(v.fields, "valueBoolean")
  }

  predicate DataEntry(v: Value) {
    v.Obj? && ReqStr(v.fields, "key")
    && OptStr(v.fields, "valueString") && OptNum(v.fields, "valueNumber")
    && OptBool(v.fields, "valueBoolean")
    && ("valueMap" in v.fields ==>
          v.fields["valueMap"].Arr?
          && forall i :: 0 <= i < |v.fields["valueMap"].items| ==> ValueMapEntry(v.fields["valueMap"].items[i]))
  }

  predicate DataModelUpdate(v: Value) {
    v.Obj? && ReqStr(v.fields, "surfaceId") && OptStr(v.fields, "path")
    && "contents" in v.fields
    && var cs := v.fields["contents"];
    cs.Arr? && forall i :: 0 <= i < |cs.items| ==> DataEntry(cs.items[i])
  }

  predicate DeleteSurface(v: Value) {
    v.Obj? && ReqStr(v.fields, "surfaceId")
  }

  /** One A2UI message: an object whose present action keys are each valid. */
  predicate ValidMessage(v: Value) {
    v.Obj?
    && var f := v.fields;
    && ("beginRendering" in f ==> BeginRendering(f["beginRendering"]))
    && ("surfaceUpdate" in f ==> SurfaceUpdate(f["surfaceUpdate"]))
    && ("dataModelUpdate" in f ==> DataModelUpdate(f["dataModelUpdate"]))
    && ("deleteSurface" in f ==> DeleteSurface(f["deleteSurface"]))
  }

  /** The validator the WeatherAgent builds: a list whose every item is a valid message. */
  predicate ValidBatch(v: Value) {
    v.Arr? && forall i :: 0 <= i < |v.items| ==> ValidMessage(v.items[i])
  }

  // ---- properties of the schema ----

  /** What a passing action carries: its required keys, and at least one component in an update. */
  lemma ActionRequirements(v: Value)
    ensures BeginRendering(v) ==> v.Obj? && ReqStr(v.fields, "root") && ReqStr(v.fields, "surfaceId")
    ensures DeleteSurface(v) ==> v.Obj? && ReqStr(v.fields, "surfaceId")
    ensures SurfaceUpdate(v) ==>
      v.Obj? && ReqStr(v.fields, "surfaceId") && "components" in v.fields
      && v.fields["components"].Arr? && |v.fields["components"].items| >= 1
    ensures DataModelUpdate(v) ==> v.Obj? && ReqStr(v.fields, "surfaceId") && "contents" in v.fields
  {
  }

  /**
   * The required keys are all an action needs: the smallest instances
   * pass, and each loses its validity when a required key or the one
   * required component is missing.
   */
  lemma SmallestActions(sid: string, root: string, id: string, key: string)
    ensures BeginRendering(Obj(map["surfaceId" := Str(sid), "root" := Str(root)]))
    ensures !BeginRendering(Obj(map["surfaceId" := Str(sid)])) && !BeginRendering(Obj(map["root" := Str(root)]))
    ensures SurfaceUpdate(Obj(map["surfaceId" := Str(sid),
                                  "components" := Arr([Obj(map["id" := Str(id), "component" := Obj(map[])])])]))
    ensures !SurfaceUpdate(Obj(map["surfaceId" := Str(sid), "components" := Arr([])]))
    ensures !SurfaceUpdate(Obj(map["surfaceId" := Str(sid), "components" := Arr([Obj(map["id" := Str(id)])])]))
    ensures DataModelUpdate(Obj(map["surfaceId" := Str(sid), "contents" := Arr([])]))
    ensures !DataModelUpdate(Obj(map["surfaceId" := Str(sid), "contents" := Arr([Obj(map[])])]))
    ensures !DataModelUpdate(Obj(map["surfaceId" := Str(sid),
                                     "contents" := Arr([Obj(map["key" := Str(key), "valueMap" := Arr([Obj(map[])])])])]))
    ensures DeleteSurface(Obj(map["surfaceId" := Str(sid)])) && !DeleteSurface(Obj(map[]))
  {
    var entry := Obj(map["id" := Str(id), "component" := Obj(map[])]);
    assert ComponentEntry(entry);
    var bare := Obj(map["id" := Str(id)]);
    assert !ComponentEntry(Arr([bare]).items[0]);
    assert !DataEntry(Arr([Obj(map[])]).items[0]);
    var mapped := Obj(map["key" := Str(key), "valueMap" := Arr([Obj(map[])])]);
    assert !ValueMapEntry(mapped.fields["valueMap"].items[0]);
    assert !DataEntry(Arr([mapped]).items[0]);
  }

  /**
   * The enumerations are enforced: a text hint, a row's distribution and a
   * column's alignment pass exactly when they are listed.
   */
  lemma EnumsEnforced(h: string)
    ensures TextComponent(Obj(map["text" := Obj(map[]), "usageHint" := Str(h)])) <==> h in TextUsageHints
    ensures RowComponent(Obj(map["children" := Obj(map[]), "distribution" := Str(h)])) <==> h in Distributions
    ensures ColumnComponent(Obj(map["children" := Obj(map[]), "alignment" := Str(h)])) <==> h in Alignments
  {
    assert Children(Obj(map[]));
  }

  /** A button needs a child and an action with a name; a checkbox needs a label and a value. */
  lemma ButtonAndCheckBoxRequire(child: string, name: string)
    ensures ButtonComponent(Obj(map["child" := Str(child), "action" := Obj(map["name" := Str(name)])]))
    ensures !ButtonComponent(Obj(map["child" := Str(child), "action" := Obj(map[])]))
    ensures !ButtonComponent(Obj(map["action" := Obj(map["name" := Str(name)])]))
    ensures !ButtonComponent(Obj(map["child" := Str(child)]))
    ensures CheckBoxComponent(Obj(map["label" := Obj(map[]), "value" := Obj(map[])]))
    ensures !CheckBoxComponent(Obj(map["label" := Obj(map[])])) && !CheckBoxComponent(Obj(map["value" := Obj(map[])]))
  {
    assert Action(Obj(map["name" := Str(name)]));
    assert StringRef(Obj(map[]));
  }

  /**
   * Nothing limits a message to one action: a message with none passes,
   * and so does one that carries all four valid actions at once.
   */
  lemma ActionKeysNotExclusive(b: Value, u: Value, d: Value, x: Value)
    requires BeginRendering(b) && SurfaceUpdate(u) && DataModelUpdate(d) && DeleteSurface(x)
    ensures ValidMessage(Obj(map[]))
    ensures ValidMessage(Obj(map["beginRendering" := b, "surfaceUpdate" := u, "dataModelUpdate" := d, "deleteSurface" := x]))
  {
  }
}

=== FILE: sessions.dfy ===
/**
 * The in-memory session store an agent's runner keeps: for each session id
 * a state dictionary. Tools write into it while the model runs, and the
 * executors read and clear the pending confirmation after the run.
 */
module Sessions {
  import opened Wrappers
  import opened Json

  /** The state key the confirmation tool writes and the executors consume. */
  const PendingKey := "pending_weather_confirmation"

  class SessionService {
    var sessions: map<string, map<string, Value>>

    constructor ()
      ensures sessions == map[]
    {
      sessions := map[];
    }

    /** `get_session`: the state of a session, or None when there is none. */
    method Lookup(id: string) returns (state: Option<map<string, Value>>)
      ensures id in sessions ==> state == Some(sessions[id])
      ensures id !in sessions ==> state.None?
    {
      if id in sessions {
        state := Some(sessions[id]);
      } else {
        state := None;
      }
    }

    /** `create_session` with an initial state. */
    method Create(id: string, state: map<string, Value>)
      modifies this
      ensures sessions == old(sessions)[id := state]
    {
      sessions := sessions[id := state];
    }

    /** `session.state[key] = value` on an existing session. */
    method Put(id: string, key: string, value: Value)
      requires id in sessions
      modifies this
      ensures sessions == old(sessions)[id := old(sessions)[id][key := value]]
    {
      sessions := sessions[id := sessions[id][key := value]];
    }

    /** `del session.state[key]` on an existing session. */
    method Delete(id: string, key: string)
      requires id in sessions && key in sessions[id]
      modifies this
      ensures sessions == old(sessions)[id := old(sessions)[id] - {key}]
    {
      sessions := sessions[id := sessions[id] - {key}];
    }
  }
}

=== FILE: text.dfy ===
/**
 * The handful of Python string operations the agents use, on `string`
 * (a sequence of characters). Whitespace is Python's; case mapping covers
 * ASCII letters only.
 */
module Text {
  import opened Wrappers

  /**
   * The characters Python's `str.isspace` accepts, which are also the ones
   * `str.strip()` removes and the regular-expression class `\s` matches.
   */
  const Whitespace: set<char> := {
    '\t', '\n', '\U{000B}', '\U{000C}', '\r', '\U{001C}', '\U{001D}', '\U{001E}', '\U{001F}', ' ',
    '\U{0085}', '\U{00A0}', '\U{1680}', '\U{2000}', '\U{2001}', '\U{2002}', '\U{2003}', '\U{2004}',
    '\U{2005}', '\U{2006}', '\U{2007}', '\U{2008}', '\U{2009}', '\U{200A}', '\U{2028}', '\U{2029}',
    '\U{202F}', '\U{205F}', '\U{3000}'}

  predicate IsSpace(c: char) {
    c in Whitespace
  }

  /** Whitespace lies at or below the space or from U+0085 on. */
  lemma SpaceRange(c: char)
    requires IsSpace(c)
    ensures c <= ' ' || '\U{0085}' <= c
  {
  }

  /** A printable ASCII character other than the space is not whitespace. */
  lemma PrintableUnspaced(c: char)
    requires '!' <= c <= '~'
    ensures !IsSpace(c)
  {
    if IsSpace(c) {
      SpaceRange(c);
    }
  }

  predicate IsUpper(c: char) {
    'A' <= c <= 'Z'
  }

  function LowerChar(c: char): char {
    if 'A' <= c <= 'Z' then (c as int + 32) as char else c
  }

  /** `str.lower()` on ASCII letters. */
  function Lower(s: string): (r: string)
    ensures |r| == |s|
  {
    seq(|s|, i requires 0 <= i < |s| => LowerChar(s[i]))
  }

  /** Lower-casing twice gives what lower-casing once gives. */
  lemma LowerIdempotent(s: string)
    ensures Lower(Lower(s)) == Lower(s)
  {
    assert forall i :: 0 <= i < |s| ==> LowerChar(LowerChar(s[i])) == LowerChar(s[i]);
  }

  predicate StartsWith(s: string, p: string) {
    |p| <= |s| && s[..|p|] == p
  }

  predicate EndsWith(s: string, p: string) {
    |p| <= |s| && s[|s| - |p|..] == p
  }

  /** `p` occurs in `s` starting at index `i`. */
  predicate OccursAt(s: string, p: string, i: int) {
    0 <= i && i + |p| <= |s| && s[i..i + |p|] == p
  }

  /** Python's `p in s`. */
  predicate Contains(s: string, p: string) {
    exists i | 0 <= i <= |s| - |p| :: OccursAt(s, p, i)
  }

  /** The first index at or after `from` where `p` occurs, as `str.find` does. */
  function FindFrom(s: string, p: string, from: nat): (r: Option<nat>)
    decreases |s| - from
    ensures r.Some? ==> from <= r.value && OccursAt(s, p, r.value)
    ensures r.Some? ==> forall j :: from <= j < r.value ==> !OccursAt(s, p, j)
    ensures r.None? ==> forall j :: from <= j ==> !OccursAt(s, p, j)
  {
    if from + |p| > |s| then None
    else if s[from..from + |p|] == p then Some(from)
    else FindFrom(s, p, from + 1)
  }

  /**
   * `s.split(d, 1)` when `d in s`: the text before the first occurrence of
   * `d` and the text after it.
   */
  function SplitFirst(s: string, d: string): (r: (string, string))
    requires Contains(s, d)
    ensures s == r.0 + d + r.1
    ensures OccursAt(s, d, |r.0|)
    ensures forall j :: 0 <= j < |r.0| ==> !OccursAt(s, d, j)
  {
    var i := FindFrom(s, d, 0);
    assert i.Some? by {
      var k :| 0 <= k <= |s| - |d| && OccursAt(s, d, k);
    }
    var k := i.value;
    assert s == s[..k] + d + s[k + |d|..] by {
      assert s == s[..k] + s[k..k + |d|] + s[k + |d|..];
    }
    (s[..k], s[k + |d|..])
  }

  /** `s.strip()`: no leading and no trailing whitespace remains. */
  function Strip(s: string): (r: string)
    ensures r == [] || (!IsSpace(r[0]) && !IsSpace(r[|r| - 1]))
    ensures |r| <= |s|
  {
    RStripChars(LStripChars(s, Whitespace), Whitespace)
  }

  /** `s.lstrip(chars)`: drop the longest prefix made of characters in `cs`. */
  function LStripChars(s: string, cs: set<char>): (r: string)
    ensures |r| <= |s|
    ensures r == [] || r[0] !in cs
  {
    if |s| > 0 && s[0] in cs then LStripChars(s[1..], cs) else s
  }

  /** `s.rstrip(chars)`: drop the longest suffix made of characters in `cs`. */
  function RStripChars(s: string, cs: set<char>): (r: string)
    ensures |r| <= |s| && r == s[..|r|]
    ensures r == [] || r[|r| - 1] !in cs
  {
    if |s| > 0 && s[|s| - 1] in cs then RStripChars(s[..|s| - 1], cs) else s
  }

  /** `sep.join(xs)`. */
  function Join(xs: seq<string>, sep: string): string
  {
    if |xs| == 0 then ""
    else if |xs| == 1 then xs[0]
    else xs[0] + sep + Join(xs[1..], sep)
  }

  /** The concatenation of a sequence of strings. */
  function Concat(xs: seq<string>): string
  {
    if |xs| == 0 then "" else xs[0] + Concat(xs[1..])
  }

  lemma {:induction false} ContainsAppend(s: string, t: string, p: string)
    requires Contains(s, p)
    ensures Contains(s + t, p) && Contains(t + s, p)
  {
    var i :| 0 <= i <= |s| - |p| && OccursAt(s, p, i);
    assert (s + t)[i..i + |p|] == s[i..i + |p|];
    assert OccursAt(s + t, p, i);
    assert (t + s)[|t| + i..|t| + i + |p|] == s[i..i + |p|];
    assert OccursAt(t + s, p, |t| + i);
  }

  /** Stripping a prefix made of characters of `cs` stops at the first character outside `cs`. */
  lemma {:induction false} LStripCharsPrefix(p: string, q: string, cs: set<char>)
    requires forall i :: 0 <= i < |p| ==> p[i] in cs
    requires q == [] || q[0] !in cs
    ensures LStripChars(p + q, cs) == q
  {
    if |p| > 0 {
      assert (p + q)[1..] == p[1..] + q;
      LStripCharsPrefix(p[1..], q, cs);
    } else {
      assert p + q == q;
    }
  }

  /** Stripping a suffix made of characters of `cs` stops at the last character outside `cs`. */
  lemma {:induction false} RStripCharsSuffix(p: string, q: string, cs: set<char>)
    requires forall i :: 0 <= i < |q| ==> q[i] in cs
    requires p == [] || p[|p| - 1] !in cs
    ensures RStripChars(p + q, cs) == p
  {
    if |q| > 0 {
      assert (p + q)[..|p + q| - 1] == p + q[..|q| - 1];
      RStripCharsSuffix(p, q[..|q| - 1], cs);
    } else {
      assert p + q == p;
    }
  }

  lemma EndsWithAppend(a: string, b: string)
    ensures EndsWith(a + b, b)
  {
    assert (a + b)[|a + b| - |b|..] == b;
  }

  lemma StartsWithAppend(a: string, b: string)
    ensures StartsWith(a + b, a)
  {
    assert (a + b)[..|a|] == a;
  }

  lemma EndsWithNested(a: string, b: string, c: string)
    ensures EndsWith(a + (b + c), c)
  {
    assert a + (b + c) == (a + b) + c;
    EndsWithAppend(a + b, c);
  }

  lemma StartsWithExtend(a: string, b: string, p: string)
    requires StartsWith(a, p)
    ensures StartsWith(a + b, p)
  {
    assert (a + b)[..|p|] == a[..|p|];
  }

  /** `lstrip` removes a prefix, and every character it removes is in `cs`. */
  lemma {:induction false} LStripCharsDrops(s: string, cs: set<char>)
    ensures var r := LStripChars(s, cs);
      r == s[|s| - |r|..] && forall i :: 0 <= i < |s| - |r| ==> s[i] in cs
  {
    if |s| > 0 && s[0] in cs {
      LStripCharsDrops(s[1..], cs);
      var r := LStripChars(s, cs);
      assert s[1..][|s| - 1 - |r|..] == s[|s| - |r|..];
      forall i | 1 <= i < |s| - |r|
        ensures s[i] in cs
      {
        assert s[i] == s[1..][i - 1];
      }
    }
  }

  /** `rstrip` removes a suffix, and every character it removes is in `cs`. */
  lemma {:induction false} RStripCharsDrops(s: string, cs: set<char>)
    ensures var r := RStripChars(s, cs);
      forall i :: |r| <= i < |s| ==> s[i] in cs
  {
    if |s| > 0 && s[|s| - 1] in cs {
      var t := s[..|s| - 1];
      RStripCharsDrops(t, cs);
      forall i | |RStripChars(s, cs)| <= i < |s| - 1
        ensures s[i] in cs
      {
        assert s[i] == t[i];
      }
    }
  }

  /** `strip()` keeps a slice `s[a..b]` and removes only whitespace around it. */
  lemma StripBounds(s: string) returns (a: nat, b: nat)
    ensures a <= b <= |s| && Strip(s) == s[a..b]
    ensures forall i :: 0 <= i < a ==> IsSpace(s[i])
    ensures forall i :: b <= i < |s| ==> IsSpace(s[i])
  {
    var l := LStripChars(s, Whitespace);
    LStripCharsDrops(s, Whitespace);
    a := |s| - |l|;
    var r := RStripChars(l, Whitespace);
    RStripCharsDrops(l, Whitespace);
    b := a + |r|;
    assert Strip(s) == r;
    assert r == l[..|r|] == s[a..b];
    forall i | b <= i < |s|
      ensures IsSpace(s[i])
    {
      assert s[i] == l[i - a];
    }
  }

  /** A word without whitespace occurs in `s.strip()` exactly when it occurs in `s`. */
  lemma ContainsStrip(s: string, w: string)
    requires |w| > 0 && forall i :: 0 <= i < |w| ==> !IsSpace(w[i])
    ensures Contains(Strip(s), w) <==> Contains(s, w)
  {
    var a, b := StripBounds(s);
    var t := Strip(s);
    if Contains(t, w) {
      var i :| 0 <= i <= |t| - |w| && OccursAt(t, w, i);
      assert s[a + i..a + i + |w|] == w by {
        forall j | 0 <= j < |w|
          ensures s[a + i + j] == w[j]
        {
          assert w[j] == t[i + j] == s[a + i + j];
        }
      }
      assert OccursAt(s, w, a + i);
    }
    if Contains(s, w) {
      var i :| 0 <= i <= |s| - |w| && OccursAt(s, w, i);
      assert s[i] == w[0];
      assert s[i + |w| - 1] == w[|w| - 1];
      assert a <= i;
      assert i + |w| <= b;
      assert t[i - a..i - a + |w|] == w by {
        forall j | 0 <= j < |w|
          ensures t[i - a + j] == w[j]
        {
          assert t[i - a + j] == s[i + j];
        }
      }
      assert OccursAt(t, w, i - a);
    }
  }
}

=== FILE: turn.dfy ===
/**
 * What a turn of either executor is made of: the decision taken on the
 * incoming message, what the turn leaves behind, the options the confirm
 * button selects, and what becomes of a UI reply the agent accepted.
 */
module Turn {
  import opened Wrappers
  import opened Text
  import opened Json
  import opened Schema
  import opened A2A
  import Agent = WeatherAgent

  /**
   * The decision on the incoming message: return without an event, raise
   * an exception, or send an instruction to the agent together with the
   * action name it answers (None for a typed message).
   */
  datatype Dispatch<I> =
    | Quiet
    | Raised(fault: Fault)
    | Ask(instruction: I, action: Value)

  /** What a turn leaves behind: the events it enqueued, the agent's session store, and an escaping exception. */
  datatype Outcome = Outcome(events: seq<Event>, sessions: map<string, map<string, Value>>, raised: Option<Fault>)

  /**
   * The options list of a confirmation: "forecast" when ticked, then
   * "alerts" when ticked, and "forecast" alone when neither is.
   */
  function SelectedOptions(forecast: bool, alerts: bool): (r: seq<string>)
    ensures r != [] && r[0] == (if forecast || !alerts then "forecast" else "alerts")
    ensures "forecast" in r <==> forecast || !alerts
    ensures "alerts" in r <==> alerts
    ensures |r| == 2 <==> forecast && alerts
    ensures !forecast && !alerts ==> r == ["forecast"]
    ensures |r| <= 2
  {
    var picked := (if forecast then ["forecast"] else []) + (if alerts then ["alerts"] else []);
    if picked == [] then ["forecast"] else picked
  }

  /**
   * A reply the UI agent accepted becomes parts without a fault under the
   * character-set cleanup: the text before the delimiter, then one data
   * part per message of the validated list.
   */
  lemma AcceptedReplyParts(content: string, lib: Library, badPart: Value -> string)
    requires Agent.EnforcesSchema(lib) && Agent.Validate(content, lib).Ok?
    ensures var v := Agent.Validate(content, lib).value;
      Contains(content, Agent.Delimiter) && v.Arr? && DataParts(v.items, badPart).Ok?
      && ReplyParts(content, CharsetStrip, lib, badPart)
         == Ok(TextHead(SplitFirst(content, Agent.Delimiter).0) + DataParts(v.items, badPart).value)
  {
    var v := Agent.Validate(content, lib).value;
    var json := Agent.JsonPart(content).value;
    assert ValidBatch(v);
    assert forall i :: 0 <= i < |v.items| ==> v.items[i].Obj? by {
      forall i | 0 <= i < |v.items|
        ensures v.items[i].Obj?
      {
        assert ValidMessage(v.items[i]);
      }
    }
    assert JsonParts(json, CharsetStrip, lib, badPart) == DataParts(v.items, badPart);
  }
}

=== FILE: two_agent_executor.dfy ===
/**
 * The two-agent executor: one `execute` call per incoming A2A message. A
 * typed message goes to the confirmation agent, whose tool records the
 * place it geocoded; the executor then renders the confirmation form. A
 * button press on that form goes to the weather agent with an instruction
 * built from the form, except a rejection, which the executor answers
 * itself. Every exception inside the turn is answered with a completed
 * status carrying its text.
 */
module TwoAgentExecutor {
  import opened Wrappers
  import opened Text
  import opened Json
  import opened Sessions
  import opened A2A
  import opened ConfirmationUi
  import opened WeatherTools
  import opened Handoff
  import opened Turn
  import Agent = WeatherAgent
  import Weather = WeatherExecutor

  // ---- the button press ----

  /**
   * How the two-agent executor reads a checkbox entry of the confirm
   * context: an object by the truth of its `literalBoolean`, and otherwise
   * as ticked when it has a `path`; a boolean as itself; a string when it
   * says "true" in any case; anything else as unticked.
   */
  function Ticked(raw: Value): (r: bool)
    ensures r ==> Truthy(raw)
    ensures raw.Bool? ==> r == raw.b
  {
    match raw
    case Obj(m) => if "literalBoolean" in m then Truthy(m["literalBoolean"]) else "path" in m
    case Bool(b) => b
    case Str(s) => Lower(s) == "true"
    case _ => false
  }

  /**
   * The decoding case by case: a literal boolean gives its truth, an
   * unresolved path reads as ticked, a string only when it says "true",
   * and None, numbers and lists read as unticked.
   */
  lemma TickedDecoding(v: Value, path: string, s: string, x: real, repr: string, xs: seq<Value>)
    ensures Ticked(Obj(map["literalBoolean" := v])) == Truthy(v)
    ensures Ticked(Bound(path))
    ensures Ticked(Str(s)) <==> Lower(s) == "true"
    ensures !Ticked(Null) && !Ticked(Num(x, repr)) && !Ticked(Arr(xs))
  {
    assert "literalBoolean" !in Bound(path).fields && "path" in Bound(path).fields;
  }

  /**
   * The two executors agree on literal booleans and on booleans, and
   * disagree on an unresolved path, on the string "yes" and on the number 1.
   */
  lemma DecodersDisagree(v: Value, b: bool, path: string)
    ensures Ticked(Obj(map["literalBoolean" := v])) == Weather.Ticked(Obj(map["literalBoolean" := v]))
    ensures Ticked(Bool(b)) == Weather.Ticked(Bool(b))
    ensures Ticked(Bound(path)) && !Weather.Ticked(Bound(path))
    ensures Weather.Ticked(Str("yes")) && !Ticked(Str("yes"))
    ensures Weather.Ticked(Num(1.0, "1")) && !Ticked(Num(1.0, "1"))
  {
    assert "literalBoolean" !in Bound(path).fields && "path" in Bound(path).fields;
    assert Lower("yes") == "yes";
  }

  /** What the confirm button reports, with this executor's defaults for missing entries. */
  datatype Selection = Selection(displayName: Value, latitude: Value, longitude: Value,
                                 stateCode: Value, forecast: bool, alerts: bool)

  function ReadSelection(ctx: map<string, Value>): (s: Selection)
    ensures "forecastSelected" !in ctx ==> !s.forecast
    ensures "alertsSelected" !in ctx ==> !s.alerts
    ensures "display_name" !in ctx && "location" !in ctx ==> s.displayName == Str("Unknown")
    ensures "display_name" !in ctx && "location" in ctx ==> s.displayName == ctx["location"]
    ensures "latitude" !in ctx ==> s.latitude == Zero
    ensures "longitude" !in ctx ==> s.longitude == Zero
    ensures "state_code" !in ctx ==> s.stateCode == Str("")
  {
    var location := Get(ctx, "location", Str("Unknown"));
    Selection(Get(ctx, "display_name", location), Get(ctx, "latitude", Zero), Get(ctx, "longitude", Zero),
              Get(ctx, "state_code", Str("")),
              Ticked(Get(ctx, "forecastSelected", Bool(false))), Ticked(Get(ctx, "alertsSelected", Bool(false))))
  }

  // The fixed text of the instruction for the weather agent, one constant
  // per run of text between two substituted values.
  const ConfirmedOpening := "The user has confirmed they want weather information for "
  const LocationLine := ".\nLocation: "
  const CoordinatesLine := "\nCoordinates: latitude="
  const LongitudeLabel := ", longitude="
  const StateLine := "\nState Code: "
  const SelectedLine := "\nUser selected: "
  const MustLine := "\n\nYOU MUST:"
  const ForecastOpen := "\n1. Call get_forecast("
  const ForecastClose := ") to get forecast data"
  const AlertsOpen := "\n2. Call get_alerts('"
  const AlertsClose := "') to get weather alerts"
  const DisplayTail := "\n\nThen display ALL the data you receive using A2UI JSON format with cards and widgets."

  /** The instruction up to "YOU MUST:": the place, its coordinates and state code, the options. */
  function ConfirmHeader(s: Selection, optionsText: string): (r: string)
    ensures StartsWith(r, ConfirmHead(s))
  {
    var place := Show(s.displayName);
    var rest := place + CoordinatesLine + Show(s.latitude)
      + LongitudeLabel + Show(s.longitude) + StateLine + Show(s.stateCode) + SelectedLine + optionsText + MustLine;
    StartsWithAppend(ConfirmedOpening + place + LocationLine, rest);
    ConfirmedOpening + place + LocationLine + rest
  }

  /** The opening of the instruction: it names the place the user confirmed. */
  function ConfirmHead(s: Selection): string {
    ConfirmedOpening + Show(s.displayName) + LocationLine
  }

  function ForecastLine(s: Selection): string {
    ForecastOpen + Show(s.latitude) + ", " + Show(s.longitude) + ForecastClose
  }

  function AlertsLine(s: Selection): string {
    AlertsOpen + Show(s.stateCode) + AlertsClose
  }

  /** The call lines for the selected options, forecast first. */
  function CallLines(s: Selection, options: seq<string>): seq<string> {
    (if "forecast" in options then [ForecastLine(s)] else []) + (if "alerts" in options then [AlertsLine(s)] else [])
  }

  /** The instruction a confirmation sends to the weather agent. */
  function ConfirmQuery(s: Selection): (r: string)
    ensures StartsWith(r, ConfirmHead(s)) && EndsWith(r, DisplayTail)
  {
    var options := SelectedOptions(s.forecast, s.alerts);
    var body := ConfirmHeader(s, Join(options, " and ")) + Concat(CallLines(s, options));
    StartsWithExtend(ConfirmHeader(s, Join(options, " and ")), Concat(CallLines(s, options)), ConfirmHead(s));
    StartsWithExtend(body, DisplayTail, ConfirmHead(s));
    EndsWithAppend(body, DisplayTail);
    body + DisplayTail
  }

  /**
   * The instruction asks for at least one call: the forecast exactly when
   * it is ticked or nothing is, the alerts exactly when they are ticked,
   * and the forecast first.
   */
  lemma ConfirmQueryCalls(s: Selection)
    ensures var calls := CallLines(s, SelectedOptions(s.forecast, s.alerts));
      calls != [] && |calls| <= 2
      && (ForecastLine(s) in calls <==> s.forecast || !s.alerts)
      && (AlertsLine(s) in calls <==> s.alerts)
      && calls[0] == (if s.forecast || !s.alerts then ForecastLine(s) else AlertsLine(s))
  {
    assert ForecastLine(s)[1] == '1' && AlertsLine(s)[1] == '2';
  }

  /** The options line names what the calls fetch, joined by "and". */
  lemma OptionsText(forecast: bool, alerts: bool)
    ensures Join(SelectedOptions(forecast, alerts), " and ")
      == (if forecast && alerts then "forecast and alerts" else if alerts then "alerts" else "forecast")
  {
  }

  /** The confirmation instruction as `execute` builds it: the options list, then the text line by line. */
  method BuildConfirmQuery(s: Selection) returns (query: string)
    ensures query == ConfirmQuery(s)
  {
    var options: seq<string> := [];
    if s.forecast {
      options := options + ["forecast"];
    }
    if s.alerts {
      options := options + ["alerts"];
    }
    if options == [] {
      options := ["forecast"];
    }
    assert options == SelectedOptions(s.forecast, s.alerts);
    var header := ConfirmHeader(s, Join(options, " and "));
    query := header;
    ghost var calls: seq<string> := [];
    if "forecast" in options {
      query := query + ForecastLine(s);
      calls := calls + [ForecastLine(s)];
    }
    if "alerts" in options {
      query := query + AlertsLine(s);
      calls := calls + [AlertsLine(s)];
    }
    assert calls == CallLines(s, options);
    assert query == header + Concat(calls) by {
      ConcatAtMostTwo(calls);
    }
    query := query + DisplayTail;
  }

  lemma ConcatAtMostTwo(xs: seq<string>)
    requires |xs| <= 2
    ensures |xs| == 0 ==> Concat(xs) == []
    ensures |xs| == 1 ==> Concat(xs) == xs[0]
    ensures |xs| == 2 ==> Concat(xs) == xs[0] + xs[1]
  {
    if |xs| > 0 {
      assert Concat(xs[1..]) == (if |xs| == 2 then xs[1] else []) by {
        if |xs| == 2 {
          assert xs[1..][1..] == [];
        }
      }
    }
  }

  const ActionOpening := "User action: "

  /**
   * What the executor sends to an agent: the typed text to the
   * confirmation agent, or to the weather agent the instruction a confirm
   * press builds or the name of any other action. `QueryText` is the
   * string it sends.
   */
  datatype Request =
    | Typed(text: string)
    | Confirmed(selection: Selection)
    | Pressed(action: Value)

  /** The confirmation agent answers typed text; the weather agent answers everything else. */
  predicate ForConfirmationAgent(r: Request) {
    r.Typed?
  }

  /**
   * The text sent to the agent: typed text as it is, the confirmation
   * instruction opening with the place and closing with the display
   * request, or the action's name after "User action: ".
   */
  function QueryText(r: Request): (t: string)
    ensures r.Typed? ==> t == r.text
    ensures r.Confirmed? ==> StartsWith(t, ConfirmHead(r.selection)) && EndsWith(t, DisplayTail)
    ensures r.Pressed? ==> StartsWith(t, ActionOpening) && EndsWith(t, Show(r.action))
  {
    match r
    case Typed(text) => text
    case Confirmed(s) => ConfirmQuery(s)
    case Pressed(action) =>
      StartsWithAppend(ActionOpening, Show(action));
      EndsWithAppend(ActionOpening, Show(action));
      ActionOpening + Show(action)
  }

  /** The decision on the incoming message: answer a rejection, answer a fault, or ask an agent. */
  datatype Decision =
    | Decline
    | Fail(fault: Fault)
    | Consult(request: Request)

  /** The decision for an action, given the converted context. */
  function ActionDecision(action: Value, ctx: map<string, Value>): (d: Decision)
    ensures d.Decline? <==> action == Str("rejectWeather")
    ensures d.Consult? && d.request.Confirmed? <==> action == Str("confirmWeather")
    ensures d.Consult? && d.request.Pressed? ==> d.request.action == action
    ensures !d.Fail?
  {
    if action == Str("confirmWeather") then Consult(Confirmed(ReadSelection(ctx)))
    else if action == Str("rejectWeather") then Decline
    else Consult(Pressed(action))
  }

  /**
   * The decision on the incoming message: a truthy UI event is handled by
   * its action (one that is not a dict fails on `.get`, a context list
   * with an unhashable key fails too); otherwise the typed text goes to
   * the confirmation agent. So the confirmation agent is asked exactly
   * when there is no UI event.
   */
  function Decide(parts: seq<Part>): (d: Decision)
    ensures var ui := LastUserAction(parts);
      !(ui.Some? && Truthy(ui.value)) <==> d == Consult(Typed(UserInput(parts)))
    ensures d.Consult? ==> (ForConfirmationAgent(d.request) <==> !(LastUserAction(parts).Some? && Truthy(LastUserAction(parts).value)))
    ensures var ui := LastUserAction(parts);
      ui.Some? && Truthy(ui.value) && ui.value.Obj? ==>
        var ctx := ContextDict(Get(ui.value.fields, "context", Obj(map[])));
        (ctx.Err? ==> d == Fail(ctx.error))
        && (ctx.Ok? ==> d == ActionDecision(ActionName(ui.value.fields), ctx.value))
    ensures var ui := LastUserAction(parts);
      ui.Some? && Truthy(ui.value) && !ui.value.Obj? ==> d.Fail? && d.fault.kind == "AttributeError"
  {
    var ui := LastUserAction(parts);
    if ui.Some? && Truthy(ui.value) then
      if !ui.value.Obj? then Fail(NoGet(ui.value))
      else
        var event := ui.value.fields;
        match ContextDict(Get(event, "context", Obj(map[])))
        case Err(f) => Fail(f)
        case Ok(ctx) => ActionDecision(ActionName(event), ctx)
    else Consult(Typed(UserInput(parts)))
  }

  // ---- the reply ----

  /** The status every turn opens with: working, without a message. */
  const Opening := StatusUpdate(Working, None, false)

  const DeclineText := "No problem! Let me know if you change your mind."

  const NoResponseText := "Sorry, I didn't get a response. Please try again."

  /** The answer to an exception: its message after "Error: ". */
  function ErrorText(f: Fault): string {
    "Error: " + f.message
  }

  /**
   * The status that ends a turn whose reply rendered no form: an apology
   * when the agent gave no content, the parts of the reply otherwise
   * (the JSON after the delimiter cleaned by the regular expressions), or
   * the error text when building a part raised. Every branch enqueues one
   * completed, final status.
   */
  function ReplyEvents(content: Option<string>, lib: Library, badPart: Value -> string): (r: seq<Event>)
    ensures |r| == 1 && r[0].StatusUpdate? && r[0].state == Completed && r[0].final && r[0].message.Some?
  {
    if content.None? || content.value == "" then [TextStatus(Completed, NoResponseText, true)]
    else if Contains(content.value, Agent.Delimiter) then
      match ReplyParts(content.value, RegexStrip, lib, badPart)
      case Err(f) => [TextStatus(Completed, ErrorText(f), true)]
      case Ok(parts) => [StatusUpdate(Completed, Some(parts), true)]
    else [StatusUpdate(Completed, Some([TextPart(Strip(content.value))]), true)]
  }

  /**
   * The turn after the agent's run: the pending check when the UI is on,
   * there is content and the confirmation agent ran, then the reply.
   */
  function AfterRun(useUi: bool, content: Option<string>, toConfirmation: bool,
                    sessions: map<string, map<string, Value>>, sessionId: string,
                    lib: Library, badPart: Value -> string): (o: Outcome)
    ensures o.raised.None? && |o.events| == 1 && o.events[0].StatusUpdate?
    ensures o.events[0].final <==> o.events[0].state == Completed
    ensures !o.events[0].final ==> useUi && toConfirmation && content.Some? && content.value != []
  {
    if useUi && content.Some? && content.value != "" && toConfirmation then
      var check := PendingCheck(TwoAgentLayout, false, content.value, StateOf(sessions, sessionId));
      var after := AfterCheck(sessions, sessionId, check);
      if check.render.Some? then Outcome([StatusUpdate(InputRequired, check.render, false)], after, None)
      else Outcome(ReplyEvents(content, lib, badPart), after, None)
    else Outcome(ReplyEvents(content, lib, badPart), sessions, None)
  }

  /**
   * A turn for a decided message: the opening status, then the answer to
   * a rejection or a fault, or the statuses of the agent's progress and
   * the one after its run. No exception escapes.
   */
  function RespondTo(d: Decision, useUi: bool, sessionId: string, stream: Request -> seq<Agent.StreamItem>,
                     sessions: map<string, map<string, Value>>, lib: Library, badPart: Value -> string): (o: Outcome)
    ensures o.raised.None?
    ensures |o.events| >= 2 && o.events[0] == Opening
    ensures d.Decline? ==> o == Outcome([Opening, TextStatus(Completed, DeclineText, true)], sessions, None)
    ensures d.Fail? ==> o == Outcome([Opening, TextStatus(Completed, ErrorText(d.fault), true)], sessions, None)
  {
    match d
    case Decline => Outcome([Opening, TextStatus(Completed, DeclineText, true)], sessions, None)
    case Fail(f) => Outcome([Opening, TextStatus(Completed, ErrorText(f), true)], sessions, None)
    case Consult(request) =>
      var relayed := Relay(stream(request));
      var after := AfterRun(useUi, relayed.content, ForConfirmationAgent(request), sessions, sessionId, lib, badPart);
      Outcome([Opening] + relayed.updates + after.events, after.sessions, None)
  }

  /** One `execute` call on an incoming message. */
  function Respond(parts: seq<Part>, useUi: bool, sessionId: string, stream: Request -> seq<Agent.StreamItem>,
                   sessions: map<string, map<string, Value>>, lib: Library, badPart: Value -> string): (o: Outcome)
    ensures o.raised.None? && |o.events| >= 2 && o.events[0] == Opening
    ensures var last := o.events[|o.events| - 1];
      last.StatusUpdate?
      && ((last.state == Completed && last.final)
          || (last.state == InputRequired && !last.final && useUi
              && !(LastUserAction(parts).Some? && Truthy(LastUserAction(parts).value))))
  {
    var d := Decide(parts);
    if d.Consult? then
      AskedTurnShape(d.request, useUi, sessionId, stream, sessions, lib, badPart);
      RespondTo(d, useUi, sessionId, stream, sessions, lib, badPart)
    else RespondTo(d, useUi, sessionId, stream, sessions, lib, badPart)
  }

  // ---- properties of a turn ----

  /**
   * A turn that asks an agent opens with the working status, sends a
   * working status per progress item and ends with one status; that last
   * status is completed and final, unless it is the confirmation form,
   * which only the confirmation agent's turn in UI mode can bring.
   */
  lemma AskedTurnShape(request: Request, useUi: bool, sessionId: string, stream: Request -> seq<Agent.StreamItem>,
                       sessions: map<string, map<string, Value>>, lib: Library, badPart: Value -> string)
    ensures var o := RespondTo(Consult(request), useUi, sessionId, stream, sessions, lib, badPart);
      var relayed := Relay(stream(request));
      var last := o.events[|o.events| - 1];
      |o.events| == |relayed.updates| + 2
      && o.events[1..|o.events| - 1] == relayed.updates
      && last.StatusUpdate?
      && ((last.state == Completed && last.final)
          || (last.state == InputRequired && !last.final && useUi && ForConfirmationAgent(request)))
      && o.sessions.Keys == sessions.Keys
  {
    var relayed := Relay(stream(request));
    var after := AfterRun(useUi, relayed.content, ForConfirmationAgent(request), sessions, sessionId, lib, badPart);
    var o := RespondTo(Consult(request), useUi, sessionId, stream, sessions, lib, badPart);
    assert o.events == [Opening] + relayed.updates + after.events;
    assert o.events[1..|o.events| - 1] == relayed.updates;
    if relayed.content.Some? {
      CheckTouchesOnlyPending(TwoAgentLayout, false, relayed.content.value, sessions, sessionId);
    }
  }

  /**
   * A rejection is answered by the executor itself: the opening status and
   * the fixed answer, completed and final, whatever the agents would have
   * said, and the session store is untouched.
   */
  lemma RejectionAsksNoAgent(parts: seq<Part>, useUi: bool, sessionId: string,
                             stream: Request -> seq<Agent.StreamItem>, other: Request -> seq<Agent.StreamItem>,
                             sessions: map<string, map<string, Value>>, lib: Library, badPart: Value -> string)
    requires LastUserAction(parts).Some? && LastUserAction(parts).value.Obj?
    requires var event := LastUserAction(parts).value.fields;
      ActionName(event) == Str("rejectWeather") && ContextDict(Get(event, "context", Obj(map[]))).Ok?
    ensures Respond(parts, useUi, sessionId, stream, sessions, lib, badPart)
      == Outcome([Opening, TextStatus(Completed, DeclineText, true)], sessions, None)
    ensures Respond(parts, useUi, sessionId, stream, sessions, lib, badPart)
      == Respond(parts, useUi, sessionId, other, sessions, lib, badPart)
  {
    var event := LastUserAction(parts).value.fields;
    assert "actionName" in event || "name" in event;
    assert Truthy(LastUserAction(parts).value);
    var ctx := ContextDict(Get(event, "context", Obj(map[]))).value;
    assert ActionDecision(ActionName(event), ctx) == Decline;
    assert Decide(parts) == Decline;
    assert Respond(parts, useUi, sessionId, stream, sessions, lib, badPart)
      == RespondTo(Decline, useUi, sessionId, stream, sessions, lib, badPart);
    assert Respond(parts, useUi, sessionId, other, sessions, lib, badPart)
      == RespondTo(Decline, useUi, sessionId, other, sessions, lib, badPart);
  }

  /**
   * The hand-off in UI mode: when the tool recorded a place in the session
   * during the confirmation agent's run, the turn answers with the
   * question and the three form messages, waiting for input, and the
   * pending entry is gone. Unlike the weather executor, the reply's words
   * do not matter.
   */
  lemma PendingFormRendered(content: string, sessions: map<string, map<string, Value>>,
                            sessionId: string, before: Option<map<string, Value>>, p: Place,
                            lib: Library, badPart: Value -> string)
    requires content != [] && sessionId in sessions && sessions[sessionId] == WithPending(before, p)
    ensures var o := AfterRun(true, Some(content), true, sessions, sessionId, lib, badPart);
      o.events == [StatusUpdate(InputRequired, Some(ConfirmationParts(TwoAgentLayout, p)), false)]
      && o.sessions == sessions[sessionId := sessions[sessionId] - {PendingKey}]
  {
    ToolThenCheck(TwoAgentLayout, false, content, sessions, sessionId, before, p);
  }

  /**
   * After the weather agent's run, or without the UI, or without content,
   * a pending entry is neither looked at nor removed: the reply is the
   * agent's content and the session store is untouched.
   */
  lemma NoCheckOutsideConfirmation(useUi: bool, content: Option<string>, toConfirmation: bool,
                                   sessions: map<string, map<string, Value>>, sessionId: string,
                                   lib: Library, badPart: Value -> string)
    requires !useUi || !toConfirmation || content.None? || content.value == []
    ensures AfterRun(useUi, content, toConfirmation, sessions, sessionId, lib, badPart)
      == Outcome(ReplyEvents(content, lib, badPart), sessions, None)
  {
  }

  /**
   * A reply whose JSON after the first delimiter sits in a json fence is
   * answered with the text before the delimiter and one data part per
   * message the fenced body parses to.
   */
  lemma FencedReplyParts(content: string, body: string, xs: seq<Value>, lib: Library, badPart: Value -> string)
    requires Contains(content, Agent.Delimiter)
    requires SplitFirst(content, Agent.Delimiter).1 == "```json" + "\n" + body + "\n" + "```"
    requires body != [] && !IsSpace(body[0]) && !IsSpace(body[|body| - 1])
    requires lib.loads(body) == Ok(Arr(xs)) && forall i :: 0 <= i < |xs| ==> xs[i].Obj?
    ensures ReplyEvents(Some(content), lib, badPart)
      == [StatusUpdate(Completed, Some(TextHead(SplitFirst(content, Agent.Delimiter).0) + DataParts(xs, badPart).value), true)]
  {
    var split := SplitFirst(content, Agent.Delimiter);
    FencedJsonParts(split.1, body, xs, lib, badPart);
    assert ReplyParts(content, RegexStrip, lib, badPart) == Ok(TextHead(split.0) + DataParts(xs, badPart).value);
    assert content != [];
  }

  /** The JSON of such a reply: the fence is removed and the body's messages become data parts. */
  lemma FencedJsonParts(json: string, body: string, xs: seq<Value>, lib: Library, badPart: Value -> string)
    requires json == "```json" + "\n" + body + "\n" + "```"
    requires body != [] && !IsSpace(body[0]) && !IsSpace(body[|body| - 1])
    requires lib.loads(body) == Ok(Arr(xs)) && forall i :: 0 <= i < |xs| ==> xs[i].Obj?
    ensures JsonParts(json, RegexStrip, lib, badPart) == DataParts(xs, badPart)
    ensures DataParts(xs, badPart).Ok?
  {
    assert Strip(json) == json by {
      assert json[0] == '`' && json[|json| - 1] == '`';
      PrintableUnspaced('`');
      Agent.StripUnpadded(json);
    }
    assert Clean(RegexStrip, json) == body by {
      RegexFencedBodyRecovered(body);
    }
    assert MessageParts(Arr(xs), badPart) == DataParts(xs, badPart);
  }

  /**
   * A bare fence around the JSON: the weather agent's own cleanup finds
   * the body, but this executor's regular expressions leave the opening
   * backticks in front of it; when that does not parse, the raw JSON text
   * is sent as a text part instead of the UI messages.
   */
  lemma BareFenceShownRaw(content: string, body: string, lib: Library, badPart: Value -> string)
    requires Contains(content, Agent.Delimiter)
    requires SplitFirst(content, Agent.Delimiter).1 == BareFenced(body)
    requires body != [] && !IsSpace(body[0]) && !IsSpace(body[|body| - 1])
    requires lib.loads("```" + "\n" + body).Err?
    ensures Agent.CleanFence(SplitFirst(content, Agent.Delimiter).1) == body
    ensures ReplyEvents(Some(content), lib, badPart)
      == [StatusUpdate(Completed, Some(TextHead(SplitFirst(content, Agent.Delimiter).0) + [TextPart(BareFenced(body))]), true)]
  {
    var json := SplitFirst(content, Agent.Delimiter).1;
    BareFenceCleanups(body);
    assert Strip(json) != [] by {
      Agent.StripUnpadded(json);
    }
    assert JsonParts(json, RegexStrip, lib, badPart) == Ok([TextPart(json)]);
    assert ReplyParts(content, RegexStrip, lib, badPart)
      == Ok(TextHead(SplitFirst(content, Agent.Delimiter).0) + [TextPart(json)]);
  }

  // ---- the executor ----

  /** The decision as `execute` computes it: scan the parts, then follow the UI event or take the text. */
  method DecideTurn(parts: seq<Part>) returns (d: Decision)
    ensures d == Decide(parts)
  {
    var ui := ScanParts(parts);
    if !(ui.Some? && Truthy(ui.value)) {
      return Consult(Typed(UserInput(parts)));
    }
    if !ui.value.Obj? {
      return Fail(NoGet(ui.value));
    }
    var event := ui.value.fields;
    var action := ActionName(event);
    var ctx := ContextDict(Get(event, "context", Obj(map[])));
    if ctx.Err? {
      return Fail(ctx.error);
    }
    if action == Str("confirmWeather") {
      d := Consult(Confirmed(ReadSelection(ctx.value)));
    } else if action == Str("rejectWeather") {
      d := Decline;
    } else {
      d := Consult(Pressed(action));
    }
  }

  /** The turn after the agent's run: the pending check when it applies, then the reply status. */
  method Reply(content: Option<string>, toConfirmation: bool, useUi: bool, sessionId: string,
               lib: Library, badPart: Value -> string, queue: EventQueue, svc: SessionService)
    modifies queue, svc
    ensures var o := AfterRun(useUi, content, toConfirmation, old(svc.sessions), sessionId, lib, badPart);
      queue.events == old(queue.events) + o.events && svc.sessions == o.sessions
  {
    if useUi && content.Some? && content.value != "" && toConfirmation {
      var render := ConsumePending(TwoAgentLayout, false, content.value, sessionId, svc);
      if render.Some? {
        queue.Enqueue(StatusUpdate(InputRequired, render, false));
        return;
      }
    }
    if content.None? || content.value == "" {
      queue.Enqueue(TextStatus(Completed, NoResponseText, true));
    } else if Contains(content.value, Agent.Delimiter) {
      var parts, fault := AssembleParts(content.value, RegexStrip, lib, badPart);
      if fault.Some? {
        queue.Enqueue(TextStatus(Completed, ErrorText(fault.value), true));
      } else {
        queue.Enqueue(StatusUpdate(Completed, Some(parts), true));
      }
    } else {
      queue.Enqueue(StatusUpdate(Completed, Some([TextPart(Strip(content.value))]), true));
    }
  }

  /** A turn that asks an agent: relay the agent's stream, then reply. */
  method Run(request: Request, useUi: bool, sessionId: string, stream: Request -> seq<Agent.StreamItem>,
             lib: Library, badPart: Value -> string, queue: EventQueue, svc: SessionService)
    modifies queue, svc
    ensures var relayed := Relay(stream(request));
      var after := AfterRun(useUi, relayed.content, ForConfirmationAgent(request), old(svc.sessions), sessionId, lib, badPart);
      queue.events == old(queue.events) + (relayed.updates + after.events) && svc.sessions == after.sessions
  {
    ghost var before := queue.events;
    ghost var sessions := svc.sessions;
    var items := stream(request);
    var content := RelayStream(items, queue);
    assert svc.sessions == sessions;
    ghost var relayed := queue.events;
    ghost var after := AfterRun(useUi, content, ForConfirmationAgent(request), sessions, sessionId, lib, badPart);
    Reply(content, ForConfirmationAgent(request), useUi, sessionId, lib, badPart, queue, svc);
    assert queue.events == relayed + after.events && svc.sessions == after.sessions;
  }

  /**
   * `execute`: the events it enqueues and the session store it leaves are
   * those of `Respond`, and no exception escapes. `svc` is the confirmation
   * agent's session store as its run leaves it.
   */
  method Execute(parts: seq<Part>, useUi: bool, sessionId: string, stream: Request -> seq<Agent.StreamItem>,
                 lib: Library, badPart: Value -> string, queue: EventQueue, svc: SessionService)
    modifies queue, svc
    ensures var o := Respond(parts, useUi, sessionId, stream, old(svc.sessions), lib, badPart);
      queue.events == old(queue.events) + o.events && svc.sessions == o.sessions
  {
    ghost var before := queue.events;
    ghost var sessions := svc.sessions;
    queue.Enqueue(Opening);
    var d := DecideTurn(parts);
    ghost var o := RespondTo(d, useUi, sessionId, stream, sessions, lib, badPart);
    assert o == Respond(parts, useUi, sessionId, stream, sessions, lib, badPart);
    match d
    case Decline =>
      queue.Enqueue(TextStatus(Completed, DeclineText, true));
      assert queue.events == before + o.events;
    case Fail(f) =>
      queue.Enqueue(TextStatus(Completed, ErrorText(f), true));
      assert queue.events == before + o.events;
    case Consult(request) =>
      Run(request, useUi, sessionId, stream, lib, badPart, queue, svc);
      ghost var relayed := Relay(stream(request));
      ghost var after := AfterRun(useUi, relayed.content, ForConfirmationAgent(request), sessions, sessionId, lib, badPart);
      assert o.events == [Opening] + relayed.updates + after.events && o.sessions == after.sessions;
      assert queue.events == before + [Opening] + (relayed.updates + after.events);
      Weather.AppendRegrouped(before, [Opening], relayed.updates, after.events);
  }
}

=== FILE: weather_agent.dfy ===
/**
 * The weather agent's streaming turn: it asks the language model for a
 * reply, validates a UI reply against the A2UI schema, retries once with a
 * corrective prompt, and ends with exactly one completion item.
 *
 * The model's replies are an oracle: for each attempt, how many
 * intermediate events the runner produced and the final text, if any.
 */
module WeatherAgent {
  import opened Wrappers
  import opened Text
  import opened Json
  import opened Schema
  import opened Sessions

  const Delimiter := "---a2ui_JSON---"
  const MaxRetries: nat := 1
  const ProcessingMessage := "Fetching weather information..."
  const ConfigErrorText :=
    "I'm sorry, I'm facing an internal configuration error with my UI components. Please contact support."
  const NoReplyText := "I'm sorry, I encountered an error " + "and couldn't process your request."
  const ExhaustedText := "I'm sorry, I'm having trouble " + "generating the interface for that "
    + "request right now. " + "Please try again in a moment."

  /** The characters `str.lstrip("```json")` removes: a set, not a prefix. */
  const FenceChars: set<char> := {'`', 'j', 's', 'o', 'n'}
  const Backtick: set<char> := {'`'}

  /** What one generation call produced: intermediate events, then the final text if any. */
  datatype Generation = Generation(progress: nat, reply: Option<string>)

  /** An item the stream yields: a progress update or the completion. */
  datatype StreamItem = Working(updates: string) | Done(content: string)

  /** Everything one `stream` call yields, and the prompts it sent to the model in order. */
  datatype Transcript = Transcript(items: seq<StreamItem>, prompts: seq<Prompt>)

  datatype ValidationError =
    | MissingDelimiter
    | EmptyJsonPart
    | EmptyCleaned
    | ParseFailed(message: string)
    | SchemaViolation(message: string)

  /** `str(e)` of the exception the validation raised. */
  function ErrorText(e: ValidationError): string {
    match e
    case MissingDelimiter => "Delimiter '---a2ui_JSON---' not found."
    case EmptyJsonPart => "JSON part is empty."
    case EmptyCleaned => "Cleaned JSON string is empty."
    case ParseFailed(m) => m
    case SchemaViolation(m) => m
  }

  /** The tail every corrective prompt ends with: the original request, verbatim. */
  function RetryTail(query: string): string {
    "Please retry the original request: '" + query + "'"
  }

  /**
   * A prompt sent to the model: the user's query itself, or one of the two
   * corrective prompts built around it.
   */
  datatype Prompt =
    | Original(query: string)
    | NoReplyRetry(query: string)
    | InvalidRetry(errorMessage: string, query: string)
  {
    /** The text sent to the model. */
    function Rendered(): (r: string)
      ensures Original? ==> r == query
      ensures !Original? ==> |r| > |query| && StartsWith(r, Preamble())
    {
      if Original? then query
      else
        StartsWithAppend(Preamble(), RetryTail(query));
        Preamble() + RetryTail(query)
    }

    /** What a corrective prompt says before it repeats the request. */
    function Preamble(): string
      requires !Original?
    {
      match this
      case NoReplyRetry(_) => "I received no response. Please try again. "
      case InvalidRetry(e, _) =>
        "Your previous response was invalid. " + e + " "
        + "You MUST generate a valid response that strictly follows the A2UI JSON SCHEMA. "
        + "The response MUST be a JSON list of A2UI messages. "
        + "Ensure the response is split by '---a2ui_JSON---' and the JSON part is well-formed. "
    }
  }

  /** `json_string.strip().lstrip("```json").rstrip("```").strip()`. */
  function CleanFence(s: string): (r: string)
    ensures |r| <= |s|
    ensures r == [] || (!IsSpace(r[0]) && !IsSpace(r[|r| - 1]))
  {
    Strip(RStripChars(LStripChars(Strip(s), FenceChars), Backtick))
  }

  /**
   * The text after the first delimiter (`content.split(DELIMITER, 1)[1]`),
   * or None when the delimiter does not occur.
   */
  function JsonPart(content: string): (r: Option<string>)
    ensures r.None? <==> !Contains(content, Delimiter)
    ensures r.Some? ==> Contains(content, Delimiter) && r.value == SplitFirst(content, Delimiter).1
  {
    match FindFrom(content, Delimiter, 0)
    case None => None
    case Some(i) => Some(content[i + |Delimiter|..])
  }

  /**
   * The UI check of one reply: the delimiter, a non-empty JSON part, a
   * non-empty cleaned string, a successful parse and the array schema, in
   * that order; the first failure is the error.
   */
  function Validate(content: string, lib: Library): (r: Result<Value, ValidationError>)
    ensures r == Err(MissingDelimiter) <==> !Contains(content, Delimiter)
    ensures r.Ok? ==>
      JsonPart(content).Some?
      && var json := JsonPart(content).value;
      Strip(json) != [] && CleanFence(json) != []
      && lib.loads(CleanFence(json)) == Ok(r.value) && lib.validate(r.value).None?
  {
    match JsonPart(content)
    case None => Err(MissingDelimiter)
    case Some(json) =>
      if Strip(json) == [] then Err(EmptyJsonPart)
      else
        var cleaned := CleanFence(json);
        if cleaned == [] then Err(EmptyCleaned)
        else match lib.loads(cleaned)
          case Err(m) => Err(ParseFailed(m))
          case Ok(v) =>
            match lib.validate(v)
            case None => Ok(v)
            case Some(m) => Err(SchemaViolation(m))
  }

  /**
   * The schema check of `lib` is the one the agent builds at start-up: the
   * A2UI message schema wrapped as the items of an array.
   */
  ghost predicate EnforcesSchema(lib: Library) {
    forall v :: lib.validate(v).None? <==> ValidBatch(v)
  }

  /** Whether a reply is accepted: always in text mode, by `Validate` in UI mode. */
  predicate Accepts(useUi: bool, content: string, lib: Library) {
    !useUi || Validate(content, lib).Ok?
  }

  /** The `error_message` a rejected UI reply leaves for the corrective prompt. */
  function Feedback(content: string, lib: Library): string {
    match Validate(content, lib)
    case Ok(_) => ""
    case Err(e) => "Validation failed: " + ErrorText(e) + "."
  }

  function Progress(n: nat): (r: seq<StreamItem>)
    ensures |r| == n && forall i :: 0 <= i < n ==> r[i] == Working(ProcessingMessage)
  {
    seq(n, _ => Working(ProcessingMessage))
  }

  predicate WellEnded(items: seq<StreamItem>) {
    |items| > 0 && items[|items| - 1].Done?
    && forall i :: 0 <= i < |items| - 1 ==> items[i].Working?
  }

  function FinalContent(t: Transcript): string
    requires WellEnded(t.items)
  {
    t.items[|t.items| - 1].content
  }

  /** What one attempt leads to: another attempt with the given prompt, or the completion. */
  datatype Step = Retry(prompt: Prompt) | Finish(content: string)

  /**
   * The decision after attempt `attempt` (0-based) got `g`. A missing reply
   * before the last attempt retries with the no-reply prompt; a missing
   * reply on the last attempt is replaced by the fixed error text and
   * validated like any reply; a rejected reply retries with the corrective
   * prompt (after the last attempt that prompt is never sent).
   */
  function StepOf(useUi: bool, query: string, g: Generation, lib: Library, attempt: nat): (s: Step)
    ensures s.Retry? ==> !s.prompt.Original? && s.prompt.query == query
    ensures s.Finish? ==> Accepts(useUi, s.content, lib)
    ensures s.Finish? && g.reply.Some? ==> s.content == g.reply.value
  {
    if g.reply.None? && attempt < MaxRetries then Retry(NoReplyRetry(query))
    else
      var content := if g.reply.Some? then g.reply.value else NoReplyText;
      if Accepts(useUi, content, lib) then Finish(content)
      else Retry(InvalidRetry(Feedback(content, lib), query))
  }

  /** The attempts from index `attempt` on (0-based), sending `prompt` next. */
  function AttemptsFrom(useUi: bool, query: string, gens: seq<Generation>, lib: Library,
                        attempt: nat, prompt: Prompt): (t: Transcript)
    requires attempt <= MaxRetries + 1 && |gens| > MaxRetries
    decreases MaxRetries + 1 - attempt
    ensures |t.prompts| <= MaxRetries + 1 - attempt
    ensures WellEnded(t.items)
    ensures attempt <= MaxRetries ==> |t.prompts| >= 1 && t.prompts[0] == prompt
    ensures forall i :: 1 <= i < |t.prompts| ==> !t.prompts[i].Original? && t.prompts[i].query == query
    ensures useUi ==> FinalContent(t) == ExhaustedText || Validate(FinalContent(t), lib).Ok?
  {
    if attempt > MaxRetries then Transcript([Done(ExhaustedText)], [])
    else
      var g := gens[attempt];
      match StepOf(useUi, query, g, lib, attempt)
      case Finish(content) => Transcript(Progress(g.progress) + [Done(content)], [prompt])
      case Retry(next) =>
        var rest := AttemptsFrom(useUi, query, gens, lib, attempt + 1, next);
        Transcript(Progress(g.progress) + rest.items, [prompt] + rest.prompts)
  }

  /**
   * What `stream` yields and sends for one query: a configuration error
   * without any model call when the UI schema did not load, otherwise the
   * attempts starting from the original query.
   */
  function StreamTranscript(useUi: bool, schemaLoaded: bool, query: string,
                            gens: seq<Generation>, lib: Library): (t: Transcript)
    requires |gens| > MaxRetries
    ensures |t.prompts| <= 2
    ensures WellEnded(t.items)
    ensures useUi && !schemaLoaded ==> t == Transcript([Done(ConfigErrorText)], [])
    ensures !(useUi && !schemaLoaded) ==> |t.prompts| >= 1 && t.prompts[0] == Original(query)
    ensures forall i :: 1 <= i < |t.prompts| ==> !t.prompts[i].Original? && t.prompts[i].query == query
    ensures useUi && schemaLoaded ==>
      FinalContent(t) == ExhaustedText || Validate(FinalContent(t), lib).Ok?
  {
    if useUi && !schemaLoaded then Transcript([Done(ConfigErrorText)], [])
    else AttemptsFrom(useUi, query, gens, lib, 0, Original(query))
  }

  /** The session state after `stream` made sure the session exists and knows the base URL. */
  function StateWithBaseUrl(all: map<string, map<string, Value>>, id: string, baseUrl: string): (st: map<string, Value>)
    ensures "base_url" in st
    ensures id in all ==> forall k :: k in all[id] ==> k in st && st[k] == all[id][k]
    ensures id !in all ==> st == map["base_url" := Str(baseUrl)]
  {
    if id !in all then map["base_url" := Str(baseUrl)]
    else if "base_url" in all[id] then all[id]
    else all[id]["base_url" := Str(baseUrl)]
  }

  class Agent {
    const useUi: bool
    const baseUrl: string
    /** Whether the schema constant parsed when the agent was built. */
    const schemaLoaded: bool
    /** The runner's session store. */
    const sessions: SessionService

    constructor (baseUrl: string, useUi: bool, schemaParses: bool, sessions: SessionService)
      ensures this.baseUrl == baseUrl && this.useUi == useUi
      ensures this.schemaLoaded == schemaParses && this.sessions == sessions
    {
      this.baseUrl := baseUrl;
      this.useUi := useUi;
      this.schemaLoaded := schemaParses;
      this.sessions := sessions;
    }

    /** Creates the session with the base URL, or adds the base URL to an existing session lacking it. */
    method EnsureSession(sessionId: string)
      modifies sessions
      ensures sessions.sessions ==
        old(sessions.sessions)[sessionId := StateWithBaseUrl(old(sessions.sessions), sessionId, baseUrl)]
    {
      var existing := sessions.Lookup(sessionId);
      if existing.None? {
        sessions.Create(sessionId, map["base_url" := Str(baseUrl)]);
      } else if "base_url" !in existing.value {
        sessions.Put(sessionId, "base_url", Str(baseUrl));
      } else {
        assert sessions.sessions[sessionId := sessions.sessions[sessionId]] == sessions.sessions;
      }
    }

    /**
     * `stream(query, session_id)`: returns what it yields and the prompts
     * it sent, one per generation call.
     */
    method Stream(query: string, sessionId: string, gens: seq<Generation>, lib: Library)
      returns (items: seq<StreamItem>, prompts: seq<Prompt>)
      requires |gens| > MaxRetries
      modifies sessions
      ensures Transcript(items, prompts) == StreamTranscript(useUi, schemaLoaded, query, gens, lib)
      ensures sessions.sessions ==
        old(sessions.sessions)[sessionId := StateWithBaseUrl(old(sessions.sessions), sessionId, baseUrl)]
    {
      EnsureSession(sessionId);
      if useUi && !schemaLoaded {
        items, prompts := [Done(ConfigErrorText)], [];
        return;
      }
      items, prompts := RunAttempts(query, gens, lib);
    }

    /** The retry loop of `stream`: at most `MaxRetries + 1` generation calls, then one completion. */
    method RunAttempts(query: string, gens: seq<Generation>, lib: Library)
      returns (items: seq<StreamItem>, prompts: seq<Prompt>)
      requires |gens| > MaxRetries
      ensures Transcript(items, prompts) == AttemptsFrom(useUi, query, gens, lib, 0, Original(query))
    {
      items, prompts := [], [];
      var attempt: nat := 0;
      var current := Original(query);
      while attempt <= MaxRetries
        invariant attempt <= MaxRetries + 1
        invariant AttemptsFrom(useUi, query, gens, lib, 0, Original(query))
          == Prepend(items, prompts, AttemptsFrom(useUi, query, gens, lib, attempt, current))
        decreases MaxRetries + 1 - attempt
      {
        ghost var items0, prompts0, attempt0, current0 := items, prompts, attempt, current;
        var g := gens[attempt];
        attempt := attempt + 1;
        prompts := prompts + [current];
        items := EmitProgress(items, g.progress);

        var content: string;
        if g.reply.None? {
          if attempt <= MaxRetries {
            current := NoReplyRetry(query);
            assert StepOf(useUi, query, g, lib, attempt0) == Retry(current);
            StepRetried(useUi, query, gens, lib, attempt0, current0, current, items0, prompts0);
            continue;
          }
          content := NoReplyText;
        } else {
          content := g.reply.value;
        }

        var isValid, errorMessage := Check(content, lib);
        if isValid {
          assert StepOf(useUi, query, g, lib, attempt0) == Finish(content);
          StepFinished(useUi, query, gens, lib, attempt0, current0, content, items0, prompts0);
          items := items + [Done(content)];
          return;
        }
        var next := InvalidRetry(errorMessage, query);
        assert StepOf(useUi, query, g, lib, attempt0) == Retry(next);
        StepRetried(useUi, query, gens, lib, attempt0, current0, next, items0, prompts0);
        if attempt <= MaxRetries {
          current := next;
        } else {
          assert AttemptsFrom(useUi, query, gens, lib, attempt, current)
            == AttemptsFrom(useUi, query, gens, lib, attempt, next);
        }
      }
      items := items + [Done(ExhaustedText)];
    }

    /**
     * The validation block of one attempt: always valid in text mode; in UI
     * mode valid exactly when `Validate` accepts, and otherwise the message
     * for the corrective prompt.
     */
    method Check(content: string, lib: Library) returns (isValid: bool, errorMessage: string)
      ensures isValid == Accepts(useUi, content, lib)
      ensures !isValid ==> errorMessage == Feedback(content, lib)
    {
      isValid := false;
      errorMessage := "";
      if useUi {
        var verdict := Validate(content, lib);
        if verdict.Ok? {
          isValid := true;
        } else {
          errorMessage := "Validation failed: " + ErrorText(verdict.error) + ".";
        }
      } else {
        isValid := true;
      }
    }
  }

  /** `items` and `prompts` followed by what the transcript `t` yields and sends. */
  function Prepend(items: seq<StreamItem>, prompts: seq<Prompt>, t: Transcript): Transcript {
    Transcript(items + t.items, prompts + t.prompts)
  }

  /** One intermediate update per event the runner produced before its final response. */
  method EmitProgress(items: seq<StreamItem>, n: nat) returns (r: seq<StreamItem>)
    ensures r == items + Progress(n)
  {
    r := items;
    var k := 0;
    while k < n
      invariant 0 <= k <= n
      invariant r == items + Progress(k)
    {
      r := r + [Working(ProcessingMessage)];
      k := k + 1;
    }
  }

  /** An attempt that leads to another one contributes its updates and its prompt. */
  lemma StepRetried(useUi: bool, query: string, gens: seq<Generation>, lib: Library,
                    attempt: nat, prompt: Prompt, next: Prompt, items: seq<StreamItem>, prompts: seq<Prompt>)
    requires attempt <= MaxRetries && |gens| > MaxRetries
    requires StepOf(useUi, query, gens[attempt], lib, attempt) == Retry(next)
    ensures Prepend(items, prompts, AttemptsFrom(useUi, query, gens, lib, attempt, prompt))
      == Prepend(items + Progress(gens[attempt].progress), prompts + [prompt],
                 AttemptsFrom(useUi, query, gens, lib, attempt + 1, next))
  {
    var rest := AttemptsFrom(useUi, query, gens, lib, attempt + 1, next);
    var p := Progress(gens[attempt].progress);
    assert items + (p + rest.items) == (items + p) + rest.items;
    assert prompts + ([prompt] + rest.prompts) == (prompts + [prompt]) + rest.prompts;
  }

  /** An attempt that finishes contributes its updates, its prompt and the completion. */
  lemma StepFinished(useUi: bool, query: string, gens: seq<Generation>, lib: Library,
                     attempt: nat, prompt: Prompt, content: string, items: seq<StreamItem>, prompts: seq<Prompt>)
    requires attempt <= MaxRetries && |gens| > MaxRetries
    requires StepOf(useUi, query, gens[attempt], lib, attempt) == Finish(content)
    ensures Prepend(items, prompts, AttemptsFrom(useUi, query, gens, lib, attempt, prompt))
      == Transcript(items + Progress(gens[attempt].progress) + [Done(content)], prompts + [prompt])
  {
    var p := Progress(gens[attempt].progress);
    assert items + (p + [Done(content)]) == (items + p) + [Done(content)];
  }

  // ---- properties of the retry loop ----

  /** Every corrective prompt ends by repeating the original request verbatim. */
  lemma RetryPromptCarriesQuery(p: Prompt)
    requires !p.Original?
    ensures EndsWith(p.Rendered(), RetryTail(p.query))
  {
    EndsWithAppend(p.Preamble(), RetryTail(p.query));
  }

  /** A reply in which some character of the delimiter never occurs is rejected first. */
  lemma NoDelimiterRejected(content: string, lib: Library, k: nat)
    requires k < |Delimiter| && Delimiter[k] !in content
    ensures Validate(content, lib) == Err(MissingDelimiter)
  {
  }

  /** The fixed text that replaces a missing last reply fails UI validation: it holds no '-'. */
  lemma NoReplyTextRejected(lib: Library)
    ensures Validate(NoReplyText, lib) == Err(MissingDelimiter)
  {
    assert '-' !in NoReplyText;
    NoDelimiterRejected(NoReplyText, lib, 0);
  }

  /** The apology after the last rejected attempt would fail UI validation too: it holds no '-'. */
  lemma ExhaustedTextRejected(lib: Library)
    ensures Validate(ExhaustedText, lib) == Err(MissingDelimiter)
  {
    assert '-' !in ExhaustedText;
    NoDelimiterRejected(ExhaustedText, lib, 0);
  }

  /**
   * Text mode: the first attempt that returns text is accepted unchanged;
   * when neither does, the fixed error text is the completion.
   */
  lemma {:induction false} TextModeFirstReply(schemaLoaded: bool, query: string, gens: seq<Generation>, lib: Library)
    requires |gens| > MaxRetries
    ensures var t := StreamTranscript(false, schemaLoaded, query, gens, lib);
      FinalContent(t) == (if gens[0].reply.Some? then gens[0].reply.value else gens[1].reply.GetOr(NoReplyText))
      && |t.prompts| == (if gens[0].reply.Some? then 1 else 2)
  {
    var t := StreamTranscript(false, schemaLoaded, query, gens, lib);
    assert t == AttemptsFrom(false, query, gens, lib, 0, Original(query));
    if gens[0].reply.None? {
      var rest := AttemptsFrom(false, query, gens, lib, 1, NoReplyRetry(query));
      assert t.items == Progress(gens[0].progress) + rest.items;
      assert rest.items == Progress(gens[1].progress) + [Done(gens[1].reply.GetOr(NoReplyText))];
    } else {
      assert t.items == Progress(gens[0].progress) + [Done(gens[0].reply.value)];
    }
  }

  /** UI mode: a first reply that validates is the completion, after a single model call. */
  lemma {:induction false} UiModeFirstAccepted(query: string, gens: seq<Generation>, lib: Library)
    requires |gens| > MaxRetries
    requires gens[0].reply.Some? && Validate(gens[0].reply.value, lib).Ok?
    ensures var t := StreamTranscript(true, true, query, gens, lib);
      FinalContent(t) == gens[0].reply.value && |t.prompts| == 1
  {
    var t := StreamTranscript(true, true, query, gens, lib);
    assert StepOf(true, query, gens[0], lib, 0) == Finish(gens[0].reply.value);
    assert t.items == Progress(gens[0].progress) + [Done(gens[0].reply.value)];
  }

  /**
   * UI mode: when the first reply is rejected or missing and the last
   * attempt returns nothing, the fixed error text fails validation and the
   * apology is the completion, after two model calls.
   */
  lemma {:induction false} UiModeMissingLastReply(query: string, gens: seq<Generation>, lib: Library)
    requires |gens| > MaxRetries
    requires !(gens[0].reply.Some? && Validate(gens[0].reply.value, lib).Ok?)
    requires gens[1].reply.None?
    ensures var t := StreamTranscript(true, true, query, gens, lib);
      FinalContent(t) == ExhaustedText && |t.prompts| == 2
  {
    var t := StreamTranscript(true, true, query, gens, lib);
    NoReplyTextRejected(lib);
    var first := StepOf(true, query, gens[0], lib, 0);
    assert first.Retry?;
    var second := StepOf(true, query, gens[1], lib, 1);
    assert second.Retry?;
    var rest := AttemptsFrom(true, query, gens, lib, 1, first.prompt);
    assert t.items == Progress(gens[0].progress) + rest.items;
    assert rest.items == Progress(gens[1].progress) + [Done(ExhaustedText)];
  }

  // ---- fence cleanup ----

  /**
   * Before the final `strip()`, the cleaned text starts with no character
   * of the fence set and ends with no backtick.
   */
  lemma FenceCleanupIntermediate(s: string)
    ensures var u := RStripChars(LStripChars(Strip(s), FenceChars), Backtick);
      u == [] || (u[0] !in FenceChars && u[|u| - 1] != '`')
  {
  }

  /** Text with no whitespace at either end is left alone by `strip()`. */
  lemma StripUnpadded(s: string)
    requires s == [] || (!IsSpace(s[0]) && !IsSpace(s[|s| - 1]))
    ensures Strip(s) == s
  {
    LStripCharsPrefix([], s, Whitespace);
    assert [] + s == s;
    RStripCharsSuffix(s, [], Whitespace);
    assert s + [] == s;
  }

  /**
   * The cleanup strips characters, not a prefix: a space after the
   * backticks shields the tag from `lstrip`, and the final `strip` then
   * exposes it.
   */
  lemma {:induction false} SpacedTagKept(tag: string)
    requires tag != [] && !IsSpace(tag[0]) && tag[0] != '`'
    requires !IsSpace(tag[|tag| - 1]) && tag[|tag| - 1] != '`'
    ensures CleanFence("```" + " " + tag) == tag
  {
    var s := "```" + " " + tag;
    var spaced := " " + tag;
    assert Strip(s) == s by {
      StripUnpadded(s);
    }
    assert LStripChars(s, FenceChars) == spaced by {
      LStripCharsPrefix("```", spaced, FenceChars);
      assert "```" + spaced == s;
    }
    assert RStripChars(spaced, Backtick) == spaced by {
      RStripCharsSuffix(spaced, [], Backtick);
      assert spaced + [] == spaced;
    }
    assert Strip(spaced) == tag by {
      LStripCharsPrefix(" ", tag, Whitespace);
      StripUnpadded(tag);
    }
  }

  /** So the cleaned text of a fence written with a space can start with a fence letter. */
  lemma FenceCleanupCanLeaveTagLetters()
    ensures CleanFence("```" + " " + "json") == "json" && "json"[0] in FenceChars
  {
    SpacedTagKept("json");
  }

  /** A body wrapped in a json fence on lines of its own comes back out unchanged. */
  lemma {:induction false} FencedBodyRecovered(body: string)
    requires body != [] && !IsSpace(body[0]) && !IsSpace(body[|body| - 1])
    ensures CleanFence("```json" + "\n" + body + "\n" + "```") == body
  {
    var s := "```json" + "\n" + body + "\n" + "```";
    var u := "\n" + body + "\n" + "```";
    var v := "\n" + body + "\n";
    assert Strip(s) == s by {
      StripUnpadded(s);
    }
    assert LStripChars(s, FenceChars) == u by {
      LStripCharsPrefix("```json", u, FenceChars);
      assert "```json" + u == s;
    }
    assert RStripChars(u, Backtick) == v by {
      RStripCharsSuffix(v, "```", Backtick);
      assert v + "```" == u;
    }
    assert Strip(v) == body by {
      LStripCharsPrefix("\n", body + "\n", Whitespace);
      assert "\n" + (body + "\n") == v;
      RStripCharsSuffix(body, "\n", Whitespace);
    }
  }
}

=== FILE: weather_executor.dfy ===
/**
 * The weather executor: one `execute` call per incoming A2A message. It
 * reads the last UI event of the message (or the typed text), turns a
 * button press into an instruction for the weather agent, relays the
 * agent's progress, renders the confirmation form when the agent asked for
 * one, and otherwise answers with the agent's reply.
 */
module WeatherExecutor {
  import opened Wrappers
  import opened Text
  import opened Json
  import opened Sessions
  import opened A2A
  import opened ConfirmationUi
  import opened WeatherTools
  import opened Handoff
  import opened Turn
  import Agent = WeatherAgent

  // ---- the two query helpers of the executor ----

  const WeatherKeywords: seq<string> :=
    ["weather", "forecast", "temperature", "temp", "rain", "snow",
     "sunny", "cloudy", "wind", "humidity", "alerts", "storm"]

  predicate MentionsKeyword(s: string) {
    exists k :: 0 <= k < |WeatherKeywords| && Contains(s, WeatherKeywords[k])
  }

  /** `_is_weather_query`: false for the empty query, else whether a keyword occurs in the lowered, stripped query. */
  predicate IsWeatherQuery(query: string)
    ensures IsWeatherQuery(query) ==> |query| >= 4
  {
    query != [] && MentionsKeyword(Strip(Lower(query)))
  }

  /** A non-empty word of lower-case letters. */
  predicate LowerWord(w: string) {
    |w| > 0 && forall i :: 0 <= i < |w| ==> 'a' <= w[i] <= 'z'
  }

  lemma WordUnspaced(w: string)
    requires LowerWord(w)
    ensures forall i :: 0 <= i < |w| ==> !IsSpace(w[i])
  {
  }

  lemma KeywordsAreWords()
    ensures forall k :: 0 <= k < |WeatherKeywords| ==> LowerWord(WeatherKeywords[k])
  {
    forall k | 0 <= k < |WeatherKeywords|
      ensures LowerWord(WeatherKeywords[k])
    {
      if k < 6 {
        assert LowerWord("weather") && LowerWord("forecast") && LowerWord("temperature");
        assert LowerWord("temp") && LowerWord("rain") && LowerWord("snow");
      } else {
        assert LowerWord("sunny") && LowerWord("cloudy") && LowerWord("wind");
        assert LowerWord("humidity") && LowerWord("alerts") && LowerWord("storm");
      }
    }
  }

  /**
   * Neither the emptiness test nor the strip changes the answer: a query
   * is a weather query exactly when its lower-case form contains a keyword.
   */
  lemma IsWeatherQueryUnstripped(query: string)
    ensures IsWeatherQuery(query) <==> MentionsKeyword(Lower(query))
  {
    if IsWeatherQuery(query) {
      var k :| 0 <= k < |WeatherKeywords| && Contains(Strip(Lower(query)), WeatherKeywords[k]);
      KeywordStripped(Lower(query), k);
    }
    if MentionsKeyword(Lower(query)) {
      var k :| 0 <= k < |WeatherKeywords| && Contains(Lower(query), WeatherKeywords[k]);
      KeywordStripped(Lower(query), k);
      assert |WeatherKeywords[k]| > 0;
    }
  }

  /** A keyword has no whitespace, so it occurs in `s.strip()` exactly when it occurs in `s`. */
  lemma KeywordStripped(s: string, k: nat)
    requires k < |WeatherKeywords|
    ensures |WeatherKeywords[k]| > 0
    ensures Contains(Strip(s), WeatherKeywords[k]) <==> Contains(s, WeatherKeywords[k])
  {
    KeywordsAreWords();
    var w := WeatherKeywords[k];
    WordUnspaced(w);
    ContainsStrip(s, w);
  }

  /** The first index at or after `i` that holds no whitespace, or the end. */
  function SkipSpaces(s: string, i: nat): (j: nat)
    requires i <= |s|
    decreases |s| - i
    ensures i <= j <= |s| && (j == |s| || !IsSpace(s[j]))
    ensures forall k :: i <= k < j ==> IsSpace(s[k])
  {
    if i < |s| && IsSpace(s[i]) then SkipSpaces(s, i + 1) else i
  }

  /**
   * The pattern `,\s*([A-Z]{2})(?:\s*,|\s*$)` tried at index `i`: a comma,
   * whitespace, two capital letters, then whitespace up to a comma or the
   * end. Whitespace and capitals do not overlap, so the match is decided
   * without backtracking. The captured letters when it matches.
   */
  function CodeAt(s: string, i: nat): (r: Option<string>)
    ensures r.Some? ==> i < |s| && s[i] == ',' && |r.value| == 2 && IsUpper(r.value[0]) && IsUpper(r.value[1])
  {
    if i < |s| && s[i] == ',' then
      var j := SkipSpaces(s, i + 1);
      if j + 2 <= |s| && IsUpper(s[j]) && IsUpper(s[j + 1]) then
        var k := SkipSpaces(s, j + 2);
        if k == |s| || s[k] == ',' then Some(s[j..j + 2]) else None
      else None
    else None
  }

  /** `re.search` from index `i` on: where the first match starts, or None when there is none. */
  function FirstCode(s: string, i: nat): (k: Option<nat>)
    requires i <= |s|
    decreases |s| - i
    ensures k.Some? ==> i <= k.value < |s| && CodeAt(s, k.value).Some?
    ensures k.Some? ==> forall m :: i <= m < k.value ==> CodeAt(s, m).None?
    ensures k.None? ==> forall m :: i <= m < |s| ==> CodeAt(s, m).None?
  {
    if i == |s| then None
    else if CodeAt(s, i).Some? then Some(i)
    else
      var k := FirstCode(s, i + 1);
      assert forall m :: i <= m <= i ==> CodeAt(s, m).None?;
      k
  }

  /**
   * `_extract_state_code`: the two capital letters of the leftmost match,
   * or "" when the display name has none.
   */
  function ExtractStateCode(displayName: string): (r: string)
    ensures r == "" || (|r| == 2 && IsUpper(r[0]) && IsUpper(r[1]))
    ensures r == "" <==> forall m :: 0 <= m < |displayName| ==> CodeAt(displayName, m).None?
  {
    match FirstCode(displayName, 0)
    case None => ""
    case Some(k) => CodeAt(displayName, k).value
  }

  /**
   * A display name "place, XY" or "place, XY, rest", with no comma in the
   * place, yields the two capitals XY.
   */
  lemma StateCodeAfterPlace(place: string, code: string, rest: string)
    requires ',' !in place
    requires |code| == 2 && IsUpper(code[0]) && IsUpper(code[1])
    requires rest == [] || rest[0] == ','
    ensures ExtractStateCode(place + ", " + code + rest) == code
  {
    var s := place + ", " + code + rest;
    var i := |place|;
    assert s[i] == ',' && s[i + 1] == ' ' && s[i + 2] == code[0] && s[i + 3] == code[1];
    assert SkipSpaces(s, i + 1) == i + 2 by {
      assert IsSpace(s[i + 1]);
      assert !IsSpace(s[i + 2]);
    }
    assert SkipSpaces(s, i + 4) == i + 4 by {
      assert i + 4 == |s| || s[i + 4] == ',';
    }
    assert s[i + 2..i + 4] == code;
    assert CodeAt(s, i) == Some(code);
    assert forall m :: 0 <= m < i ==> s[m] == place[m];
  }

  /** The example the executor documents: "New York, NY, USA" gives "NY". */
  lemma StateCodeOfNewYork()
    ensures ExtractStateCode("New York, NY, USA") == "NY"
  {
    assert "New York, NY, USA" == "New York" + ", " + "NY" + ", USA";
    StateCodeAfterPlace("New York", "NY", ", USA");
  }

  /** Three capitals after the comma are not a state code: "Springfield, USA" gives "". */
  lemma NoStateCodeInCountry()
    ensures ExtractStateCode("Springfield, USA") == ""
  {
    var s := "Springfield, USA";
    assert SkipSpaces(s, 12) == 13;
    assert SkipSpaces(s, 15) == 15;
    assert CodeAt(s, 11).None?;
    assert forall m :: 0 <= m < |s| && m != 11 ==> s[m] != ',';
  }

  // ---- the button press ----

  /**
   * How the weather executor reads a checkbox entry of the confirm
   * context: an object by the truth of its `literalBoolean` (an object
   * without one, such as an unresolved path, reads as unticked), a boolean
   * as itself, a string when it says "true", "1" or "yes" in any case, and
   * anything else by its truth.
   */
  function Ticked(raw: Value): (r: bool)
    ensures r ==> Truthy(raw)
    ensures raw.Bool? ==> r == raw.b
  {
    match raw
    case Obj(m) => "literalBoolean" in m && Truthy(m["literalBoolean"])
    case Bool(b) => b
    case Str(s) => Lower(s) in {"true", "1", "yes"}
    case _ => Truthy(raw)
  }

  /** Case does not matter for a string entry. */
  lemma TickedIgnoresCase(s: string)
    ensures Ticked(Str(s)) == Ticked(Str(Lower(s)))
  {
    LowerIdempotent(s);
  }

  /**
   * The decoding case by case: a literal boolean gives its truth, an
   * unresolved path reads as unticked, a string says "true", "1" or
   * "yes", and None and the empty string are unticked.
   */
  lemma TickedDecoding(v: Value, path: string, s: string)
    ensures Ticked(Obj(map["literalBoolean" := v])) == Truthy(v)
    ensures !Ticked(Bound(path))
    ensures Ticked(Str(s)) <==> Lower(s) == "true" || Lower(s) == "1" || Lower(s) == "yes"
    ensures !Ticked(Null) && !Ticked(Str(""))
  {
    assert "literalBoolean" !in Bound(path).fields;
  }

  /** What the confirm button reports, with the executor's defaults for missing entries. */
  datatype Confirmation = Confirmation(displayName: Value, latitude: Value, longitude: Value,
                                       stateCode: Value, forecast: bool, alerts: bool)

  function ReadConfirmation(ctx: map<string, Value>): (c: Confirmation)
    ensures "forecastSelected" !in ctx ==> !c.forecast
    ensures "alertsSelected" !in ctx ==> !c.alerts
    ensures "display_name" !in ctx && "location" !in ctx ==> c.displayName == Str("Unknown Location")
    ensures "display_name" !in ctx && "location" in ctx ==> c.displayName == ctx["location"]
    ensures "latitude" !in ctx ==> c.latitude == Zero
    ensures "longitude" !in ctx ==> c.longitude == Zero
    ensures "state_code" !in ctx ==> c.stateCode == Str("")
  {
    var location := Get(ctx, "location", Str("Unknown Location"));
    Confirmation(Get(ctx, "display_name", location), Get(ctx, "latitude", Zero), Get(ctx, "longitude", Zero),
                 Get(ctx, "state_code", Str("")),
                 Ticked(Get(ctx, "forecastSelected", Bool(false))), Ticked(Get(ctx, "alertsSelected", Bool(false))))
  }

  // The fixed text of the confirmation instruction, one constant per run
  // of text between two substituted values.
  const ConfirmOpening := "=== THIS IS A CONFIRMATION MESSAGE - DO NOT CALL show_weather_confirmation() ===\n\nPREVIOUS CONVERSATION CONTEXT:\n- User asked: \"What is the weather in "
  const AskedEnd := "?\"\n- You called geocode_location(\""
  const GeocodedLat := "\") and got coordinates: lat="
  const ShortLon := ", lon="
  const ConfirmRecap := "\n- You called show_weather_confirmation() and the confirmation UI was shown to the user\n- The user has NOW confirmed their selection\n\nUSER CONFIRMED WEATHER REQUEST:\nLocation: "
  const CoordinatesLat := "\nCoordinates: latitude="
  const LongLon := ", longitude="
  const StateCodeLine := "  \nState Code: "
  const OptionsLine := "\nSelected Options: "
  const ConfirmInstructions := "\n\nCRITICAL INSTRUCTIONS - READ CAREFULLY:\n1. DO NOT call show_weather_confirmation() - it was already called and the user has confirmed\n2. DO NOT call geocode_location() - you already have the coordinates from before\n3. IMMEDIATELY fetch weather data using these EXACT function calls based on selected options:\n"
  const ForecastCallOpen := "   - Call get_forecast("
  const AlertsCallOpen := "   - Call get_alerts(\""
  const ConfirmTail := "4. Display the results using WEATHER_FORECAST_EXAMPLE or WEATHER_ALERTS_EXAMPLE templates\n\nThis is NOT a new weather query - this is the CONFIRMATION of your previous query. Fetch the data now."

  /** The opening of the confirmation instruction: it names the place the user asked about. */
  function ConfirmHead(c: Confirmation): string {
    ConfirmOpening + Show(c.displayName) + AskedEnd
  }

  /** The confirmation instruction up to the list of calls: the recap of the conversation, the place, the options. */
  function ConfirmHeader(c: Confirmation, optionsText: string): (r: string)
    ensures StartsWith(r, ConfirmHead(c))
  {
    var place := Show(c.displayName);
    var lat := Show(c.latitude);
    var lon := Show(c.longitude);
    var opening := ConfirmOpening + place + AskedEnd;
    var rest := place + GeocodedLat + lat + ShortLon + lon
      + ConfirmRecap + place + CoordinatesLat + lat + LongLon + lon
      + StateCodeLine + Show(c.stateCode) + OptionsLine + optionsText + ConfirmInstructions;
    StartsWithAppend(opening, rest);
    opening + rest
  }

  function ForecastCall(c: Confirmation): string {
    ForecastCallOpen + Show(c.latitude) + ", " + Show(c.longitude) + ")\n"
  }

  function AlertsCall(c: Confirmation): string {
    AlertsCallOpen + Show(c.stateCode) + "\")\n"
  }

  /** The call lines for the selected options, forecast first. */
  function Calls(c: Confirmation, options: seq<string>): seq<string> {
    (if "forecast" in options then [ForecastCall(c)] else []) + (if "alerts" in options then [AlertsCall(c)] else [])
  }

  /** The instruction a confirmation sends to the agent: it opens with `ConfirmHead` and closes with `ConfirmTail`. */
  function ConfirmQuery(c: Confirmation): (r: string)
    ensures StartsWith(r, Head(Confirmed(c))) && EndsWith(r, Tail(Confirmed(c)))
  {
    var options := SelectedOptions(c.forecast, c.alerts);
    var body := ConfirmHeader(c, Join(options, ", ")) + Concat(Calls(c, options));
    StartsWithExtend(ConfirmHeader(c, Join(options, ", ")), Concat(Calls(c, options)), ConfirmHead(c));
    StartsWithExtend(body, ConfirmTail, ConfirmHead(c));
    EndsWithAppend(body, ConfirmTail);
    body + ConfirmTail
  }

  /**
   * The instruction asks for at least one call: the forecast exactly when
   * it is ticked or nothing is, the alerts exactly when they are ticked,
   * and the forecast first.
   */
  lemma ConfirmQueryCalls(c: Confirmation)
    ensures var calls := Calls(c, SelectedOptions(c.forecast, c.alerts));
      calls != [] && |calls| <= 2
      && (ForecastCall(c) in calls <==> c.forecast || !c.alerts)
      && (AlertsCall(c) in calls <==> c.alerts)
      && calls[0] == (if c.forecast || !c.alerts then ForecastCall(c) else AlertsCall(c))
  {
    assert ForecastCall(c)[14] == 'f' && AlertsCall(c)[14] == 'a';
  }

  /** The options line names what the calls fetch. */
  lemma OptionsText(forecast: bool, alerts: bool)
    ensures Join(SelectedOptions(forecast, alerts), ", ")
      == (if forecast && alerts then "forecast, alerts" else if alerts then "alerts" else "forecast")
  {
  }

  const RejectOpening := "User rejected weather query for "
  const RejectEnd := ". No weather data will be fetched."

  /** The place a rejection names: the display name, else the location, else "Unknown Location". */
  function RejectedPlace(ctx: map<string, Value>): (place: Value)
    ensures "display_name" in ctx ==> place == ctx["display_name"]
    ensures "display_name" !in ctx && "location" in ctx ==> place == ctx["location"]
    ensures "display_name" !in ctx && "location" !in ctx ==> place == Str("Unknown Location")
  {
    Get(ctx, "display_name", Get(ctx, "location", Str("Unknown Location")))
  }

  /** The decimal digits of `n`, as `str(n)` prints them. */
  function Decimal(n: nat): string
    decreases n
  {
    var digit := ["0", "1", "2", "3", "4", "5", "6", "7", "8", "9"][n % 10];
    if n < 10 then digit else Decimal(n / 10) + digit
  }

  /** The index of the first item at or after `i` that is not a string. */
  function FirstNonString(xs: seq<Value>, i: nat): (r: Option<nat>)
    requires i <= |xs|
    decreases |xs| - i
    ensures r.Some? ==> i <= r.value < |xs| && !xs[r.value].Str? && forall j :: i <= j < r.value ==> xs[j].Str?
    ensures r.None? ==> forall j :: i <= j < |xs| ==> xs[j].Str?
  {
    if i == |xs| then None
    else if !xs[i].Str? then Some(i)
    else FirstNonString(xs, i + 1)
  }

  /**
   * `sep.join(v)` on a value: the characters of a string, the items of a
   * list of strings, the keys of a dict in its insertion order (`keys`);
   * a list with another item, or a value that is not iterable, raises.
   */
  function JoinValue(v: Value, sep: string, keys: map<string, Value> -> seq<string>): (r: Result<string, Fault>)
    ensures r.Err? ==> r.error.kind == "TypeError"
    ensures v.Arr? ==> (r.Ok? <==> forall i :: 0 <= i < |v.items| ==> v.items[i].Str?)
    ensures v.Arr? && r.Ok? ==> r.value == Join(seq(|v.items|, i requires 0 <= i < |v.items| => v.items[i].s), sep)
    ensures v.Null? || v.Bool? || v.Num? ==> r.Err?
  {
    match v
    case Str(s) => Ok(Join(seq(|s|, i requires 0 <= i < |s| => [s[i]]), sep))
    case Arr(xs) =>
      (match FirstNonString(xs, 0)
       case Some(i) =>
         Err(Fault("TypeError", "sequence item " + Decimal(i) + ": expected str instance, " + PyTypeName(xs[i]) + " found"))
       case None => Ok(Join(seq(|xs|, i requires 0 <= i < |xs| => xs[i].s), sep)))
    case Obj(m) => Ok(Join(keys(m), sep))
    case _ => Err(Fault("TypeError", "can only join an iterable"))
  }

  const LegacyOpening := "User confirmed weather query for "
  const LegacyLat := " (lat: "
  const LegacyLon := ", lon: "
  const LegacyState := ", state: "
  const LegacyOptionsLabel := "). Selected options: "
  const LegacyEnd := ". Please fetch the weather data."

  /**
   * The options line of the legacy confirmation: the options the context
   * lists, or "forecast, alerts" when it lists none; a list that holds
   * something other than strings raises before any event.
   */
  function LegacyOptions(ctx: map<string, Value>, keys: map<string, Value> -> seq<string>): (r: Result<string, Fault>)
    ensures !Truthy(Get(ctx, "selected_options", Arr([]))) ==> r == Ok("forecast, alerts")
    ensures Truthy(Get(ctx, "selected_options", Arr([]))) ==> r == JoinValue(ctx["selected_options"], ", ", keys)
    ensures r.Err? ==> r.error.kind == "TypeError"
  {
    var selected := Get(ctx, "selected_options", Arr([]));
    if Truthy(selected) then JoinValue(selected, ", ", keys) else Ok("forecast, alerts")
  }

  const EventOpening := "User submitted an event: "
  const EventData := " with data: "

  /**
   * The instruction the executor sends to the agent: the typed text, or
   * the one a button press builds. `QueryText` is the string it sends.
   */
  datatype Instruction =
    | Typed(text: string)
    | Confirmed(confirmation: Confirmation)
    | Rejected(place: Value)
    | LegacyConfirmed(ctx: map<string, Value>, options: string)
    | Submitted(action: Value, data: map<string, Value>)

  /** The instruction a rejection sends: it names the place. */
  function RejectText(place: Value): (r: string)
    ensures StartsWith(r, RejectHead(place)) && EndsWith(r, RejectEnd)
  {
    StartsWithAppend(RejectHead(place), RejectEnd);
    EndsWithAppend(RejectHead(place), RejectEnd);
    RejectHead(place) + RejectEnd
  }

  function RejectHead(place: Value): string {
    RejectOpening + Show(place)
  }

  /** The coordinates and state code of a legacy confirmation, as `lat: …, lon: …, state: …` shows them. */
  function LegacyCoordinates(ctx: map<string, Value>): string {
    Show(Get(ctx, "latitude", Zero)) + LegacyLon + Show(Get(ctx, "longitude", Zero))
    + LegacyState + Show(Get(ctx, "state_code", Str("")))
  }

  /** The opening of a legacy confirmation: it names the location. */
  function LegacyHead(ctx: map<string, Value>): string {
    LegacyOpening + Show(Get(ctx, "location", Str("Unknown Location"))) + LegacyLat
  }

  function LegacyTail(options: string): string {
    LegacyOptionsLabel + options + LegacyEnd
  }

  /** The instruction the legacy confirmation action sends. */
  function LegacyText(ctx: map<string, Value>, options: string): (r: string)
    ensures StartsWith(r, LegacyHead(ctx)) && EndsWith(r, LegacyTail(options))
  {
    StartsWithAppend(LegacyHead(ctx), LegacyCoordinates(ctx) + LegacyTail(options));
    EndsWithNested(LegacyHead(ctx), LegacyCoordinates(ctx), LegacyTail(options));
    LegacyHead(ctx) + (LegacyCoordinates(ctx) + LegacyTail(options))
  }

  /** The opening of the instruction for any other action: it names the action. */
  function EventHead(action: Value): string {
    EventOpening + Show(action) + EventData
  }

  /** The instruction any other action sends: its name and its context. */
  function EventText(action: Value, ctx: map<string, Value>): (r: string)
    ensures StartsWith(r, EventHead(action)) && EndsWith(r, Show(Obj(ctx)))
  {
    StartsWithAppend(EventHead(action), Show(Obj(ctx)));
    EndsWithAppend(EventHead(action), Show(Obj(ctx)));
    EventHead(action) + Show(Obj(ctx))
  }

  /**
   * The opening of a built instruction: its fixed words and the place or
   * the action it is about.
   */
  function Head(i: Instruction): string {
    match i
    case Typed(_) => ""
    case Confirmed(c) => ConfirmHead(c)
    case Rejected(place) => RejectHead(place)
    case LegacyConfirmed(ctx, _) => LegacyHead(ctx)
    case Submitted(action, _) => EventHead(action)
  }

  /** The close of a built instruction: fixed words, the options, or the context shown. */
  function Tail(i: Instruction): string {
    match i
    case Typed(_) => ""
    case Confirmed(_) => ConfirmTail
    case Rejected(_) => RejectEnd
    case LegacyConfirmed(_, options) => LegacyTail(options)
    case Submitted(_, data) => Show(Obj(data))
  }

  /**
   * The text sent to the agent: typed text as it is; a built instruction
   * opens with its `Head` and closes with its `Tail`.
   */
  function QueryText(i: Instruction): (r: string)
    ensures i.Typed? ==> r == i.text
    ensures !i.Typed? ==> StartsWith(r, Head(i)) && EndsWith(r, Tail(i))
  {
    match i
    case Typed(text) => text
    case Confirmed(c) => ConfirmQuery(c)
    case Rejected(place) => RejectText(place)
    case LegacyConfirmed(ctx, options) => LegacyText(ctx, options)
    case Submitted(action, data) => EventText(action, data)
  }

  /**
   * The legacy confirmation names the place, the coordinates and the state
   * code in one line; with an empty context it reads "User confirmed
   * weather query for Unknown Location (lat: 0.0, lon: 0.0, state: ).
   * Selected options: …".
   */
  lemma LegacyTextOnEmptyContext(options: string)
    ensures QueryText(LegacyConfirmed(map[], options)) == LegacyHead(map[]) + LegacyCoordinates(map[]) + LegacyTail(options)
    ensures LegacyHead(map[]) == "User confirmed weather query for " + "Unknown Location" + " (lat: "
    ensures LegacyCoordinates(map[]) == "0.0, lon: 0.0, state: "
    ensures LegacyTail(options) == "). Selected options: " + options + ". Please fetch the weather data."
  {
    EmptyContextDefaults();
    var ctx: map<string, Value> := map[];
    assert LegacyHead(ctx) + (LegacyCoordinates(ctx) + LegacyTail(options))
        == LegacyHead(ctx) + LegacyCoordinates(ctx) + LegacyTail(options);
  }

  /** The defaults an empty context gives the legacy text. */
  lemma EmptyContextDefaults()
    ensures LegacyHead(map[]) == LegacyOpening + "Unknown Location" + LegacyLat
    ensures LegacyCoordinates(map[]) == "0.0, lon: 0.0, state: "
  {
    var ctx: map<string, Value> := map[];
    assert Show(Get(ctx, "latitude", Zero)) == "0.0" && Show(Get(ctx, "longitude", Zero)) == "0.0";
    assert Show(Get(ctx, "state_code", Str(""))) == "";
    assert "0.0" + LegacyLon + "0.0" + LegacyState + "" == "0.0, lon: 0.0, state: ";
  }



  /** Only typed text can be empty: every instruction built from a button press says something. */
  lemma BuiltQueriesNonEmpty(i: Instruction)
    ensures QueryText(i) == [] ==> i == Typed([])
  {
    match i
    case Confirmed(c) =>
      var options := SelectedOptions(c.forecast, c.alerts);
      assert |ConfirmHeader(c, Join(options, ", "))| >= |ConfirmOpening|;
    case _ =>
  }

  /**
   * The instruction for an action, given the converted context: the
   * confirmation read from the context for `confirmAlerts`, the rejected
   * place for `rejectAlerts`, the legacy text for
   * `confirm_weather_selection` (or the `join` error), nothing for
   * `toggle_option`, and the generic event text for any other action.
   */
  function ActionQuery(action: Value, ctx: map<string, Value>, keys: map<string, Value> -> seq<string>): (d: Dispatch<Instruction>)
    ensures d.Ask? ==> d.action == action
    ensures d.Quiet? <==> action == Str("toggle_option")
    ensures d.Raised? ==> d.fault.kind == "TypeError"
    ensures action == Str("confirmAlerts") <==> d.Ask? && d.instruction.Confirmed?
    ensures action == Str("confirmAlerts") ==> d.instruction == Confirmed(ReadConfirmation(ctx))
    ensures action == Str("rejectAlerts") <==> d.Ask? && d.instruction.Rejected?
    ensures action == Str("rejectAlerts") ==> d.instruction == Rejected(RejectedPlace(ctx))
    ensures action == Str("confirm_weather_selection") <==> d.Raised? || (d.Ask? && d.instruction.LegacyConfirmed?)
    ensures action == Str("confirm_weather_selection") ==>
      (d.Raised? <==> LegacyOptions(ctx, keys).Err?)
      && (d.Raised? ==> d.fault == LegacyOptions(ctx, keys).error)
      && (d.Ask? ==> d.instruction == LegacyConfirmed(ctx, LegacyOptions(ctx, keys).value))
    ensures d.Ask? && d.instruction.Submitted? ==> d.instruction == Submitted(action, ctx)
    ensures d.Ask? ==> !d.instruction.Typed?
  {
    if action == Str("confirmAlerts") then Ask(Confirmed(ReadConfirmation(ctx)), action)
    else if action == Str("rejectAlerts") then Ask(Rejected(RejectedPlace(ctx)), action)
    else if action == Str("confirm_weather_selection") then
      match LegacyOptions(ctx, keys)
      case Err(f) => Raised(f)
      case Ok(options) => Ask(LegacyConfirmed(ctx, options), action)
    else if action == Str("toggle_option") then Quiet
    else Ask(Submitted(action, ctx), action)
  }

  /** The dispatch on a UI event that is a dict: convert its context, then follow its action. */
  function ActionDispatch(event: map<string, Value>, keys: map<string, Value> -> seq<string>): (d: Dispatch<Instruction>)
    ensures d.Ask? ==> d.action == ActionName(event)
    ensures d.Quiet? ==> ActionName(event) == Str("toggle_option")
    ensures d.Raised? ==> d.fault.kind == "TypeError"
    ensures ContextDict(Get(event, "context", Obj(map[]))).Err? ==> d == Raised(ContextDict(Get(event, "context", Obj(map[]))).error)
    ensures ContextDict(Get(event, "context", Obj(map[]))).Ok? ==>
      d == ActionQuery(ActionName(event), ContextDict(Get(event, "context", Obj(map[]))).value, keys)
  {
    match ContextDict(Get(event, "context", Obj(map[])))
    case Err(f) => Raised(f)
    case Ok(ctx) => ActionQuery(ActionName(event), ctx, keys)
  }

  /**
   * The dispatch on the incoming message: a truthy UI event is handled by
   * its action (one that is not a dict raises on `.get`); otherwise the
   * typed text is the query.
   */
  function Decide(parts: seq<Part>, keys: map<string, Value> -> seq<string>): (d: Dispatch<Instruction>)
    ensures d.Raised? ==> LastUserAction(parts).Some? && Truthy(LastUserAction(parts).value)
    ensures !(LastUserAction(parts).Some? && Truthy(LastUserAction(parts).value)) ==> d == Ask(Typed(UserInput(parts)), Null)
    ensures LastUserAction(parts).Some? && Truthy(LastUserAction(parts).value) && LastUserAction(parts).value.Obj? ==>
      d == ActionDispatch(LastUserAction(parts).value.fields, keys)
    ensures LastUserAction(parts).Some? && Truthy(LastUserAction(parts).value) && !LastUserAction(parts).value.Obj? ==>
      d.Raised? && d.fault.kind == "AttributeError"
  {
    var ui := LastUserAction(parts);
    if ui.Some? && Truthy(ui.value) then
      if ui.value.Obj? then ActionDispatch(ui.value.fields, keys) else Raised(NoGet(ui.value))
    else Ask(Typed(UserInput(parts)), Null)
  }

  /**
   * The dispatch followed by the early return on an empty query; by
   * `BuiltQueriesNonEmpty` only typed text can be empty.
   */
  function Route(parts: seq<Part>, keys: map<string, Value> -> seq<string>): (d: Dispatch<Instruction>)
    ensures d.Ask? ==> d.instruction != Typed([])
    ensures d != Decide(parts, keys) ==> d.Quiet? && Decide(parts, keys) == Ask(Typed([]), Null)
  {
    var d := Decide(parts, keys);
    if d.Ask? && d.instruction == Typed([]) then Quiet else d
  }

  // ---- the reply ----

  /** The state of the final status: completed after a confirmation or a rejection, else waiting for input. */
  function FinalState(action: Value): (st: TaskState)
    ensures st == Completed || st == InputRequired
  {
    if action == Str("confirmAlerts") || action == Str("confirm_weather_selection") || action == Str("rejectAlerts")
    then Completed else InputRequired
  }

  const NoResponseText := "I'm sorry, I didn't receive a response. Please try again."

  const FailureOpening := "I encountered an error while processing your request. Please try again. Error: "

  function FailureText(f: Fault): string {
    FailureOpening + f.kind + ": " + f.message
  }

  /**
   * The status that ends a turn whose reply rendered no form: an apology
   * when the agent gave no content, the parts of the reply otherwise, or
   * the failure text when building a part raised. Every branch enqueues
   * exactly one status, final exactly when completed.
   */
  function ReplyEvents(content: Option<string>, state: TaskState, lib: Library, badPart: Value -> string): (r: seq<Event>)
    requires state == Completed || state == InputRequired
    ensures |r| == 1 && r[0].StatusUpdate? && r[0].message.Some?
    ensures r[0].final <==> r[0].state == Completed
    ensures r[0].state == state || r[0].state == Completed
    ensures content.Some? && content.value != "" && Contains(content.value, Agent.Delimiter) ==>
      var built := ReplyParts(content.value, CharsetStrip, lib, badPart);
      (built.Ok? ==> r == [StatusUpdate(state, Some(built.value), state == Completed)])
      && (built.Err? ==> r == [TextStatus(Completed, FailureText(built.error), true)])
  {
    if content.None? || content.value == "" then [TextStatus(Completed, NoResponseText, true)]
    else if Contains(content.value, Agent.Delimiter) then
      match ReplyParts(content.value, CharsetStrip, lib, badPart)
      case Err(f) => [TextStatus(Completed, FailureText(f), true)]
      case Ok(parts) => [StatusUpdate(state, Some(parts), state == Completed)]
    else [StatusUpdate(state, Some([TextPart(Strip(content.value))]), state == Completed)]
  }

  /**
   * The same block as the executor writes it: the status update sits in
   * the branch for replies without the delimiter, so a reply that carries
   * A2UI JSON and builds its parts enqueues nothing.
   */
  function ReplyEventsAsWritten(content: Option<string>, state: TaskState, lib: Library, badPart: Value -> string): (r: seq<Event>)
    requires state == Completed || state == InputRequired
    ensures |r| <= 1
    ensures r != [] ==> r[0].StatusUpdate? && (r[0].final <==> r[0].state == Completed)
    ensures r == [] ==> content.Some? && Contains(content.value, Agent.Delimiter)
  {
    if content.None? || content.value == "" then [TextStatus(Completed, NoResponseText, true)]
    else if Contains(content.value, Agent.Delimiter) then
      match ReplyParts(content.value, CharsetStrip, lib, badPart)
      case Err(f) => [TextStatus(Completed, FailureText(f), true)]
      case Ok(parts) => []
    else [StatusUpdate(state, Some([TextPart(Strip(content.value))]), state == Completed)]
  }

  /**
   * The code as written differs from the corrected block exactly on the
   * replies that carry A2UI JSON and build their parts: those end the turn
   * without any status, final or not.
   */
  lemma AsWrittenDropsUiReplies(content: Option<string>, state: TaskState, lib: Library, badPart: Value -> string)
    requires state == Completed || state == InputRequired
    ensures var ui := content.Some? && content.value != "" && Contains(content.value, Agent.Delimiter)
                      && ReplyParts(content.value, CharsetStrip, lib, badPart).Ok?;
      (ui ==> ReplyEventsAsWritten(content, state, lib, badPart) == [])
      && (!ui ==> ReplyEventsAsWritten(content, state, lib, badPart) == ReplyEvents(content, state, lib, badPart))
  {
  }

  /**
   * Every reply the UI agent accepts is such a reply: as written, a turn
   * answered with validated A2UI JSON never reports a status, so the task
   * is left working even after a confirmation.
   */
  lemma AcceptedUiReplyUnreported(content: string, state: TaskState, lib: Library, badPart: Value -> string)
    requires state == Completed || state == InputRequired
    requires Agent.EnforcesSchema(lib) && Agent.Validate(content, lib).Ok?
    ensures ReplyEventsAsWritten(Some(content), state, lib, badPart) == []
  {
    AcceptedReplyParts(content, lib, badPart);
    AsWrittenDropsUiReplies(Some(content), state, lib, badPart);
  }

  /**
   * With the corrected block, every reply the UI agent accepts is reported:
   * one status in the turn's final state carrying the text before the
   * delimiter and then one data part per validated message, in order.
   */
  lemma AcceptedUiReplyReported(content: string, state: TaskState, lib: Library, badPart: Value -> string)
    requires state == Completed || state == InputRequired
    requires Agent.EnforcesSchema(lib) && Agent.Validate(content, lib).Ok?
    ensures var r := ReplyEvents(Some(content), state, lib, badPart);
      var msgs := Agent.Validate(content, lib).value.items;
      var head := TextHead(SplitFirst(content, Agent.Delimiter).0);
      r[0].state == state && (r[0].final <==> state == Completed)
      && |r[0].message.value| == |head| + |msgs|
      && r[0].message.value[..|head|] == head
      && forall i :: 0 <= i < |msgs| ==> r[0].message.value[|head| + i] == DataPart(msgs[i].fields)
  {
    AcceptedReplyParts(content, lib, badPart);
    var msgs := Agent.Validate(content, lib).value.items;
    var head := TextHead(SplitFirst(content, Agent.Delimiter).0);
    var parts := head + DataParts(msgs, badPart).value;
    assert content != [] by {
      assert |Agent.Delimiter| > 0;
    }
    assert ReplyEvents(Some(content), state, lib, badPart) == [StatusUpdate(state, Some(parts), state == Completed)];
    assert parts[..|head|] == head;
  }

  /** The turn after the agent's run: the pending check (UI mode, some content), then the reply. */
  function AfterRun(useUi: bool, content: Option<string>, action: Value, sessions: map<string, map<string, Value>>,
                    sessionId: string, lib: Library, badPart: Value -> string): (o: Outcome)
    ensures o.raised.None? && |o.events| == 1
    ensures o.events[0].StatusUpdate? && (o.events[0].final <==> o.events[0].state == Completed)
  {
    if useUi && content.Some? && content.value != "" then
      var check := PendingCheck(WeatherLayout, true, content.value, StateOf(sessions, sessionId));
      var after := AfterCheck(sessions, sessionId, check);
      if check.render.Some? then Outcome([StatusUpdate(InputRequired, check.render, false)], after, None)
      else Outcome(ReplyEvents(content, FinalState(action), lib, badPart), after, None)
    else Outcome(ReplyEvents(content, FinalState(action), lib, badPart), sessions, None)
  }

  /**
   * A turn for a decided dispatch: nothing for a quiet one, the exception
   * for a raised one; otherwise the new task when there is none, a working
   * status per progress item of the agent's stream for `query`, and the
   * events after the run.
   */
  function RespondTo(d: Dispatch<Instruction>, hasTask: bool, useUi: bool, sessionId: string,
                     stream: Instruction -> seq<Agent.StreamItem>, sessions: map<string, map<string, Value>>,
                     lib: Library, badPart: Value -> string): (o: Outcome)
    ensures o.raised.Some? <==> d.Raised?
    ensures o.raised.Some? ==> o.raised.value == d.fault
    ensures o.events != [] <==> d.Ask?
  {
    match d
    case Quiet => Outcome([], sessions, None)
    case Raised(f) => Outcome([], sessions, Some(f))
    case Ask(instruction, action) =>
      var start := if hasTask then [] else [TaskCreated];
      var relayed := Relay(stream(instruction));
      var after := AfterRun(useUi, relayed.content, action, sessions, sessionId, lib, badPart);
      Outcome(start + relayed.updates + after.events, after.sessions, None)
  }

  /**
   * A turn that asks the agent opens the task when there is none, sends a
   * working status per progress item and ends with one status, final
   * exactly when completed; the sessions keep their ids.
   */
  lemma AskedTurnShape(instruction: Instruction, action: Value, hasTask: bool, useUi: bool, sessionId: string,
                       stream: Instruction -> seq<Agent.StreamItem>, sessions: map<string, map<string, Value>>,
                       lib: Library, badPart: Value -> string)
    ensures var o := RespondTo(Ask(instruction, action), hasTask, useUi, sessionId, stream, sessions, lib, badPart);
      var relayed := Relay(stream(instruction));
      var n := if hasTask then 0 else 1;
      |o.events| == n + |relayed.updates| + 1
      && (!hasTask ==> o.events[0] == TaskCreated)
      && o.events[n..n + |relayed.updates|] == relayed.updates
      && o.events[|o.events| - 1].StatusUpdate?
      && (o.events[|o.events| - 1].final <==> o.events[|o.events| - 1].state == Completed)
      && o.sessions.Keys == sessions.Keys
  {
    var o := RespondTo(Ask(instruction, action), hasTask, useUi, sessionId, stream, sessions, lib, badPart);
    var relayed := Relay(stream(instruction));
    var after := AfterRun(useUi, relayed.content, action, sessions, sessionId, lib, badPart);
    var start := if hasTask then [] else [TaskCreated];
    assert o.events == start + relayed.updates + after.events;
    if relayed.content.Some? {
      CheckTouchesOnlyPending(WeatherLayout, true, relayed.content.value, sessions, sessionId);
    }
  }

  /** One `execute` call on an incoming message. */
  function Respond(parts: seq<Part>, hasTask: bool, useUi: bool, sessionId: string,
                   stream: Instruction -> seq<Agent.StreamItem>, sessions: map<string, map<string, Value>>,
                   lib: Library, badPart: Value -> string, keys: map<string, Value> -> seq<string>): (o: Outcome)
    ensures o.raised.Some? ==> o.events == [] && LastUserAction(parts).Some? && Truthy(LastUserAction(parts).value)
    ensures !(LastUserAction(parts).Some? && Truthy(LastUserAction(parts).value)) && UserInput(parts) == [] ==>
      o.events == [] && o.raised.None?
    ensures o.events != [] ==>
      o.events[|o.events| - 1].StatusUpdate?
      && (o.events[|o.events| - 1].final <==> o.events[|o.events| - 1].state == Completed)
  {
    var d := Route(parts, keys);
    if d.Ask? then
      AskedTurnShape(d.instruction, d.action, hasTask, useUi, sessionId, stream, sessions, lib, badPart);
      RespondTo(d, hasTask, useUi, sessionId, stream, sessions, lib, badPart)
    else RespondTo(d, hasTask, useUi, sessionId, stream, sessions, lib, badPart)
  }

  // ---- properties of a turn ----

  /** A toggle press returns without any event: the ticks stay on the client until a button press. */
  lemma ToggleIsQuiet(parts: seq<Part>, keys: map<string, Value> -> seq<string>)
    requires LastUserAction(parts).Some? && LastUserAction(parts).value.Obj?
    requires var event := LastUserAction(parts).value.fields;
      ActionName(event) == Str("toggle_option") && ContextDict(Get(event, "context", Obj(map[]))).Ok?
    ensures Route(parts, keys) == Quiet
  {
    var event := LastUserAction(parts).value.fields;
    assert "actionName" in event || "name" in event;
  }

  /** A message with neither a UI event nor any text returns without any event. */
  lemma BlankMessageIsQuiet(parts: seq<Part>, keys: map<string, Value> -> seq<string>)
    requires !(LastUserAction(parts).Some? && Truthy(LastUserAction(parts).value))
    requires UserInput(parts) == []
    ensures Route(parts, keys) == Quiet
  {
  }

  /**
   * The hand-off in UI mode: when the tool recorded a place in the session
   * and the reply does not talk about the weather, the turn answers with
   * the question and the three form messages, waiting for input, and the
   * pending entry is gone.
   */
  lemma PendingFormRendered(content: string, action: Value, sessions: map<string, map<string, Value>>,
                            sessionId: string, before: Option<map<string, Value>>, p: Place,
                            lib: Library, badPart: Value -> string)
    requires content != [] && sessionId in sessions && sessions[sessionId] == WithPending(before, p)
    requires !MentionsWeather(content)
    ensures var o := AfterRun(true, Some(content), action, sessions, sessionId, lib, badPart);
      o.events == [StatusUpdate(InputRequired, Some(ConfirmationParts(WeatherLayout, p)), false)]
      && o.sessions == sessions[sessionId := sessions[sessionId] - {PendingKey}]
  {
    ToolThenCheck(WeatherLayout, true, content, sessions, sessionId, before, p);
  }

  /**
   * A reply that already talks about the weather is answered as a reply,
   * and a pending entry is removed all the same.
   */
  lemma MentionedWeatherSkipsForm(content: string, action: Value, sessions: map<string, map<string, Value>>,
                                  sessionId: string, before: Option<map<string, Value>>, p: Place,
                                  lib: Library, badPart: Value -> string)
    requires content != [] && sessionId in sessions && sessions[sessionId] == WithPending(before, p)
    requires MentionsWeather(content)
    ensures var o := AfterRun(true, Some(content), action, sessions, sessionId, lib, badPart);
      o.events == ReplyEvents(Some(content), FinalState(action), lib, badPart)
      && o.sessions == sessions[sessionId := sessions[sessionId] - {PendingKey}]
  {
    var st := StateOf(sessions, sessionId);
    assert PendingKey in st.value && st.value[PendingKey] == Record(p);
    assert "location" in Record(p).fields;
    var c := PendingCheck(WeatherLayout, true, content, st);
    assert c == Check(None, true);
    assert AfterCheck(sessions, sessionId, c) == sessions[sessionId := sessions[sessionId] - {PendingKey}];
  }

  /** Without content the turn completes with the fixed apology, whatever the mode, and the store is untouched. */
  lemma NoContentCompletes(useUi: bool, content: Option<string>, action: Value,
                           sessions: map<string, map<string, Value>>, sessionId: string,
                           lib: Library, badPart: Value -> string)
    requires content.None? || content.value == []
    ensures AfterRun(useUi, content, action, sessions, sessionId, lib, badPart)
      == Outcome([TextStatus(Completed, NoResponseText, true)], sessions, None)
  {
  }

  /**
   * A plain-text reply that renders no form ends the turn with the
   * stripped text: completed and final after a confirmation or a
   * rejection, waiting for input after anything else.
   */
  lemma TextReplyState(useUi: bool, content: string, action: Value, sessions: map<string, map<string, Value>>,
                       sessionId: string, lib: Library, badPart: Value -> string)
    requires content != [] && !Contains(content, Agent.Delimiter)
    requires !(useUi && HasPending(StateOf(sessions, sessionId)))
    ensures var e := AfterRun(useUi, Some(content), action, sessions, sessionId, lib, badPart).events;
      var ends := action in {Str("confirmAlerts"), Str("confirm_weather_selection"), Str("rejectAlerts")};
      e == [StatusUpdate(if ends then Completed else InputRequired, Some([TextPart(Strip(content))]), ends)]
  {
  }

  // ---- the executor ----

  /** The dispatch as `execute` computes it: scan the parts, then follow the UI event or take the text. */
  method DispatchTurn(parts: seq<Part>, keys: map<string, Value> -> seq<string>) returns (d: Dispatch<Instruction>)
    ensures d == Route(parts, keys)
  {
    var ui := ScanParts(parts);
    if ui.Some? && Truthy(ui.value) {
      if !ui.value.Obj? {
        return Raised(NoGet(ui.value));
      }
      var event := ui.value.fields;
      var ctx := ContextDict(Get(event, "context", Obj(map[])));
      if ctx.Err? {
        return Raised(ctx.error);
      }
      d := ActionQuery(ActionName(event), ctx.value, keys);
    } else {
      d := Ask(Typed(UserInput(parts)), Null);
    }
    if d.Ask? && d.instruction == Typed([]) {
      d := Quiet;
    }
  }

  /**
   * The turn after the agent's run: the pending check on the session store
   * in UI mode, then the reply status.
   */
  method Reply(content: Option<string>, action: Value, useUi: bool, sessionId: string,
               lib: Library, badPart: Value -> string, queue: EventQueue, svc: SessionService)
    modifies queue, svc
    ensures var o := AfterRun(useUi, content, action, old(svc.sessions), sessionId, lib, badPart);
      queue.events == old(queue.events) + o.events && svc.sessions == o.sessions
  {
    if useUi && content.Some? && content.value != "" {
      var render := ConsumePending(WeatherLayout, true, content.value, sessionId, svc);
      if render.Some? {
        queue.Enqueue(StatusUpdate(InputRequired, render, false));
        return;
      }
    }
    var state := FinalState(action);
    if content.None? || content.value == "" {
      queue.Enqueue(TextStatus(Completed, NoResponseText, true));
    } else if Contains(content.value, Agent.Delimiter) {
      var parts, fault := AssembleParts(content.value, CharsetStrip, lib, badPart);
      if fault.Some? {
        queue.Enqueue(TextStatus(Completed, FailureText(fault.value), true));
      } else {
        queue.Enqueue(StatusUpdate(state, Some(parts), state == Completed));
      }
    } else {
      queue.Enqueue(StatusUpdate(state, Some([TextPart(Strip(content.value))]), state == Completed));
    }
  }

  lemma AppendRegrouped<T>(a: seq<T>, b: seq<T>, c: seq<T>, e: seq<T>)
    ensures a + b + c + e == a + (b + c + e)
  {
  }

  /** A turn that asks the agent: open the task if needed, relay the agent's stream, then reply. */
  method Run(instruction: Instruction, action: Value, hasTask: bool, useUi: bool, sessionId: string,
             stream: Instruction -> seq<Agent.StreamItem>, lib: Library, badPart: Value -> string,
             queue: EventQueue, svc: SessionService)
    modifies queue, svc
    ensures var relayed := Relay(stream(instruction));
      var after := AfterRun(useUi, relayed.content, action, old(svc.sessions), sessionId, lib, badPart);
      queue.events == old(queue.events) + ((if hasTask then [] else [TaskCreated]) + relayed.updates + after.events)
      && svc.sessions == after.sessions
  {
    ghost var before := queue.events;
    ghost var sessions := svc.sessions;
    ghost var start: seq<Event> := [];
    if !hasTask {
      queue.Enqueue(TaskCreated);
      start := [TaskCreated];
    }
    var items := stream(instruction);
    var content := RelayStream(items, queue);
    assert svc.sessions == sessions;
    ghost var relayed := queue.events;
    ghost var after := AfterRun(useUi, content, action, sessions, sessionId, lib, badPart);
    Reply(content, action, useUi, sessionId, lib, badPart, queue, svc);
    assert queue.events == relayed + after.events && svc.sessions == after.sessions;
    AppendRegrouped(before, start, Relay(items).updates, after.events);
  }

  /** A decided turn: nothing, the exception, or the run. */
  method Answer(d: Dispatch<Instruction>, hasTask: bool, useUi: bool, sessionId: string,
                stream: Instruction -> seq<Agent.StreamItem>, lib: Library, badPart: Value -> string,
                queue: EventQueue, svc: SessionService)
    returns (raised: Option<Fault>)
    modifies queue, svc
    ensures var o := RespondTo(d, hasTask, useUi, sessionId, stream, old(svc.sessions), lib, badPart);
      queue.events == old(queue.events) + o.events && svc.sessions == o.sessions && raised == o.raised
  {
    match d
    case Quiet => raised := None;
    case Raised(f) => raised := Some(f);
    case Ask(instruction, action) =>
      Run(instruction, action, hasTask, useUi, sessionId, stream, lib, badPart, queue, svc);
      raised := None;
  }

  /**
   * `execute`: the events it enqueues, the session store it leaves and the
   * exception it lets escape are those of `Respond`. `svc` is the agent's
   * session store as the agent's run leaves it.
   */
  method Execute(parts: seq<Part>, hasTask: bool, useUi: bool, sessionId: string,
                 stream: Instruction -> seq<Agent.StreamItem>, lib: Library, badPart: Value -> string,
                 keys: map<string, Value> -> seq<string>, queue: EventQueue, svc: SessionService)
    returns (raised: Option<Fault>)
    modifies queue, svc
    ensures var o := Respond(parts, hasTask, useUi, sessionId, stream, old(svc.sessions), lib, badPart, keys);
      queue.events == old(queue.events) + o.events && svc.sessions == o.sessions && raised == o.raised
  {
    var d := DispatchTurn(parts, keys);
    raised := Answer(d, hasTask, useUi, sessionId, stream, lib, badPart, queue, svc);
  }
}

=== FILE: weather_tools.dfy ===
/**
 * The confirmation tool the confirmation agent calls after geocoding: it
 * records the place under the pending-confirmation key of the session
 * state, for the executor to pick up after the run, and returns a marker
 * with the same values.
 */
module WeatherTools {
  import opened Wrappers
  import opened Json
  import opened Sessions
  import opened ConfirmationUi

  /** The five keys of a pending confirmation. */
  const PlaceKeys: set<string> := {"location", "latitude", "longitude", "display_name", "state_code"}

  /** The marker's flag key. */
  const RenderFlag := "_a2ui_render_confirmation"

  /** The record the tool stores: the five values under their keys, nothing else. */
  function Record(p: Place): (r: Value)
    ensures r.Obj? && r.fields.Keys == PlaceKeys
  {
    Obj(map["location" := p.location, "latitude" := p.latitude, "longitude" := p.longitude,
            "display_name" := p.displayName, "state_code" := p.stateCode])
  }

  /** The tool's return value (before `json.dumps`): the flag set to true and the five values. */
  function Marker(p: Place): (r: Value)
    ensures r.Obj? && r.fields.Keys == PlaceKeys + {RenderFlag}
    ensures r.fields[RenderFlag] == Bool(true)
    ensures forall k :: k in PlaceKeys ==> r.fields[k] == Record(p).fields[k]
  {
    Obj(Record(p).fields[RenderFlag := Bool(true)])
  }

  /**
   * What an executor reads back from a pending record (`confirmation_data["location"]`
   * and so on): the place, or None when a key is missing, which raises.
   */
  function ReadPlace(cd: map<string, Value>): (r: Option<Place>)
    ensures r.Some? <==> PlaceKeys <= cd.Keys
  {
    if "location" in cd && "latitude" in cd && "longitude" in cd && "display_name" in cd && "state_code" in cd
    then Some(Place(cd["location"], cd["latitude"], cd["longitude"], cd["display_name"], cd["state_code"]))
    else None
  }

  /** The executor reads back exactly the place the tool wrote. */
  lemma ReadWrittenPlace(p: Place)
    ensures ReadPlace(Record(p).fields) == Some(p)
  {
  }

  /** The marker carries the same place as the record. */
  lemma MarkerCarriesPlace(p: Place)
    ensures ReadPlace(Marker(p).fields) == Some(p)
  {
    ReadWrittenPlace(p);
  }

  /**
   * The state after the write: a missing state first becomes the empty
   * mapping, then the pending key is set to the record; every other key
   * keeps its value.
   */
  function WithPending(state: Option<map<string, Value>>, p: Place): (r: map<string, Value>)
    ensures PendingKey in r && r[PendingKey] == Record(p)
    ensures forall k :: k != PendingKey ==> (k in r <==> state.Some? && k in state.value)
    ensures forall k :: k != PendingKey && k in r ==> r[k] == state.value[k]
  {
    state.GetOr(map[])[PendingKey := Record(p)]
  }

  /** A second confirmation replaces the first without any check. */
  lemma {:induction false} PendingOverwritten(state: Option<map<string, Value>>, p: Place, q: Place)
    ensures WithPending(Some(WithPending(state, p)), q) == WithPending(state, q)
  {
    var a := WithPending(Some(WithPending(state, p)), q);
    var b := WithPending(state, q);
    assert a.Keys == b.Keys;
    assert forall k :: k in a ==> a[k] == b[k];
  }

  /** The tool's view of the session: its state, which ADK lets be None. */
  class ToolContext {
    var state: Option<map<string, Value>>

    constructor (state: Option<map<string, Value>>)
      ensures this.state == state
    {
      this.state := state;
    }
  }

  /**
   * `show_weather_confirmation`: record the place in the state, then return
   * the marker. `writeRaises` says whether the state refuses the write; the
   * tool swallows that exception, so the state keeps its old value and the
   * marker is returned all the same.
   */
  method ShowWeatherConfirmation(location: Value, latitude: Value, longitude: Value,
                                 displayName: Value, stateCode: Value, writeRaises: bool, ctx: ToolContext)
    returns (marker: Value)
    modifies ctx
    ensures !writeRaises ==>
      ctx.state == Some(WithPending(old(ctx.state), Place(location, latitude, longitude, displayName, stateCode)))
    ensures writeRaises ==> ctx.state == old(ctx.state)
    ensures marker == Marker(Place(location, latitude, longitude, displayName, stateCode))
  {
    if !writeRaises {
      if ctx.state.None? {
        ctx.state := Some(map[]);
      }
      var record := Obj(map["location" := location, "latitude" := latitude, "longitude" := longitude,
                            "display_name" := displayName, "state_code" := stateCode]);
      ctx.state := Some(ctx.state.value[PendingKey := record]);
    }
    marker := Marker(Place(location, latitude, longitude, displayName, stateCode));
  }
}

=== FILE: wrappers.dfy ===
/** Optional values and results with an error, as used throughout the model. */
module Wrappers {

  datatype Option<+T> = None | Some(value: T) {
    function GetOr(default: T): T {
      match this
      case Some(v) => v
      case None => default
    }
  }

  datatype Result<+R, +E> = Ok(value: R) | Err(error: E)
}
